=== FILE: README.md ===
# qb-data-loader in Dafny

A model of the CSV → QuickBooks customer pipeline of qb-data-loader:

- the upload and start endpoints that create an import job and queue the worker;
- the worker, which:
  - numbers the parsed rows;
  - maps each row onto the canonical customer schema (`normalize_to_canonical`);
  - validates the row and builds its payload (`CustomerCanonical`, `to_qbo_payload`);
  - posts each valid row, reads QuickBooks' answer, and settles the job as completed or partially successful;
- the older flat validator `CustomerRow`;
- the token-refresh decision and client construction of `get_qbo_client`;
- the job reports (listing, progress, error export);
- the WebSocket subscriber registry.

Everything is modelled as immutable datatypes and pure functions.

- A Python `dict` is an insertion-ordered sequence of pairs (`Dict`).
- JSON values are a datatype (`Json`).
- A job carries its rows as a sequence in store order.

Modules, in dependency order:

| file | module | models |
|---|---|---|
| wrappers.dfy | Wrappers | `Option` / `Result` |
| text.dfy | Text | `str.strip`, `str.lower`, slicing, `str(int)` |
| dict.dfy | Dict | ordered `dict` with `get`, item assignment and `pop` |
| json.dfy | Json | JSON values, truthiness, `str` / `repr` |
| jsonb.dfy | Jsonb | the key order of objects read back from PostgreSQL `jsonb` columns |
| url.dfy | Url | `urlparse`'s clean-up of its input, its scheme/authority split and its bracket check |
| customer.dfy | Customer | `Phone`, `Email`, `WebAddr`, `Address`, `CustomerCanonical`, `to_qbo_payload` |
| rowschema.dfy | RowSchema | `CustomerRow` and its `model_dump` |
| normalize.dfy | Normalize | `normalize_to_canonical` |
| store.dfy | Store | `Job`, `JobRow`, `MappingTemplate` records and status counts |
| qbo.dfy | Qbo | `get_qbo_client` |
| registry.dfy | Registry | `ConnectionManager` |
| worker.dfy | Worker | `import_valid_rows_task` |
| imports.dfy | Imports | `upload_csv_for_mapping`, `start_import_with_mapping` |
| reporting.dfy | Reporting | `list_jobs`, `get_job`, `download_errors` |
| lifecycle.dfy | Lifecycle | properties across upload, start, worker and reports |

Effects are parameters:

- **E-mail syntax.** The `EmailStr` check is `syntax: string -> Option<string>`; it gives the normalised address or refuses.
- **Validation errors.** Their text (`str(ValidationError)`) is `describe`.
- **The clock.** `now` is in whole seconds.
- **The token endpoint.** Its answer is `grant`.
- **Building the client.** Its failure is `clientError`.
- **QuickBooks.** Its answer to each posted row is `answer(rowNumber, payload)`.
- **Sending to a socket.** `delivered(socket)` says whether a send succeeds.
- **The database.** The id it assigns to a new job is `newId`.

Some behaviour of the code is worth stating plainly:

- **Websites.** The check accepts any text that gains an `https://` prefix and then has an authority. `"not a url!!"` is therefore accepted (`Customer.CleanUrlNotAnAddress`). An authority with a `[` but no `]`, or the reverse, makes `urlparse` raise "Invalid IPv6 URL" (`Customer.CleanUrlUnpairedBracket`); the worker normalises outside its `try`, so such a cell stops the run. `urlparse` drops tabs and line breaks before reading, while the accepted address keeps them.
- **Key order.** `meta`, `raw_data` and a template's `mapping` are `jsonb` columns, which give an object's keys back shorter first, not as written. The worker therefore walks a mapping in that order, so of two columns sent to one field the longer name wins (`Lifecycle.StartedMappingOrder`), and the error export lists the first failed row's columns in that order (`Reporting.ExportHeaderOrder`).
- **Addresses.** An address without `Line1` is kept, not dropped, and `Country` is never given a default.
- **Posting.** Rows are posted one at a time, in order, with no batching.
- **Duplicates.** Nothing detects a customer that already exists; QuickBooks' own reply decides.

## Model

| member | source | states |
|---|---|---|
| Text.Strip | app/tasks/import_tasks.py:36 | `strip()` never lengthens the text; the result is empty exactly for blank text and otherwise starts and ends with a non-space character |
| Text.StripUnchanged | app/schemas/customer.py:16 | text with no white space at either end is its own strip |
| Text.StripIdempotent | app/schemas/customer.py:16 | stripping twice is stripping once |
| Text.Lower | app/tasks/import_tasks.py:59 | `lower()` keeps the length and lowers each ASCII capital, leaving every other character |
| Text.Take | app/tasks/import_tasks.py:219 | `text[:n]` is a prefix of at most n characters, the whole text when it is short enough |
| Text.NatToStringRoundTrip | app/tasks/import_tasks.py:224 | the decimal rendering of a status code reads back as the same number |
| Dict.Get | app/tasks/import_tasks.py:36 | `d.get(k)` is absent exactly when no entry has key k, and otherwise is the value of an entry with key k |
| Dict.Put | app/tasks/import_tasks.py:134 | `d[k] = v` maps k to v, leaves every other key's value, keeps an existing key in place or appends a new one, and keeps keys unique |
| Dict.Remove | app/schemas/customer.py:132 | `d.pop(k)` removes k, leaves every other key, shrinks the dict by one exactly when k was there |
| Url.Split | app/schemas/customer.py:55-60 | `urlparse` reads the text without leading control characters and spaces and without tabs and line breaks; the scheme is empty without a scheme prefix and otherwise the lower-cased text before the first colon; it raises "Invalid IPv6 URL" exactly when the authority holds one bracket without the other |
| Url.RemoveUnsafe | app/schemas/customer.py:55 | the text left holds no tab, carriage return or line feed |
| Url.RemoveUnsafeKeeps | app/schemas/customer.py:55 | every other character keeps its number of occurrences |
| Url.RemoveUnsafeAppend | app/schemas/customer.py:55 | the removal works piece by piece over concatenation |
| Url.LStripControl | app/schemas/customer.py:55 | only leading characters up to U+0020 are dropped, and the text left starts with none |
| Url.SplitIgnoresUnsafe | app/schemas/customer.py:55 | a tab or line break after the first character changes nothing in the split, so "ht\ttps://x" splits like "https://x" |
| Url.SplitBare | app/schemas/customer.py:55-56 | text without `:` and `/` has no scheme and no authority |
| Url.SplitHttpsPrefixed | app/schemas/customer.py:56-58 | after `https://` is put in front, the scheme is "https" and the authority is the text, tabs and line breaks removed, up to the first `/`, `?` or `#`, unless that authority's brackets do not pair up, which raises |
| Url.SplitUnpairedBracket | app/schemas/customer.py:56-58 | `https://[foo` raises "Invalid IPv6 URL" |
| Customer.CleanPhone | app/schemas/customer.py:13-20 | a phone string is stripped and a blank one gives no number; `None` stays `None`; a kept number is non-empty and already stripped |
| Customer.NewPhone | app/schemas/customer.py:10-20 | `Phone(FreeFormNumber=v)` succeeds exactly when the cleaned number is absent or at most 30 characters, and holds the cleaned number |
| Customer.NewPhoneOfString | app/schemas/customer.py:11-19 | from a string: blank gives no number, otherwise the stripped string if it fits in 30 characters, else an error |
| Customer.StrictEmail | app/schemas/customer.py:26-38 | the extra e-mail checks in order: empty gives none, trailing dot, then double dot, then exactly one `@`; an accepted address is returned unchanged |
| Customer.NewEmail | app/schemas/customer.py:23-38 | `Email(Address=v)` fails with a syntax error when the syntax check refuses, else succeeds exactly when the strict checks accept the normalised address |
| Customer.StrictEmailTrailingDot | app/schemas/customer.py:31-32 | any address ending in a dot is refused for the trailing dot |
| Customer.StrictEmailDoubleDot | app/schemas/customer.py:34-35 | any address with two consecutive dots (and no trailing dot) is refused for the double dot |
| Customer.StrictEmailExamples | app/schemas/customer.py:30-35 | "a..b@example.com" is refused for the double dot and "a@example.com." for the trailing dot |
| Customer.CleanUrl | app/schemas/customer.py:44-63 | a falsy or blank value gives none; otherwise the stripped text, prefixed with `https://` when it has no scheme, is accepted exactly when it has an authority and an http(s) scheme; the parse's "Invalid IPv6 URL" is raised as it is, exactly when that text's authority has an unpaired bracket |
| Customer.NewWebAddr | app/schemas/customer.py:41-63 | `WebAddr(URI=v)` fails with the URL check's error when that check fails, or when the result exceeds 2000 characters, and otherwise holds the cleaned URL |
| Customer.CleanUrlBareHost | app/schemas/customer.py:54-61 | a bare host name without `:/?#[]` gains the https scheme and is accepted |
| Customer.CleanUrlUnpairedBracket | app/schemas/customer.py:55-58 | the website "[foo" is refused with "Invalid IPv6 URL" raised by the parse, not with the validator's own message |
| Customer.CleanUrlBareDomain | app/schemas/customer.py:54-61 | "example.com" becomes "https://example.com" |
| Customer.CleanUrlNotAnAddress | app/schemas/customer.py:55-63 | "not a url!!" is accepted as "https://not a url!!" |
| Customer.AddressKept | app/schemas/customer.py:75-77 | each address field is kept unless blank, only declared fields appear, keys stay unique |
| Customer.AddressIssues | app/schemas/customer.py:67-73 | no issue exactly when every given address field fits its maximum length |
| Customer.NewAddress | app/schemas/customer.py:66-77 | `Address(**parts)` succeeds exactly when every field fits its limit, and then holds exactly the non-blank declared fields |
| Customer.ValidateField | app/schemas/customer.py:80-117 | one canonical field: absent or blank means unset (an error for the required DisplayName); text within its bounds is kept; flags pass through |
| Customer.ValidateFrom | app/schemas/customer.py:80-117 | validating a run of fields reports no issue exactly when each field is accepted, and then dumps each accepted field's value |
| Customer.Validate | app/schemas/customer.py:80-117 | `CustomerCanonical(**data)` succeeds exactly when every field is accepted; its dump has unique keys, only canonical fields, each field's dump value |
| Customer.ValidateDisplayName | app/schemas/customer.py:82 | a validated record has a non-blank DisplayName of 1 to 500 characters; a missing or blank one is refused |
| Customer.ValidateOmitsUnset | app/schemas/customer.py:108-120 | a canonical field is in the dump exactly when it was given a non-blank value, so defaults such as Active and Job are never sent (`exclude_unset`) |
| Customer.ValidateTextBounds | app/schemas/customer.py:82-106 | every text field in the dump respects its declared maximum length |
| Normalize.AddressConversionTransparent | app/tasks/import_tasks.py:94-101 | converting valid address parts to an `Address` before validation gives the same field dump as passing the parts |
| Customer.MoveFields | app/schemas/customer.py:130-132 | the scalar loop pops each listed present key from data into the payload and leaves all other keys of both |
| Customer.MoveNestedAsWritten | app/schemas/customer.py:135-138 | the nested loop as indented: fails with an unbound `obj` exactly when the first name is absent and nothing was popped before; otherwise pops every listed key |
| Customer.Update | app/schemas/customer.py:140 | `payload.update(data)`: each key of the leftover gets its value and every other key keeps its payload value; an empty leftover changes nothing; keys stay unique |
| Dict.GetFirst | app/schemas/customer.py:140 | a dict without duplicate keys is its first entry followed by the rest, which lacks that key |
| Customer.AfterScalars | app/schemas/customer.py:120-132 | DisplayName first in the payload, then the present scalars; data keeps only the other keys |
| Customer.ValidateGivesDump | app/schemas/customer.py:120 | every validated record's dump has DisplayName and only canonical keys |
| Customer.LeftoverEmpty | app/schemas/customer.py:140 | after the three steps nothing of a validated dump is left for `update` |
| Customer.PayloadNamesCover | app/schemas/customer.py:122-135 | every canonical field is DisplayName, a listed scalar or a listed nested name |
| Customer.ToPayloadFixedIsDump | app/schemas/customer.py:119-141 | the corrected payload is exactly the dump, DisplayName first |
| Customer.ToPayloadFailsWithoutEmail | app/schemas/customer.py:135-138 | as written, building the payload fails exactly when the dump has no PrimaryEmailAddr, with Python's unbound-local message |
| Customer.ToPayload | app/schemas/customer.py:119-141 | as written, building fails with KeyError 'DisplayName' exactly when the dump has no DisplayName, with the unbound-local message exactly when it has one but no e-mail object, and with nothing else |
| Customer.ToPayloadFixed | app/schemas/customer.py:119-141 | with the nested assignment inside the `if`, building fails only without a DisplayName, with KeyError 'DisplayName' |
| Customer.ValidateWithoutEmail | app/schemas/customer.py:101 | a record validated without an e-mail address has no PrimaryEmailAddr in its dump |
| Customer.ToPayloadAsWritten | app/schemas/customer.py:119-141 | as written, with an e-mail present the payload starts with DisplayName and keeps every scalar of the dump |
| Customer.ToPayloadCarriesNested | app/schemas/customer.py:135-138 | as written, each of the eight nested names is sent with the object of the nearest present name at or before it |
| Customer.MoveNestedCarries | app/schemas/customer.py:135-138 | the as-written nested loop assigns to each name the carried object |
| Customer.NestedLoopCarries | app/schemas/customer.py:135-138 | on a validated dump with an e-mail, the as-written loop succeeds and sends each nested name the carried object |
| Customer.PhoneReceivesEmail | app/schemas/customer.py:135-138 | with an e-mail and no phone, the as-written payload sends the e-mail object as PrimaryPhone while the corrected one sends no phone |
| Customer.PhoneReceivesEmailExample | app/schemas/customer.py:135-138 | the record {DisplayName, PrimaryEmailAddr} gets PrimaryPhone equal to its e-mail object |
| RowSchema.OptionalText | app/schemas/validators.py:17-31 | an optional column accepts None, a missing key or a string (blank becomes None) and refuses any other type |
| RowSchema.CheckDisplayName | app/schemas/validators.py:7 | DisplayName is required, a string of 1 to 500 characters, kept as given |
| RowSchema.CheckEmail | app/schemas/validators.py:8 | the e-mail is optional and, when given, must pass the syntax check, which supplies the stored form |
| RowSchema.BillGiven | app/schemas/validators.py:10-13 | the billing columns as given, keyed by column |
| RowSchema.BillIssues | app/schemas/validators.py:10-31 | no billing issue exactly when every billing column is absent, None or a string |
| RowSchema.RowIssues | app/schemas/validators.py:6-31 | no issue exactly when DisplayName, e-mail, phone and billing columns all pass; every issue names a declared field |
| RowSchema.NewRow | app/schemas/validators.py:6-31 | `CustomerRow(**data)` succeeds exactly when no field is refused, holding the name as given, the checked e-mail and the given phone and billing parts |
| RowSchema.BillParts | app/schemas/validators.py:53-70 | the billing dict holds each part that is truthy and non-empty once stripped, under its QuickBooks key; empty exactly when no part survives |
| RowSchema.BillPart | app/schemas/validators.py:69-70 | `BillAddr` is written exactly when some part survives |
| RowSchema.Build | app/schemas/validators.py:38-72 | the dump is written key by key in order, skipping absent entries |
| RowSchema.ModelDump | app/schemas/validators.py:33-72 | `model_dump` puts DisplayName first, then e-mail, phone and billing address when present |
| RowSchema.ModelDumpKeys | app/schemas/validators.py:38-72 | the dump holds no key other than the four output keys, so extras never leak |
| RowSchema.ModelDumpContact | app/schemas/validators.py:43-51 | e-mail written as {Address} when truthy; phone written as {FreeFormNumber} when non-empty after strip |
| RowSchema.ModelDumpAddress | app/schemas/validators.py:53-70 | BillAddr present exactly when some billing part survives, holding exactly the surviving parts |
| RowSchema.DumpContactFromInput | app/schemas/validators.py:40-51 | from input to dump: DisplayName first and as given; e-mail and phone objects exactly when given |
| RowSchema.DumpAddressFromInput | app/schemas/validators.py:53-70 | from input to dump: each billing part present exactly when its column was given non-blank, stripped |
| RowSchema.CleanedOfGiven | app/schemas/validators.py:62-67 | a given non-blank value survives the dump's strip as its stripped form |
| RowSchema.NewRowFrame | app/schemas/validators.py:6-15 | validation reads only the declared fields |
| RowSchema.ExtraKeysIgnored | app/schemas/validators.py:15 | adding an undeclared key changes nothing |
| RowSchema.BillColumnsFrame | app/schemas/validators.py:10-13 | the billing checks read only the billing columns |
| RowSchema.BlankDisplayNameKept | app/schemas/validators.py:7-26 | a whitespace-only DisplayName is not coerced and reaches the dump unchanged |
| Normalize.ParseFlag | app/tasks/import_tasks.py:58-59 | a flag is true exactly when its lower-cased cell is one of true, 1, yes, y, on |
| Normalize.ParseFlagExamples | app/tasks/import_tasks.py:59 | "YeS" is true and "t" is false |
| Normalize.PhoneGroup | app/tasks/import_tasks.py:73-79 | exactly the four phone paths have a group name, the text before their dot |
| Normalize.RouteOf | app/tasks/import_tasks.py:57-91 | each path goes to the first branch of the loop it passes: text, flag, e-mail, web, phone, address, or the fallback |
| Normalize.Step | app/tasks/import_tasks.py:57-91 | one loop body changes only its target key: text and fallback paths hold the cell there, flags the parsed flag; e-mail, web and phone paths hold their sub-model, raising exactly when it is refused and then with its issue; address parts go into the group's dict, raising exactly when the group holds a non-dict |
| Normalize.ConvertAddress | app/tasks/import_tasks.py:94-101 | an address dict that validates becomes an `Address`; anything else is left as it is; other keys unchanged |
| Normalize.Normalize | app/tasks/import_tasks.py:28-103 | the result has unique keys |
| Normalize.Collect | app/tasks/import_tasks.py:35-91 | the loop over the mapping keeps the canonical keys unique |
| Normalize.CollectAppend | app/tasks/import_tasks.py:35 | the loop over two parts of a mapping is the loop over the first, then over the second from where it stopped |
| Normalize.NormalizeSkipsBlank | app/tasks/import_tasks.py:36-38 | an entry whose cell is missing or blank can be dropped from the mapping without changing the result |
| Normalize.NormalizeScalar | app/tasks/import_tasks.py:57-62 | a text or flag field holds the value of the last non-blank cell mapped to it, or nothing |
| Normalize.SubModelTarget | app/tasks/import_tasks.py:65-80 | apart from the bare name, only a sub-model's own path stores under "PrimaryEmailAddr", "WebAddr" or a phone group name |
| Normalize.StepSubModel | app/tasks/import_tasks.py:65-80 | one loop body on a sub-model's own path stores the sub-model its cell builds; any other non-bare path leaves that name alone |
| Normalize.CollectSubModel | app/tasks/import_tasks.py:35-91 | unless an entry maps to the bare name, the loop leaves under a sub-model's name the sub-model built from the last non-blank cell of its path, or nothing |
| Normalize.NormalizeNested | app/tasks/import_tasks.py:65-80 | the e-mail, web and phone cells land under "PrimaryEmailAddr", "WebAddr" and "PrimaryPhone"/"Mobile"/"Fax"/"AlternatePhone", holding the sub-model built from the last non-blank cell, or nothing when all are blank |
| Normalize.StepFallback | app/tasks/import_tasks.py:90-91 | one loop body stores under an unrecognised path only when that path is its own, as text |
| Normalize.CollectFallback | app/tasks/import_tasks.py:35-91 | the loop leaves under an unrecognised path the last non-blank cell mapped to it, as text |
| Normalize.NormalizeFallback | app/tasks/import_tasks.py:90-91 | an unrecognised path (other than a bare nested name) is stored under its full string, holding the last non-blank cell mapped to it |
| Normalize.CollectPassed | app/tasks/import_tasks.py:35-80 | a loop that finishes has had every non-blank e-mail, web and phone cell accepted by its constructor |
| Normalize.NormalizeSubModelsPassed | app/tasks/import_tasks.py:65-80 | a row that normalises has every non-blank e-mail, web and phone cell accepted by its sub-model; a refusal raises instead |
| Normalize.NormalizeFlagAndRefShapes | app/tasks/import_tasks.py:57-59 | the normalised row holds a flag, never text, under each flag field, and text, never a dict, under ParentRef and CurrencyRef |
| Normalize.CollectAddressPart | app/tasks/import_tasks.py:83-88 | an address group's dict holds, for each sub-field, the last non-blank cell mapped to it |
| Normalize.CollectAbortsOnSubModel | app/tasks/import_tasks.py:65-88 | unless some entry maps to a bare group name, the loop raises only sub-model errors |
| Normalize.StepAbort | app/tasks/import_tasks.py:83-88 | one step on a non-bare path raises only a sub-model error and keeps every group a dict or absent |
| Store.FindJob | app/api/imports.py:63 | the found job has the id and belongs to the user; none is found exactly when no job matches both |
| Store.CountStatus | app/api/jobs.py:81-83 | a status count is at most the number of rows |
| Store.CountsBounded | app/api/jobs.py:72-84 | valid + error + success + pending counts add up to the number of rows |
| Store.CountPositive | app/api/jobs.py:53 | a status count is positive exactly when some row has that status |
| Store.MappingJson | app/api/imports.py:73 | a `dict[str, str]` is stored as a JSON object with the same keys in order and string values |
| Store.MappingOf | app/tasks/import_tasks.py:147 | a stored object reads back in `jsonb` key order, holding exactly the keys whose value is a string, each with that string |
| Store.ReadBack | app/models/db.py:29 | the string entries of a stored object come back ordered, and exactly as a lookup finds them |
| Store.StringEntriesGet | app/tasks/import_tasks.py:147 | a key has a string in the read mapping exactly when the stored object holds that string under it |
| Store.MappingRoundTrip | app/tasks/import_tasks.py:147 | a stored mapping reads back as its `jsonb` reordering, every key still giving its value |
| Json.Truthy | app/schemas/customer.py:46 | Python's `not v` holds exactly for None, False, 0 and the empty string, list and dict |
| Jsonb.ByteLength | app/models/db.py:29 | a key's UTF-8 length is between its length and four times it |
| Jsonb.KeyLessOrder | app/models/db.py:29 | `jsonb`'s key order (shorter UTF-8 encoding first, then by code points) is a strict total order |
| Jsonb.OrderedUnique | app/models/db.py:29 | keys in `jsonb` order are never repeated |
| Jsonb.InsertOrdered | app/models/db.py:29 | placing an entry in an ordered object keeps it ordered, holding the entry and the other keys' entries |
| Jsonb.ReorderEntries | app/models/db.py:29 | an object read back is ordered and holds exactly the entries a lookup finds in the object written |
| Jsonb.ReorderGet | app/models/db.py:29 | reading back changes no lookup |
| Jsonb.ReorderSameEntries | app/models/db.py:29 | an object without repeated keys reads back with exactly its entries |
| Jsonb.OrderedDetermined | app/models/db.py:29 | two ordered objects with the same entries are equal |
| Jsonb.ReorderCharacterised | app/models/db.py:29 | an object is the read-back of one without repeated keys exactly when it is ordered and has the same entries |
| Jsonb.ReorderTwo | app/models/db.py:38 | of two entries, the one whose key sorts first comes back first |
| Qbo.Headers | app/core/qbo.py:25 | exactly two headers: Authorization "Bearer " + token, Accept "application/json" |
| Qbo.UrlFor | app/core/qbo.py:26 | the base URL starts with BASE_URL + "/" and ends with "/" around the realm id |
| Qbo.RealmRoundTrip | app/core/qbo.py:26 | the realm id reads back from the base URL |
| Qbo.Refreshed | app/core/qbo.py:20-22 | after a grant both tokens are replaced, the expiry is now + expires_in, the realm is kept |
| Qbo.GetClient | app/core/qbo.py:9-26 | no refresh leaves the user's columns as they are; a refresh succeeds exactly when the grant does, storing its tokens; the client authorises with the current token and is scoped to the realm |
| Qbo.RefreshedDue | app/core/qbo.py:11-22 | right after a refresh the token is due again exactly when the grant is empty or lasts under 300 seconds |
| Qbo.FreshTokenKept | app/core/qbo.py:11 | a non-empty token expiring at least 300 seconds from now is used without asking the token endpoint |
| Qbo.NeedsRefresh | app/core/qbo.py:11 | a missing or empty token always needs a refresh, as does a missing expiry; a non-empty token with 300 seconds or more left does not |
| Qbo.NeedsRefreshLater | app/core/qbo.py:11 | once a refresh is due it stays due as time passes, and it is due for every connection from 300 seconds before its expiry on |
| Registry.Connect | app/core/websocket.py:11-15 | the socket joins the job's set, created if missing; other jobs untouched |
| Registry.Disconnect | app/core/websocket.py:17-21 | the socket leaves the job's set and the job is dropped exactly when no other socket remains; unknown jobs untouched |
| Registry.Broadcast | app/core/websocket.py:23-34 | exactly the sockets whose send failed are removed; the job keeps its entry; unknown jobs untouched |
| Registry.TidyKept | app/core/websocket.py:11-21 | connect and disconnect never leave a job listed with no sockets |
| Registry.BroadcastLeavesEmpty | app/core/websocket.py:26-34 | broadcast can leave a job listed with an empty set, unlike disconnect |
| Registry.ConnectDisconnect | app/core/websocket.py:11-21 | connecting a new socket and disconnecting it restores the registry |
| Registry.BroadcastIdempotent | app/core/websocket.py:23-34 | broadcasting again with the same send outcomes removes nothing more |
| Worker.NumberRows | app/tasks/import_tasks.py:128-131 | the i-th record becomes a pending row numbered first + i with its cells |
| Worker.Parse | app/tasks/import_tasks.py:121-137 | parsing appends one pending row per record, numbered from line 2; `row_count` becomes the number of records; status validating; other metadata unchanged |
| Worker.Unsupported | app/tasks/import_tasks.py:140-145 | an unsupported type sets status "error" and the message in metadata, rows untouched |
| Worker.MappingFor | app/tasks/import_tasks.py:147-154 | the stored mapping is used unless it is empty, a template id is set and a customer template was found, in which case the template's mapping is used in `jsonb` key order; the result is always in that order |
| Worker.CheckRow | app/tasks/import_tasks.py:159-177 | a row raises exactly when normalising raises; otherwise it is valid with the payload exactly when validation and payload building succeed, and in error with a message otherwise; when building the payload fails the row carries the builder's message |
| Worker.CheckRowWithoutEmail | app/tasks/import_tasks.py:163-177 | as written, a row that validates but has only blank e-mail cells ends in error with the unbound-local message |
| Worker.ValidateRows | app/tasks/import_tasks.py:156-181 | the loop succeeds exactly when no row raises, checking each row and counting the valid ones; when one raises, earlier rows are checked and later rows untouched |
| Worker.Validation | app/tasks/import_tasks.py:156-184 | after validation every row is valid or in error, `valid_count` counts the valid ones and the status is importing; if a row raises, the job keeps the rows saved so far |
| Worker.FirstFault | app/tasks/import_tasks.py:208-213 | the first fault entry is read only from a JSON object |
| Worker.Interpret | app/tasks/import_tasks.py:192-228 | a raised request gives "Request failed: …"; only 200/201 create; any other status gives "QBO <status>: " with the first fault's summary, or the first 1000 characters of the body |
| Worker.FaultReplyMessage | app/tasks/import_tasks.py:207-224 | a fault reply gives "QBO <status>: <Message> (Code: <code>) — <Detail>" |
| Worker.CreatedDefaults | app/tasks/import_tasks.py:198-204 | a created customer without SyncToken gets sync token 0 |
| Worker.UnreadableReplyBounded | app/tasks/import_tasks.py:218-224 | without a fault entry the message is at most the prefix plus 1000 characters |
| Worker.Import | app/tasks/import_tasks.py:192-230 | a posted row succeeds exactly when the reply is a creation; otherwise it is in error with the reply's message; number, cells and payload unchanged |
| Worker.ImportRows | app/tasks/import_tasks.py:190-230 | only valid rows are posted; afterwards none is valid; successes grow by the count returned; errors absorb the rest |
| Worker.ImportJob | app/tasks/import_tasks.py:186-234 | the final status is completed or partial success; non-valid rows untouched; other metadata unchanged |
| Worker.ImportJobStatus | app/tasks/import_tasks.py:233-234 | the job completes exactly when no posted row failed; `success_count` is the number of new successes |
| Worker.RunWith | app/tasks/import_tasks.py:106-236 | an unsupported type ends after parsing; a raising row stops the run while validating; a client failure stops it while importing; a stop on a row names a parsed row whose check raised exactly that |
| Worker.Run | app/tasks/import_tasks.py:159-161 | as written, a run stops on a row only when that row, under the job's mapping, makes normalising raise exactly what the stop records |
| Worker.RunGuarded | app/tasks/import_tasks.py:159-177 | with normalising inside the `try`, a run never stops on a row, and on customers with a client it always finishes |
| Worker.AsWrittenCheck | app/tasks/import_tasks.py:159-177 | the loop body as written raises exactly when normalising the row's cells raises, and otherwise gives a checked row (valid with a payload or in error with a message, number and cells kept) |
| Worker.CheckRowGuarded | app/tasks/import_tasks.py:159-177 | with normalising inside the `try`, a raising row is marked in error with the text of what was raised; other rows as before |
| Worker.GuardedCheck | app/tasks/import_tasks.py:159-177 | the guarded loop body never raises, and always gives a checked row |
| Worker.RunUnsupported | app/tasks/import_tasks.py:140-145 | an unsupported type finishes with status "error", its message, and every parsed row pending |
| Worker.RunFinished | app/tasks/import_tasks.py:156-234 | a run that reaches the end leaves each row created with a payload or failed with a message; it completes exactly when `success_count` equals `valid_count` |
| Worker.FinalPhase | app/tasks/import_tasks.py:186-234 | the import phase on validated rows ends with every row created or failed and `success_count` counting the created ones |
| Worker.FinalCounts | app/tasks/import_tasks.py:233-234 | the status is completed exactly when `success_count` equals `valid_count` |
| Worker.RunGuardedFinishes | app/tasks/import_tasks.py:159-177 | with normalising inside the `try`, every run on customers with a client reaches its final phase |
| Worker.BadEmailStopsRun | app/tasks/import_tasks.py:159-163 | as written, one row with the e-mail "x" stops the whole run at row 2 with the syntax error |
| Worker.BadEmailGuarded | app/tasks/import_tasks.py:159-177 | with the guard, the same job finishes with that row in error |
| Worker.BadEmailGuardedRow | app/tasks/import_tasks.py:173-177 | with the guard, the row is marked in error with the described issue |
| Worker.GuardedRaisedRow | app/tasks/import_tasks.py:173-177 | a guarded raising row is the same row in error with the text of what was raised |
| Worker.BadEmailRaises | app/tasks/import_tasks.py:65-66 | normalising the e-mail cell "x" raises the syntax refusal |
| Worker.EmailStepRaises | app/tasks/import_tasks.py:65-66 | the e-mail step on "x" raises the syntax refusal |
| Imports.UploadMeta | app/api/imports.py:39-45 | a fresh job's metadata holds filename, headers, row_count, csv_content and preview_rows, in that order |
| Imports.Upload | app/api/imports.py:12-53 | no header line gives 400 and no job; otherwise an uploaded job with no rows, `row_count` = records + 1, the text kept, and a preview of the first min(n, 50) records |
| Imports.Queue | app/api/imports.py:73-74 | the saved job holds the mapping, status queued, other metadata unchanged |
| Imports.Start | app/api/imports.py:56-83 | in order: 404 when the user owns no such job, 400 when it is past the upload, 400 without a DisplayName mapping; otherwise the job is queued and the worker gets the stored text |
| Imports.StartOnce | app/api/imports.py:67-68 | a started job cannot be started again |
| Imports.StartUploaded | app/api/imports.py:63-75 | an uploaded job starts for its owner with any mapping that names DisplayName |
| Imports.UploadThenStart | app/api/imports.py:56-81 | a freshly uploaded job starts and the worker is queued on the uploaded text |
| Reporting.FailedRows | app/api/jobs.py:52-53 | `failed_rows` is the number of error rows (the guard on empty jobs changes nothing) |
| Reporting.ListedFilename | app/api/jobs.py:59 | the listed file name is the entry under the looked-up key, or "unknown.csv" |
| Reporting.SummaryOf | app/api/jobs.py:51-62 | a listed job shows its status name, row total and failed rows, at most the total |
| Reporting.ListJobs | app/api/jobs.py:47-63 | the listing has no more entries than jobs, each with failed ≤ total |
| Reporting.ListJobsSound | app/api/jobs.py:49-62 | every listed entry describes one of the user's jobs, so no other user's job is shown |
| Reporting.ListJobsComplete | app/api/jobs.py:49-62 | every job of the user appears in the listing |
| Reporting.NewestListedFirst | app/api/jobs.py:49 | a newer job of the user is listed before all older ones, which keep their order |
| Reporting.ProgressOf | app/api/jobs.py:72-84 | valid + error + success ≤ total, with equality exactly when no row is pending; error and valid counts are positive exactly when such a row exists |
| Reporting.GetJob | app/api/jobs.py:66-85 | 404 exactly when the user owns no such job; otherwise its status, metadata and progress |
| Reporting.ErrorRows | app/api/jobs.py:94 | the error rows in store order: all of them and only them |
| Reporting.ExportLine | app/api/jobs.py:104 | a line is row number, error (empty when none), then the row's cell for each header, empty when missing |
| Reporting.DownloadErrors | app/api/jobs.py:88-112 | 404 for a foreign job; a message exactly when no row failed; otherwise a header of "Row #", "Error" and the first failed row's columns in `jsonb` key order, one line per failed row |
| Reporting.ExportRectangular | app/api/jobs.py:101-105 | every line of the table is as wide as the header |
| Reporting.FirstLineRoundTrip | app/api/jobs.py:100-105 | the first failed row reads back from the header and its line, as its cells in `jsonb` key order |
| Reporting.ExportHeaderOrder | app/api/jobs.py:94-101 | a first failed row read from the columns `long`, `short` is exported with `short` first when it sorts first, whatever order the file had |
| Lifecycle.StoredMappingUsed | app/tasks/import_tasks.py:147-154 | a non-empty stored mapping is the one used, in `jsonb` key order, whatever the template |
| Lifecycle.RowCountRecounted | app/tasks/import_tasks.py:134 | the upload's `row_count` of records + 1 becomes the number of records once the worker parses |
| Lifecycle.StartedMappingUsed | app/tasks/import_tasks.py:147-154 | the worker uses the start request's mapping in `jsonb` key order, every column still mapped to its path |
| Lifecycle.StartedMappingOrder | app/tasks/import_tasks.py:147-154 | two columns sent to one path are visited shorter name first, whatever order the request gave |
| Lifecycle.ListedKeyNotUploaded | app/api/imports.py:39-45 | the upload writes nothing under "original_filename" |
| Lifecycle.UploadedFilenameLost | app/api/jobs.py:59 | as written, an uploaded job is listed as "unknown.csv" after upload, start and parsing, although its metadata holds the file name |
| Lifecycle.UploadedFilenameShown | app/api/jobs.py:59 | read under "filename", the listing shows the uploaded name at each of those steps |
| Lifecycle.FinishedProgress | app/tasks/import_tasks.py:232-235 | after a finished run no row is pending or valid: error + success equals the total |

## Left out

- Celery wiring, `asyncio`, Tortoise ORM setup and persistence calls: a job and its rows are values, and each operation returns the job as it is saved. Objects read back from the `jsonb` columns come back in `jsonb` key order; the model reorders them where the order changes behaviour: the worker's mapping and the export header.
- Reporting.GetJob: the metadata is returned as the model holds it, in written order; PostgreSQL would return its keys in `jsonb` order, which changes only the order of keys in the JSON response, not their values.
- Jsonb.Reorder: of a key given twice it keeps the entry a lookup finds, where `jsonb` keeps the last; a Python dictionary, the only thing stored, never repeats a key.
- The progress broadcasts of the worker (`get_progress`) and the socket loop of the WebSocket endpoint: the registry itself is modelled, the messages sent are not.
- HTTP: the token endpoint, the customer POST and the `companyinfo` test endpoint are inputs; `test_qbo` and the `/debug` endpoint are not modelled.
- CSV reading and writing: the header line and records are inputs, and export lines are cells. Short rows (`None` cells), long rows (the `None` rest key) and quoting are not modelled, nor is UTF-8-BOM decoding of the upload.
- JWT authentication and the OAuth redirect: the user is an id.
- Creation times: the store lists jobs in creation order, so the newest-first order of `list_jobs` is the reverse of it; `created_at` is not shown.
- JSON numbers are integers; floats are not modelled.
- Qbo.GetClient: the clock is whole seconds, so a refresh decided on a fractional `time.time()` can differ by one second at the boundary.
- Text.Lower: lowers ASCII letters only; `str.lower` also lowers other scripts, which never matters for the comparisons against ASCII words made here.
- Customer.ValidateField: the field check refuses text under a flag field and any value under ParentRef and CurrencyRef. Pydantic would coerce words such as "yes" or "0" to a bool, and accepts a dict of strings as a reference. The exact coercion rules belong to the pydantic library, which is not part of this model. The normaliser never produces either input (`Normalize.NormalizeFlagAndRefShapes`): it stores parsed flags under flag fields and text under the reference fields, and pydantic refuses text there too.
- Normalize.Normalize: its own contract states only that the keys are unique. What each route stores is stated by `NormalizeScalar`, `NormalizeNested`, `NormalizeFallback`, `CollectAddressPart` and `NormalizeSubModelsPassed`. The nested and address statements assume no entry maps to the bare name of that field; such an entry falls through to the fallback and overwrites the same key with text.
- Customer.ToPayload: the recorded unbound-local text (`UnboundObj`) is the wording of Python 3.11 and later. Python 3.10 and earlier say "local variable 'obj' referenced before assignment" instead, and the repository does not pin a Python version. The same holds for `Worker.CheckRowWithoutEmail`. When the failure happens does not depend on the version.
- Customer.NewEmail: the `EmailStr` syntax check is a parameter, not the email-validator library.
- Url.Split: only the scheme and authority of `urlparse` (Python 3.11 and later) are modelled, with its input clean-up and its unpaired-bracket error. The validity check of a bracketed host as an IPv6 or IPvFuture address (Python 3.11.4 and later) and the NFKC check of a non-ASCII authority, which raise in rarer cases, are not modelled; neither is the path, query or fragment.
- Json.PyStr: `repr` of strings inside lists and dicts does not reproduce Python's escaping.
- Worker.Interpret: the `qbo_id` and `sync_token` of a created customer are returned but not stored on the row, because the row record has no `meta` column and the assignment is never saved.
- Worker.RunWith: the text of a validation error (`str(ValidationError)`) is the `describe` parameter; the worker's retry settings play no part because nothing calls retry.
- Store.MappingOf: metadata mapping entries whose value is not a string are skipped; the start request only stores strings.
- Imports.Start: a job without `csv_content` is saved as queued and the worker call is not queued (the lookup raises); uploaded jobs always have it.
- Mapping template CRUD, `app/utils/parser.py`, configuration and the `app/schemas/validation.py` data classes.

## Findings

| source | as written | input that shows it | evidently intended | confidence | as-written member | corrected member |
|---|---|---|---|---|---|---|
| app/schemas/customer.py:135-138 | the assignment to `payload[nested]` is outside the `if nested in data` | a customer with DisplayName and an e-mail but no phone: PrimaryPhone (and every later nested field) is sent with the e-mail object; a customer without an e-mail fails with an unbound `obj` | send only the nested objects that are present | high, not executed | Customer.PhoneReceivesEmail | Customer.ToPayloadFixedIsDump |
| app/tasks/import_tasks.py:161-163 | `normalize_to_canonical` runs before the per-row `try` | one row whose e-mail cell is "x": the e-mail sub-model raises and the whole run stops in "validating" | the row is marked in error and the run goes on | medium, not executed | Worker.BadEmailStopsRun | Worker.BadEmailGuarded |
| app/api/jobs.py:59 | the listing reads `original_filename`, which nothing writes | any uploaded job: listed as "unknown.csv" although the upload stored its name under `filename` | show the uploaded file's name | high, not executed | Lifecycle.UploadedFilenameLost | Lifecycle.UploadedFilenameShown |

=== FILE: customer.dfy ===
/** The canonical customer schema: the `Phone`, `Email`, `WebAddr` and
    `Address` sub-models with their cleaning validators, the
    `CustomerCanonical` field table with its length bounds and blank-to-None
    coercion, and `to_qbo_payload`, reproduced as written. */
module Customer {
  import opened Wrappers
  import opened Text
  import opened Dict
  import opened Json
  import Url

  /** Why a field was rejected. */
  datatype Code =
    | Missing                // required field not given
    | NoneNotAllowed         // required field given blank, so coerced to None
    | TooShort(minLength: nat)
    | TooLong(maxLength: nat)
    | WrongType              // a value of the wrong kind for the field
    | InvalidEmailSyntax     // the e-mail address syntax check refused it
    | EmailTrailingDot
    | EmailDoubleDot
    | EmailAtCount
    | InvalidUrl
    | UrlRaised(message: string)  // `urlparse` raised ValueError with this text

  /** One rejected field: its dotted location and the reason. */
  datatype Issue = Issue(loc: string, code: Code)

  /** The e-mail syntax check behind the `EmailStr` type: the normalised
      address, or None when the text is not an address. It belongs to a
      library outside this model, so it is a parameter. */
  type EmailSyntax = string -> Option<string>

  // ---------------------------------------------------------------- Phone

  const PhoneMaxLength: nat := 30

  datatype Phone = Phone(freeFormNumber: Option<string>)

  /** `Phone.clean_phone`: strings are stripped, a blank one becomes None,
      None stays None and any other value is stringified and stripped. */
  function CleanPhone(v: Json): (r: Option<string>)
    ensures v.JStr? ==> (r.None? <==> IsBlank(v.s)) && (r.Some? ==> r.value == Strip(v.s))
    ensures v.JNull? ==> r.None?
    ensures r.Some? ==> r.value != "" && Strip(r.value) == r.value
  {
    match v
    case JStr(s) =>
      var cleaned := Strip(s);
      StripIdempotent(s);
      if cleaned == "" then None else Some(cleaned)
    case JNull => None
    case _ =>
      var cleaned := Strip(PyStr(v));
      StripIdempotent(PyStr(v));
      if cleaned == "" then None else Some(cleaned)
  }

  /** `Phone(FreeFormNumber=v)`: the cleaned number, refused when it is
      longer than 30 characters. */
  function NewPhone(v: Json): (r: Result<Phone, Issue>)
    ensures r.Ok? <==> CleanPhone(v).None? || |CleanPhone(v).value| <= PhoneMaxLength
    ensures r.Ok? ==> r.value.freeFormNumber == CleanPhone(v)
    ensures r.Err? ==> r.error == Issue("FreeFormNumber", TooLong(PhoneMaxLength))
  {
    var cleaned := CleanPhone(v);
    if cleaned.Some? && |cleaned.value| > PhoneMaxLength then Err(Issue("FreeFormNumber", TooLong(PhoneMaxLength)))
    else Ok(Phone(cleaned))
  }

  /** What `NewPhone` accepts from a string: a blank string gives no number,
      any other is kept stripped, and only a stripped number over 30
      characters is refused. */
  lemma NewPhoneOfString(s: string)
    ensures IsBlank(s) ==> NewPhone(JStr(s)) == Ok(Phone(None))
    ensures !IsBlank(s) && |Strip(s)| <= PhoneMaxLength ==> NewPhone(JStr(s)) == Ok(Phone(Some(Strip(s))))
    ensures !IsBlank(s) && |Strip(s)| > PhoneMaxLength ==> NewPhone(JStr(s)).Err?
  {
  }

  // ---------------------------------------------------------------- Email

  datatype Email = Email(address: Option<string>)

  /** `Email.strict_email_validation`, applied to the address the syntax
      check returned: an empty address becomes None; otherwise a trailing
      dot, then a double dot, then an '@' count other than one is refused,
      in that order. */
  function StrictEmail(v: string): (r: Result<Option<string>, Code>)
    ensures v == "" ==> r == Ok(None)
    ensures v != "" && EndsWith(Strip(v), ".") ==> r == Err(EmailTrailingDot)
    ensures v != "" && !EndsWith(Strip(v), ".") && HasDoubleDot(v) ==> r == Err(EmailDoubleDot)
    ensures r.Ok? && v != "" <==> v != "" && !EndsWith(Strip(v), ".") && !HasDoubleDot(v) && Count(v, '@') == 1
    ensures r.Ok? && v != "" ==> r.value == Some(v) && multiset(v)['@'] == 1
  {
    if v == "" then Ok(None)
    else if EndsWith(Strip(v), ".") then Err(EmailTrailingDot)
    else if HasDoubleDot(v) then Err(EmailDoubleDot)
    else if Count(v, '@') != 1 then Err(EmailAtCount)
    else Ok(Some(v))
  }

  /** `Email(Address=v)`: the syntax check first, then the strict checks on
      the address it returns. */
  function NewEmail(v: string, syntax: EmailSyntax): (r: Result<Email, Issue>)
    ensures syntax(v).None? ==> r == Err(Issue("Address", InvalidEmailSyntax))
    ensures syntax(v).Some? ==> (r.Ok? <==> StrictEmail(syntax(v).value).Ok?)
    ensures r.Ok? && r.value.address.Some? ==>
              syntax(v) == r.value.address && !HasDoubleDot(r.value.address.value)
              && Count(r.value.address.value, '@') == 1
  {
    match syntax(v)
    case None => Err(Issue("Address", InvalidEmailSyntax))
    case Some(n) =>
      match StrictEmail(n)
      case Ok(a) => Ok(Email(a))
      case Err(c) => Err(Issue("Address", c))
  }

  /** An address that ends in a dot is refused for that reason, whatever
      else is wrong with it. */
  lemma StrictEmailTrailingDot(v: string)
    requires v != "" && !IsSpace(v[0]) && v[|v| - 1] == '.'
    ensures StrictEmail(v) == Err(EmailTrailingDot)
  {
    StripUnchanged(v);
  }

  /** An address with two dots in a row, and no trailing dot, is refused
      for the double dot. */
  lemma StrictEmailDoubleDot(v: string, i: nat)
    requires i + 1 < |v| && v[i] == '.' && v[i + 1] == '.'
    requires !IsSpace(v[0]) && v[|v| - 1] != '.' && !IsSpace(v[|v| - 1])
    ensures StrictEmail(v) == Err(EmailDoubleDot)
  {
    StripUnchanged(v);
  }

  /** An address with a doubled dot, or one ending in a dot, is refused for
      that reason. */
  lemma StrictEmailExamples(doubled: string, trailing: string)
    requires doubled == "a..b@example.com" && trailing == "a@example.com."
    ensures StrictEmail(doubled) == Err(EmailDoubleDot)
    ensures StrictEmail(trailing) == Err(EmailTrailingDot)
  {
    StrictEmailDoubleDot(doubled, 1);
    StrictEmailTrailingDot(trailing);
  }

  // -------------------------------------------------------------- WebAddr

  const UrlMaxLength: nat := 2000

  datatype WebAddr = WebAddr(uri: Option<string>)

  /** `WebAddr.validate_and_clean_url`: a falsy value becomes None; anything
      else is stringified and stripped (blank becomes None); "https://" is put
      in front when there is no scheme; the result is kept only when its
      scheme is http or https and its authority is non-empty. Either parse
      may raise, and that error is the field's error. */
  function CleanUrl(v: Json): (r: Result<Option<string>, Code>)
    ensures !Truthy(v) || IsBlank(PyStr(v)) ==> r == Ok(None)
    ensures r.Ok? && r.value.Some? ==>
              var u := r.value.value;
              && Url.Split(u).Ok?
              && Url.Split(u).value.scheme in {"http", "https"} && Url.Split(u).value.netloc != ""
              && (u == Strip(PyStr(v)) || u == "https://" + Strip(PyStr(v)))
    ensures Truthy(v) && !IsBlank(PyStr(v)) ==>
              var s := Strip(PyStr(v));
              var u := if Url.Split(s).Ok? && Url.Split(s).value.scheme == "" then "https://" + s else s;
              && (r.Ok? <==> Url.Split(u).Ok? && Url.Split(u).value.scheme in {"http", "https"}
                                              && Url.Split(u).value.netloc != "")
              && (r.Err? && r.error.UrlRaised? <==> Url.Split(u).Err?)
    ensures r.Err? ==> r.error == InvalidUrl || r.error == UrlRaised(Url.InvalidIPv6)
  {
    if !Truthy(v) then Ok(None)
    else
      var s := Strip(PyStr(v));
      if s == "" then Ok(None)
      else
        match Url.Split(s)
        case Err(e) => Err(UrlRaised(e))
        case Ok(first) =>
          var u := if first.scheme == "" then "https://" + s else s;
          match Url.Split(u)
          case Err(e) => Err(UrlRaised(e))
          case Ok(parsed) =>
            if parsed.netloc != "" && parsed.scheme in {"http", "https"} then Ok(Some(u))
            else Err(InvalidUrl)
  }

  /** `WebAddr(URI=v)`: the cleaned address, at most 2000 characters. */
  function NewWebAddr(v: Json): (r: Result<WebAddr, Issue>)
    ensures CleanUrl(v).Err? ==> r == Err(Issue("URI", CleanUrl(v).error))
    ensures CleanUrl(v).Ok? ==>
              (r.Ok? <==> CleanUrl(v).value.None? || |CleanUrl(v).value.value| <= UrlMaxLength)
    ensures r.Ok? ==> r.value.uri == CleanUrl(v).value
  {
    match CleanUrl(v)
    case Err(c) => Err(Issue("URI", c))
    case Ok(u) =>
      if u.Some? && |u.value| > UrlMaxLength then Err(Issue("URI", TooLong(UrlMaxLength)))
      else Ok(WebAddr(u))
  }

  /** A bare host gains the https scheme; an address without scheme is only
      ever checked for a non-empty authority with paired brackets, so text
      with no ':', '/', '?', '#', '[' or ']' is accepted as it stands, spaces
      and '!' included. */
  lemma CleanUrlBareHost(s: string)
    requires s != "" && !IsSpace(s[0]) && !IsSpace(s[|s| - 1])
    requires forall i :: 0 <= i < |s| ==> s[i] !in ":/?#[]"
    ensures CleanUrl(JStr(s)) == Ok(Some("https://" + s))
  {
    var v := JStr(s);
    assert Truthy(v) && PyStr(v) == s;
    StripUnchanged(s);
    Url.SplitBare(s);
    Url.SplitHttpsPrefixed(s);
    BareAuthority(s);
  }

  /** Such a host, tabs and line breaks removed, is its own authority. */
  lemma BareAuthority(s: string)
    requires s != "" && !IsSpace(s[0])
    requires forall i :: 0 <= i < |s| ==> s[i] !in ":/?#[]"
    ensures var t := Url.RemoveUnsafe(s);
            t != "" && Url.AuthorityLength(t) == |t| && !Url.UnbalancedBrackets(t)
  {
    var t := Url.RemoveUnsafe(s);
    Url.RemoveUnsafeFrom(s);
    forall i | 0 <= i < |t| ensures t[i] !in ":/?#[]" {
      assert t[i] in s;
    }
    assert '[' !in t && ']' !in t;
    assert s[0] != '\t' && s[0] != '\r' && s[0] != '\n';
    Url.RemoveUnsafeNonEmpty(s);
  }

  /** An address whose authority opens a bracket without closing it makes
      `urlparse` raise, and that is the error reported. */
  lemma CleanUrlUnpairedBracket(s: string)
    requires s == "[foo"
    ensures CleanUrl(JStr(s)) == Err(UrlRaised(Url.InvalidIPv6))
  {
    var v := JStr(s);
    assert Truthy(v) && PyStr(v) == s;
    StripUnchanged(s);
    Url.SplitBare(s);
    Url.SplitUnpairedBracket(s);
  }

  /** A bare domain is given the https scheme. */
  lemma CleanUrlBareDomain(s: string)
    requires s == "example.com"
    ensures CleanUrl(JStr(s)) == Ok(Some("https://" + s))
  {
    CleanUrlBareHost(s);
  }

  /** Text that is plainly not an address is still accepted. */
  lemma CleanUrlNotAnAddress(s: string)
    requires s == "not a url!!"
    ensures CleanUrl(JStr(s)) == Ok(Some("https://" + s))
  {
    CleanUrlBareHost(s);
  }

  // -------------------------------------------------------------- Address

  /** The address fields in declaration order with their maximum lengths. */
  const AddressFields: seq<(string, nat)> := [
    ("Line1", 500), ("Line2", 500), ("Line3", 500), ("City", 100),
    ("CountrySubDivisionCode", 100), ("PostalCode", 30), ("Country", 100)
  ]

  /** The fields an address holds, in declaration order; a field given blank
      is set to None and so is not held. */
  datatype Address = Address(fields: Dict<string>)

  /** The field names of a table. */
  function Names<T>(table: seq<(string, T)>): (ns: seq<string>)
    ensures |ns| == |table| && forall i :: 0 <= i < |table| ==> ns[i] == table[i].0
  {
    seq(|table|, i requires 0 <= i < |table| => table[i].0)
  }

  predicate Distinct(ns: seq<string>) {
    forall i, j :: 0 <= i < j < |ns| ==> ns[i] != ns[j]
  }

  /** A given address field is kept when it is not blank; it is refused when,
      not blank, it is longer than its maximum. */
  predicate AddressFieldOk(v: Option<string>, cap: nat) {
    v.None? || IsBlank(v.value) || |v.value| <= cap
  }

  function AddressFieldKept(v: Option<string>): Option<string> {
    if v.Some? && !IsBlank(v.value) then v else None
  }

  /** A table whose names are distinct keeps them distinct without its
      first entry, and that first name does not come back. */
  lemma NamesTail<T>(table: seq<(string, T)>)
    requires |table| > 0 && Distinct(Names(table))
    ensures Distinct(Names(table[1..])) && table[0].0 !in Names(table[1..])
  {
    assert forall i :: 0 <= i < |table| - 1 ==> Names(table[1..])[i] == Names(table)[i + 1];
  }

  /** `Address.empty_to_none` over a suffix of the field table: the fields
      that are given and not blank, as given. */
  function AddressKept(table: seq<(string, nat)>, parts: Dict<string>): (r: Dict<string>)
    requires Distinct(Names(table))
    ensures Unique(r)
    ensures forall k :: HasKey(r, k) ==> k in Names(table)
    ensures forall i :: 0 <= i < |table| ==> Get(r, table[i].0) == AddressFieldKept(Get(parts, table[i].0))
  {
    if |table| == 0 then []
    else
      NamesTail(table);
      var rest := AddressKept(table[1..], parts);
      assert forall i :: 0 < i < |table| ==> table[i] == table[1..][i - 1];
      Cons(table[0].0, AddressFieldKept(Get(parts, table[0].0)), rest)
  }

  /** The length checks over a suffix of the field table: one issue per
      kept field longer than its maximum, in table order. */
  function AddressIssues(table: seq<(string, nat)>, parts: Dict<string>): (r: seq<Issue>)
    ensures |r| == 0 <==> forall i :: 0 <= i < |table| ==> AddressFieldOk(Get(parts, table[i].0), table[i].1)
  {
    if |table| == 0 then []
    else
      var rest := AddressIssues(table[1..], parts);
      assert forall i :: 0 < i < |table| ==> table[i] == table[1..][i - 1];
      (if AddressFieldOk(Get(parts, table[0].0), table[0].1) then [] else [Issue(table[0].0, TooLong(table[0].1))]) + rest
  }

  /** The address field names are distinct. */
  lemma AddressNamesDistinct()
    ensures Distinct(Names(AddressFields))
  {
    assert Names(AddressFields) == ["Line1", "Line2", "Line3", "City", "CountrySubDivisionCode", "PostalCode", "Country"];
  }

  /** `Address(**parts)`: every field in the table is kept as given (not
      stripped) unless blank, keys outside the table are ignored, and the
      address is refused when a kept field exceeds its maximum length. */
  function NewAddress(parts: Dict<string>): (r: Result<Address, seq<Issue>>)
    ensures r.Ok? <==> forall i :: 0 <= i < |AddressFields| ==> AddressFieldOk(Get(parts, AddressFields[i].0), AddressFields[i].1)
    ensures r.Ok? ==> Unique(r.value.fields)
    ensures r.Ok? ==> forall k :: HasKey(r.value.fields, k) ==> k in Names(AddressFields)
    ensures r.Ok? ==> forall i :: 0 <= i < |AddressFields| ==>
              Get(r.value.fields, AddressFields[i].0) == AddressFieldKept(Get(parts, AddressFields[i].0))
    ensures r.Err? ==> |r.error| > 0
  {
    AddressNamesDistinct();
    var issues := AddressIssues(AddressFields, parts);
    if |issues| == 0 then Ok(Address(AddressKept(AddressFields, parts))) else Err(issues)
  }

  // ---------------------------------------------------- CustomerCanonical

  /** What kind of value a canonical field holds. */
  datatype Kind =
    | TextField(maxLength: nat)
    | FlagField
    | EmailField
    | PhoneField
    | WebField
    | AddressField
    | RefField                 // a string-to-string dict (ParentRef, CurrencyRef)

  /** The fields of `CustomerCanonical` in declaration order. */
  const CanonicalFields: seq<(string, Kind)> := [
    ("DisplayName", TextField(500)),
    ("CompanyName", TextField(500)), ("Title", TextField(16)), ("GivenName", TextField(100)),
    ("MiddleName", TextField(100)), ("FamilyName", TextField(100)), ("Suffix", TextField(16)),
    ("PrimaryEmailAddr", EmailField), ("PrimaryPhone", PhoneField), ("Mobile", PhoneField),
    ("Fax", PhoneField), ("AlternatePhone", PhoneField), ("WebAddr", WebField),
    ("BillAddr", AddressField), ("ShipAddr", AddressField),
    ("Notes", TextField(2000)), ("Taxable", FlagField), ("Active", FlagField), ("Job", FlagField),
    ("BillWithParent", FlagField), ("ParentRef", RefField), ("CurrencyRef", RefField)
  ]

  /** The only required field. */
  const Required := "DisplayName"

  /** A value handed to `CustomerCanonical(**data)`: text and flags from the
      normaliser, already-built sub-models, or the raw parts of an address
      the normaliser could not build. */
  datatype Value =
    | Text(s: string)
    | Flag(b: bool)
    | EmailVal(email: Email)
    | PhoneVal(phone: Phone)
    | WebVal(web: WebAddr)
    | AddrVal(address: Address)
    | PartsVal(parts: Dict<string>)

  function StrObj(key: string, v: Option<string>): Json {
    if v.Some? then JObj([(key, JStr(v.value))]) else JObj([])
  }

  /** `.dict(exclude_none=True)` of an address. */
  function AddressJson(a: Address): Json {
    JObj(seq(|a.fields|, i requires 0 <= i < |a.fields| => (a.fields[i].0, JStr(a.fields[i].1))))
  }

  function Prefixed(name: string, issues: seq<Issue>): (r: seq<Issue>)
    ensures |r| == |issues|
  {
    seq(|issues|, i requires 0 <= i < |issues| => Issue(name + "." + issues[i].loc, issues[i].code))
  }

  /** One field of `CustomerCanonical(**data)`: the blank-to-None coercion
      every field gets, then the field's own check. Ok(None) means the field
      is unset or None and so left out of the dump; Ok(Some(j)) is what the
      dump holds for it. */
  function ValidateField(name: string, kind: Kind, v: Option<Value>): (r: Result<Option<Json>, seq<Issue>>)
    ensures r.Err? ==> |r.error| > 0
    ensures v.None? ==> (r.Ok? <==> name != Required) && (r.Ok? ==> r.value.None?)
    ensures v.Some? && v.value.Text? && IsBlank(v.value.s) ==>
              (r.Ok? <==> name != Required) && (r.Ok? ==> r.value.None?)
    ensures r.Ok? && r.value.None? ==> v.None? || (v.value.Text? && IsBlank(v.value.s))
    ensures kind.TextField? && v.Some? && v.value.Text? && !IsBlank(v.value.s) ==>
              (r.Ok? <==> |v.value.s| <= kind.maxLength) && (r.Ok? ==> r.value == Some(JStr(v.value.s)))
    ensures kind.TextField? && r.Ok? && r.value.Some? ==>
              r.value.value.JStr? && v == Some(Text(r.value.value.s))
              && !IsBlank(r.value.value.s) && |r.value.value.s| <= kind.maxLength
    ensures kind.FlagField? && v.Some? && v.value.Flag? ==> r == Ok(Some(JBool(v.value.b)))
  {
    match v
    case None => if name == Required then Err([Issue(name, Missing)]) else Ok(None)
    case Some(x) =>
      if x.Text? && IsBlank(x.s) then
        if name == Required then Err([Issue(name, NoneNotAllowed)]) else Ok(None)
      else
        match kind
        case TextField(cap) =>
          if !x.Text? then Err([Issue(name, WrongType)])
          else if |x.s| > cap then Err([Issue(name, TooLong(cap))])
          else Ok(Some(JStr(x.s)))
        case FlagField =>
          if x.Flag? then Ok(Some(JBool(x.b))) else Err([Issue(name, WrongType)])
        case EmailField =>
          if x.EmailVal? then Ok(Some(StrObj("Address", x.email.address))) else Err([Issue(name, WrongType)])
        case PhoneField =>
          if x.PhoneVal? then Ok(Some(StrObj("FreeFormNumber", x.phone.freeFormNumber))) else Err([Issue(name, WrongType)])
        case WebField =>
          if x.WebVal? then Ok(Some(StrObj("URI", x.web.uri))) else Err([Issue(name, WrongType)])
        case AddressField =>
          if x.AddrVal? then Ok(Some(AddressJson(x.address)))
          else if x.PartsVal? then
            match NewAddress(x.parts)
            case Ok(a) => Ok(Some(AddressJson(a)))
            case Err(issues) => Err(Prefixed(name, issues))
          else Err([Issue(name, WrongType)])
        case RefField => Err([Issue(name, WrongType)])
  }

  function FieldOk(f: (string, Kind), data: Dict<Value>): bool {
    ValidateField(f.0, f.1, Get(data, f.0)).Ok?
  }

  /** What the dump holds for an accepted field. */
  function FieldDump(f: (string, Kind), data: Dict<Value>): Option<Json> {
    match ValidateField(f.0, f.1, Get(data, f.0))
    case Ok(j) => j
    case Err(_) => None
  }

  /** Validation of the fields of a suffix of the table, collecting the dump
      of the accepted fields and the issues of the refused ones. */
  function ValidateFrom(table: seq<(string, Kind)>, data: Dict<Value>): (r: (Dict<Json>, seq<Issue>))
    requires Distinct(Names(table))
    ensures |r.1| == 0 <==> forall i :: 0 <= i < |table| ==> FieldOk(table[i], data)
    ensures Unique(r.0)
    ensures forall k :: HasKey(r.0, k) ==> k in Names(table)
    ensures |r.1| == 0 ==> forall i :: 0 <= i < |table| ==> Get(r.0, table[i].0) == FieldDump(table[i], data)
  {
    if |table| == 0 then ([], [])
    else
      var name := table[0].0;
      assert Names(table) == [name] + Names(table[1..]);
      assert Distinct(Names(table[1..])) by {
        forall i, j | 0 <= i < j < |table| - 1 ensures Names(table[1..])[i] != Names(table[1..])[j] {
          assert Names(table)[i + 1] != Names(table)[j + 1];
        }
      }
      assert name !in Names(table[1..]) by {
        forall i | 0 <= i < |table| - 1 ensures Names(table[1..])[i] != name {
          assert Names(table)[0] != Names(table)[i + 1];
        }
      }
      var rest := ValidateFrom(table[1..], data);
      var field := ValidateField(name, table[0].1, Get(data, name));
      var r := (Cons(name, FieldDump(table[0], data), rest.0),
                (if field.Err? then field.error else []) + rest.1);
      assert |r.1| == 0 ==> forall i :: 0 <= i < |table| ==> Get(r.0, table[i].0) == FieldDump(table[i], data) by {
        if |r.1| == 0 {
          forall i | 0 <= i < |table| ensures Get(r.0, table[i].0) == FieldDump(table[i], data) {
            if i > 0 { assert table[i] == table[1..][i - 1]; }
          }
        }
      }
      assert (|r.1| == 0) == forall i :: 0 <= i < |table| ==> FieldOk(table[i], data) by {
        assert forall i :: 0 < i < |table| ==> table[i] == table[1..][i - 1];
      }
      r
  }

  const CanonicalNames: seq<string> := [
    "DisplayName", "CompanyName", "Title", "GivenName", "MiddleName", "FamilyName", "Suffix",
    "PrimaryEmailAddr", "PrimaryPhone", "Mobile", "Fax", "AlternatePhone", "WebAddr", "BillAddr", "ShipAddr",
    "Notes", "Taxable", "Active", "Job", "BillWithParent", "ParentRef", "CurrencyRef"
  ]

  lemma CanonicalNamesDistinct()
    ensures Names(CanonicalFields) == CanonicalNames
    ensures Distinct(CanonicalNames)
  {
    CanonicalNamesOfFields();
    CanonicalHalvesDistinct();
    CanonicalHalvesDisjoint();
    DistinctConcat(CanonicalNames[..11], CanonicalNames[11..]);
    assert CanonicalNames[..11] + CanonicalNames[11..] == CanonicalNames;
  }

  lemma CanonicalHalvesDistinct()
    ensures Distinct(CanonicalNames[..11]) && Distinct(CanonicalNames[11..])
  {
    CanonicalFrontDistinct();
  }

  lemma CanonicalFrontDistinct()
    ensures Distinct(CanonicalNames[..11])
  {
  }

  lemma CanonicalHalvesDisjoint()
    ensures forall i, j :: 0 <= i < 11 && 0 <= j < |CanonicalNames| - 11 ==> CanonicalNames[..11][i] != CanonicalNames[11..][j]
  {
  }

  lemma CanonicalNamesOfFields()
    ensures Names(CanonicalFields) == CanonicalNames
  {
  }

  /** Two lists without repeats and without common names join into one
      without repeats. */
  lemma DistinctConcat(a: seq<string>, b: seq<string>)
    requires Distinct(a) && Distinct(b)
    requires forall i, j :: 0 <= i < |a| && 0 <= j < |b| ==> a[i] != b[j]
    ensures Distinct(a + b)
  {
    forall i, j | 0 <= i < j < |a + b| ensures (a + b)[i] != (a + b)[j] {
      if j < |a| {
        assert (a + b)[i] == a[i] && (a + b)[j] == a[j];
      } else if i < |a| {
        assert (a + b)[i] == a[i] && (a + b)[j] == b[j - |a|];
      } else {
        assert (a + b)[i] == b[i - |a|] && (a + b)[j] == b[j - |a|];
      }
    }
  }

  /** `CustomerCanonical(**data)`: keys that are not fields are ignored;
      the record is refused, with every failing field's issues, when any field
      fails; otherwise the result is `.dict(exclude_unset=True,
      exclude_none=True)`: exactly the fields given a non-blank value, in
      declaration order, each as its field check returned it. */
  function Validate(data: Dict<Value>): (r: Result<Dict<Json>, seq<Issue>>)
    ensures r.Ok? <==> forall i :: 0 <= i < |CanonicalFields| ==> FieldOk(CanonicalFields[i], data)
    ensures r.Err? ==> |r.error| > 0
    ensures r.Ok? ==> Unique(r.value)
    ensures r.Ok? ==> forall k :: HasKey(r.value, k) ==> k in CanonicalNames
    ensures r.Ok? ==> forall i :: 0 <= i < |CanonicalFields| ==>
              Get(r.value, CanonicalFields[i].0) == FieldDump(CanonicalFields[i], data)
  {
    CanonicalNamesDistinct();
    var (dump, issues) := ValidateFrom(CanonicalFields, data);
    if |issues| == 0 then Ok(dump) else Err(issues)
  }

  /** A validated record always holds a display name that is not blank and
      has 1 to 500 characters, exactly as given; a blank or missing one is
      refused. */
  lemma ValidateDisplayName(data: Dict<Value>)
    ensures Validate(data).Ok? ==>
              var v := Get(data, "DisplayName");
              && v.Some? && v.value.Text? && !IsBlank(v.value.s) && 1 <= |v.value.s| <= 500
              && Get(Validate(data).value, "DisplayName") == Some(JStr(v.value.s))
    ensures Get(data, "DisplayName").None? ==> Validate(data).Err?
    ensures Get(data, "DisplayName").Some? && Get(data, "DisplayName").value.Text? && IsBlank(Get(data, "DisplayName").value.s) ==>
              Validate(data).Err?
  {
    var f := CanonicalFields[0];
    assert f == ("DisplayName", TextField(500));
    var r := ValidateField(f.0, f.1, Get(data, f.0));
    assert Validate(data).Ok? ==> r.Ok?;
  }

  /** Fields never given (Active and Job included, whose Python defaults
      are True and False) and fields given blank are left out of the dump;
      every other given field is present in it. */
  lemma ValidateOmitsUnset(data: Dict<Value>, i: nat)
    requires i < |CanonicalFields| && Validate(data).Ok?
    ensures var name := CanonicalFields[i].0;
            var v := Get(data, name);
            HasKey(Validate(data).value, name) <==> v.Some? && !(v.value.Text? && IsBlank(v.value.s))
  {
    var name := CanonicalFields[i].0;
    var f := ValidateField(name, CanonicalFields[i].1, Get(data, name));
    assert f.Ok?;
  }

  /** A record validated without an e-mail address dumps none. */
  lemma ValidateWithoutEmail(data: Dict<Value>)
    requires Validate(data).Ok? && Get(data, "PrimaryEmailAddr").None?
    ensures IsDump(Validate(data).value) && !HasKey(Validate(data).value, "PrimaryEmailAddr")
  {
    ValidateGivesDump(data);
    EmailFieldUnset(data);
  }

  /** An e-mail field never given dumps nothing. */
  lemma EmailFieldUnset(data: Dict<Value>)
    requires Get(data, "PrimaryEmailAddr").None?
    ensures CanonicalFields[7].0 == "PrimaryEmailAddr" && FieldDump(CanonicalFields[7], data).None?
  {
    assert CanonicalFields[7] == ("PrimaryEmailAddr", EmailField);
  }

  /** Every text field the dump holds respects its maximum length: Title and
      Suffix 16, the name parts 100, CompanyName 500, Notes 2000. */
  lemma ValidateTextBounds(data: Dict<Value>, i: nat)
    requires i < |CanonicalFields| && CanonicalFields[i].1.TextField? && Validate(data).Ok?
    requires HasKey(Validate(data).value, CanonicalFields[i].0)
    ensures var j := Get(Validate(data).value, CanonicalFields[i].0).value;
            j.JStr? && !IsBlank(j.s) && |j.s| <= CanonicalFields[i].1.maxLength
  {
    var f := ValidateField(CanonicalFields[i].0, CanonicalFields[i].1, Get(data, CanonicalFields[i].0));
    assert f.Ok?;
  }

  // ------------------------------------------------------ to_qbo_payload

  const ScalarNames: seq<string> := [
    "CompanyName", "Title", "GivenName", "MiddleName", "FamilyName",
    "Suffix", "Notes", "Taxable", "Active", "Job", "BillWithParent",
    "ParentRef", "CurrencyRef"
  ]

  const NestedNames: seq<string> := [
    "PrimaryEmailAddr", "PrimaryPhone", "Mobile", "Fax", "AlternatePhone", "WebAddr", "BillAddr", "ShipAddr"
  ]

  /** The `UnboundLocalError` message for reading `obj` before the loop
      assigned it, in the wording of Python 3.11 and later. */
  const UnboundObj := "cannot access local variable 'obj' where it is not associated with a value"

  /** Python's message for `data.pop("DisplayName")` when the key is missing. */
  const MissingDisplayName := "'DisplayName'"

  /** The scalar loop: each listed name present in `data` is popped from it
      and assigned in `payload`. The corrected nested loop is the same code. */
  function MoveFields(names: seq<string>, data: Dict<Json>, payload: Dict<Json>): (r: (Dict<Json>, Dict<Json>))
    requires Unique(data)
    ensures Unique(r.0) && (Unique(payload) ==> Unique(r.1))
    ensures forall k :: Get(r.0, k) == if k in names then None else Get(data, k)
    ensures forall k :: Get(r.1, k) == if k in names && HasKey(data, k) then Get(data, k) else Get(payload, k)
    ensures |payload| > 0 ==> |r.1| > 0 && r.1[0].0 == payload[0].0
  {
    if |names| == 0 then (data, payload)
    else
      var (data', payload') := MoveOne(names[0], data, payload);
      var r := MoveFields(names[1..], data', payload');
      assert forall k :: k in names <==> k == names[0] || k in names[1..] by {
        assert names == [names[0]] + names[1..];
      }
      r
  }

  /** One turn of the loop: `n`, when present, is popped from `data` and
      assigned in `payload`. */
  function MoveOne(n: string, data: Dict<Json>, payload: Dict<Json>): (r: (Dict<Json>, Dict<Json>))
    requires Unique(data)
    ensures Unique(r.0) && (Unique(payload) ==> Unique(r.1))
    ensures forall k :: Get(r.0, k) == if k == n then None else Get(data, k)
    ensures forall k :: Get(r.1, k) == if k == n && HasKey(data, k) then Get(data, k) else Get(payload, k)
    ensures |payload| > 0 ==> |r.1| > 0 && r.1[0].0 == payload[0].0
  {
    var payload' := if HasKey(data, n) then Put(payload, n, Get(data, n).value) else payload;
    assert |payload| > 0 ==> Keys(payload')[0] == Keys(payload)[0];
    (Remove(data, n), payload')
  }

  /** The nested loop as written: the assignment to `payload` sits outside
      the `if`, so every name is assigned the most recently popped object,
      and reading `obj` before anything was popped fails. */
  function MoveNestedAsWritten(names: seq<string>, data: Dict<Json>, payload: Dict<Json>, obj: Option<Json>): (r: Result<(Dict<Json>, Dict<Json>), string>)
    requires Unique(data)
    ensures r.Err? <==> |names| > 0 && obj.None? && !HasKey(data, names[0])
    ensures r.Err? ==> r.error == UnboundObj
    ensures r.Ok? ==> Unique(r.value.0) && (Unique(payload) ==> Unique(r.value.1))
    ensures r.Ok? ==> forall k :: Get(r.value.0, k) == if k in names then None else Get(data, k)
    ensures r.Ok? ==> forall k :: k !in names ==> Get(r.value.1, k) == Get(payload, k)
    ensures r.Ok? && |payload| > 0 ==> |r.value.1| > 0 && r.value.1[0].0 == payload[0].0
  {
    if |names| == 0 then Ok((data, payload))
    else
      var n := names[0];
      var obj' := if HasKey(data, n) then Get(data, n) else obj;
      var data' := Remove(data, n);
      match obj'
      case None => Err(UnboundObj)
      case Some(o) =>
        var payload' := Put(payload, n, o);
        assert |payload| > 0 ==> Keys(payload')[0] == Keys(payload)[0];
        MoveNestedAsWritten(names[1..], data', payload', obj')
  }

  /** `payload.update(data)`: the leftover entries assigned in order. */
  function Update(payload: Dict<Json>, data: Dict<Json>): (r: Dict<Json>)
    ensures |data| == 0 ==> r == payload
    ensures Unique(payload) ==> Unique(r)
    ensures Unique(data) ==> forall k :: Get(r, k) == if HasKey(data, k) then Get(data, k) else Get(payload, k)
    decreases |data|
  {
    if |data| == 0 then payload
    else if Unique(data) then
      GetFirst(data);
      Update(Put(payload, data[0].0, data[0].1), data[1..])
    else Update(Put(payload, data[0].0, data[0].1), data[1..])
  }

  /** The first two steps of `to_qbo_payload`: DisplayName popped into a
      fresh payload, then the scalar loop. */
  function AfterScalars(dump: Dict<Json>, dn: Json): (r: (Dict<Json>, Dict<Json>))
    requires Unique(dump)
    ensures Unique(r.0) && Unique(r.1)
    ensures forall k :: Get(r.0, k) == if k == "DisplayName" || k in ScalarNames then None else Get(dump, k)
    ensures forall k :: Get(r.1, k) == if k == "DisplayName" then Some(dn) else if k in ScalarNames then Get(dump, k) else None
    ensures |r.1| > 0 && r.1[0] == ("DisplayName", dn)
  {
    var payload := [("DisplayName", dn)];
    GetSingle("DisplayName", dn);
    var data := Remove(dump, "DisplayName");
    assert forall k :: Get(data, k) == if k == "DisplayName" then None else Get(dump, k);
    assert Unique(data);
    DisplayNameNotScalar();
    var r := MoveFields(ScalarNames, data, payload);
    r
  }

  /** The e-mail object is neither DisplayName nor a scalar, and is the
      first name of the nested loop. */
  lemma EmailNotScalar()
    ensures NestedNames[0] == "PrimaryEmailAddr" && "PrimaryEmailAddr" !in ScalarNames
    ensures MissingDisplayName != UnboundObj
  {
  }

  lemma DisplayNameNotScalar()
    ensures "DisplayName" !in ScalarNames
  {
  }

  /** `CustomerCanonical.to_qbo_payload` as written, on the dump. */
  function ToPayload(dump: Dict<Json>): (r: Result<Dict<Json>, string>)
    requires Unique(dump)
    ensures r == Err(MissingDisplayName) <==> !HasKey(dump, "DisplayName")
    ensures r == Err(UnboundObj) <==> HasKey(dump, "DisplayName") && !HasKey(dump, "PrimaryEmailAddr")
    ensures r.Err? ==> r.error == MissingDisplayName || r.error == UnboundObj
    ensures r.Ok? ==> Unique(r.value)
  {
    match Get(dump, "DisplayName")
    case None => Err(MissingDisplayName)
    case Some(dn) =>
      var (data, payload) := AfterScalars(dump, dn);
      EmailNotScalar();
      assert Get(data, NestedNames[0]) == Get(dump, "PrimaryEmailAddr");
      match MoveNestedAsWritten(NestedNames, data, payload, None)
      case Err(e) => Err(e)
      case Ok((rest, p)) => Ok(Update(p, rest))
  }

  /** The corrected `to_qbo_payload`, with the nested assignment inside the
      `if`: nested objects are moved exactly like the scalars. */
  function ToPayloadFixed(dump: Dict<Json>): (r: Result<Dict<Json>, string>)
    requires Unique(dump)
    ensures r.Err? <==> !HasKey(dump, "DisplayName")
    ensures r.Err? ==> r.error == MissingDisplayName
    ensures r.Ok? ==> Unique(r.value)
  {
    match Get(dump, "DisplayName")
    case None => Err(MissingDisplayName)
    case Some(dn) =>
      var (data, payload) := AfterScalars(dump, dn);
      var (rest, p) := MoveFields(NestedNames, data, payload);
      Ok(Update(p, rest))
  }

  // ------------------------------------------------- payload properties

  /** The nearest position at or before `i` whose name is present in `data`. */
  function NearestPresent(names: seq<string>, data: Dict<Json>, i: nat): (r: Option<nat>)
    requires i < |names|
    ensures r.Some? ==> r.value <= i && HasKey(data, names[r.value])
    ensures r.Some? ==> forall j :: r.value < j <= i ==> !HasKey(data, names[j])
    ensures r.None? ==> forall j :: 0 <= j <= i ==> !HasKey(data, names[j])
  {
    if HasKey(data, names[i]) then Some(i) else if i == 0 then None else NearestPresent(names, data, i - 1)
  }

  /** What the as-written loop assigns to `names[i]`: the object of the
      nearest present name at or before it, or the object held on entry. */
  function Carried(names: seq<string>, data: Dict<Json>, obj: Option<Json>, i: nat): Option<Json>
    requires i < |names|
  {
    match NearestPresent(names, data, i)
    case Some(j) => Get(data, names[j])
    case None => obj
  }

  /** Each name the as-written loop visits receives the carried object. */
  lemma {:induction false} MoveNestedCarries(names: seq<string>, data: Dict<Json>, payload: Dict<Json>, obj: Option<Json>)
    requires Unique(data) && Distinct(names)
    requires MoveNestedAsWritten(names, data, payload, obj).Ok?
    ensures forall i :: 0 <= i < |names| ==>
              Get(MoveNestedAsWritten(names, data, payload, obj).value.1, names[i]) == Carried(names, data, obj, i)
  {
    if |names| > 0 {
      var n := names[0];
      var obj' := if HasKey(data, n) then Get(data, n) else obj;
      var data' := Remove(data, n);
      var payload' := Put(payload, n, obj'.value);
      var tail := names[1..];
      var out := MoveNestedAsWritten(names, data, payload, obj).value.1;
      assert out == MoveNestedAsWritten(tail, data', payload', obj').value.1;
      MoveNestedCarries(tail, data', payload', obj');
      forall i | 0 <= i < |names|
        ensures Get(out, names[i]) == Carried(names, data, obj, i)
      {
        if i == 0 {
          assert n !in tail;
          assert Get(out, n) == Get(payload', n);
        } else {
          assert tail[i - 1] == names[i];
          CarriedShift(names, data, obj, i);
        }
      }
    }
  }

  /** Searching back from `i` without the first name finds the same
      position, shifted by one, unless the only one found was the first. */
  lemma {:induction false} NearestShift(names: seq<string>, data: Dict<Json>, data': Dict<Json>, i: nat)
    requires 0 < i < |names|
    requires forall j :: 0 < j < |names| ==> (HasKey(data', names[j]) <==> HasKey(data, names[j]))
    ensures NearestPresent(names[1..], data', i - 1) ==
              match NearestPresent(names, data, i)
              case Some(j) => if j == 0 then None else Some(j - 1)
              case None => None
  {
    assert names[1..][i - 1] == names[i];
    if !HasKey(data, names[i]) && i > 1 {
      NearestShift(names, data, data', i - 1);
    }
  }

  /** Dropping the first name shifts the carried objects by one position. */
  lemma CarriedShift(names: seq<string>, data: Dict<Json>, obj: Option<Json>, i: nat)
    requires Unique(data) && Distinct(names) && 0 < i < |names|
    ensures var obj' := if HasKey(data, names[0]) then Get(data, names[0]) else obj;
            Carried(names[1..], Remove(data, names[0]), obj', i - 1) == Carried(names, data, obj, i)
  {
    var data' := Remove(data, names[0]);
    forall j | 0 < j < |names| ensures HasKey(data', names[j]) <==> HasKey(data, names[j]) {
      assert Get(data', names[j]) == Get(data, names[j]);
    }
    NearestShift(names, data, data', i);
    match NearestPresent(names, data, i)
    case Some(j) =>
      if j > 0 {
        assert names[1..][j - 1] == names[j];
        assert Get(data', names[j]) == Get(data, names[j]);
      }
    case None =>
      assert !HasKey(data, names[0]);
  }

  lemma PayloadNamesFacts()
    ensures Distinct(NestedNames)
    ensures forall k :: k in NestedNames ==> k !in ScalarNames && k != "DisplayName"
    ensures "DisplayName" !in ScalarNames
  {
  }

  /** Every canonical field is popped by one of the three steps. */
  lemma PayloadNamesCover()
    ensures forall k :: k in CanonicalNames ==> k == "DisplayName" || k in ScalarNames || k in NestedNames
  {
  }

  /** A dump whose keys are canonical fields has nothing left once the
      three steps have popped their fields. */
  lemma LeftoverEmpty(dump: Dict<Json>, rest: Dict<Json>)
    requires forall k :: HasKey(dump, k) ==> k in CanonicalNames
    requires forall k :: Get(rest, k) == if k == "DisplayName" || k in ScalarNames || k in NestedNames then None else Get(dump, k)
    ensures rest == []
  {
    PayloadNamesCover();
    forall k ensures !HasKey(rest, k) {
      if !(k == "DisplayName" || k in ScalarNames || k in NestedNames) {
        assert k !in CanonicalNames;
        assert Get(dump, k).None?;
      }
      assert Get(rest, k).None?;
    }
    assert |rest| > 0 ==> HasKey(rest, rest[0].0);
  }

  /** A dump from `Validate` is one `to_qbo_payload` can be applied to. */
  ghost predicate IsDump(dump: Dict<Json>) {
    Unique(dump) && HasKey(dump, "DisplayName") && forall k :: HasKey(dump, k) ==> k in CanonicalNames
  }

  /** The dump of every validated record is such a dump. */
  lemma ValidateGivesDump(data: Dict<Value>)
    requires Validate(data).Ok?
    ensures IsDump(Validate(data).value)
  {
    ValidateDisplayName(data);
  }

  /** The corrected builder sends exactly the dump, DisplayName first: the
      final `update` has nothing left to add. */
  lemma ToPayloadFixedIsDump(dump: Dict<Json>)
    requires IsDump(dump)
    ensures ToPayloadFixed(dump).Ok?
    ensures var p := ToPayloadFixed(dump).value;
            && Unique(p) && |p| > 0 && p[0].0 == "DisplayName"
            && forall k :: Get(p, k) == Get(dump, k)
  {
    PayloadNamesFacts();
    PayloadNamesCover();
    var dn := Get(dump, "DisplayName").value;
    var (data, payload) := AfterScalars(dump, dn);
    var (rest, p) := MoveFields(NestedNames, data, payload);
    LeftoverEmpty(dump, rest);
    assert ToPayloadFixed(dump) == Ok(p);
    forall k ensures Get(p, k) == Get(dump, k) {
      if !(k == "DisplayName" || k in ScalarNames || k in NestedNames) {
        assert !HasKey(dump, k);
      }
    }
  }

  /** The as-written builder fails exactly when the dump has no e-mail
      object: "PrimaryEmailAddr" comes first in the nested loop and reading
      `obj` before it was assigned raises. */
  lemma ToPayloadFailsWithoutEmail(dump: Dict<Json>)
    requires IsDump(dump)
    ensures ToPayload(dump).Err? <==> !HasKey(dump, "PrimaryEmailAddr")
    ensures ToPayload(dump).Err? ==> ToPayload(dump).error == UnboundObj
  {
    PayloadNamesFacts();
    var dn := Get(dump, "DisplayName").value;
    var (data, payload) := AfterScalars(dump, dn);
    assert Get(data, "PrimaryEmailAddr") == Get(dump, "PrimaryEmailAddr");
  }

  /** When the as-written builder succeeds, DisplayName comes first and
      every field other than the eight nested ones is sent as in the dump. */
  lemma ToPayloadAsWritten(dump: Dict<Json>)
    requires IsDump(dump) && HasKey(dump, "PrimaryEmailAddr")
    ensures ToPayload(dump).Ok?
    ensures var p := ToPayload(dump).value;
            && Unique(p) && |p| > 0 && p[0].0 == "DisplayName"
            && forall k :: k !in NestedNames ==> Get(p, k) == Get(dump, k)
  {
    PayloadNamesFacts();
    PayloadNamesCover();
    ToPayloadFailsWithoutEmail(dump);
    var dn := Get(dump, "DisplayName").value;
    var (data, payload) := AfterScalars(dump, dn);
    var (rest, p) := MoveNestedAsWritten(NestedNames, data, payload, None).value;
    LeftoverEmpty(dump, rest);
    assert ToPayload(dump) == Ok(p);
    forall k | k !in NestedNames ensures Get(p, k) == Get(dump, k) {
      if !(k == "DisplayName" || k in ScalarNames) {
        assert !HasKey(dump, k);
      }
    }
  }

  /** The first two nested names: e-mail, then phone. */
  lemma NestedHeads()
    ensures NestedNames[0] == "PrimaryEmailAddr" && NestedNames[1] == "PrimaryPhone"
  {
  }

  /** The scalar loop leaves every nested object where it was. */
  lemma AfterScalarsKeepsNested(dump: Dict<Json>, dn: Json)
    requires Unique(dump)
    ensures forall j :: 0 <= j < |NestedNames| ==> Get(AfterScalars(dump, dn).0, NestedNames[j]) == Get(dump, NestedNames[j])
  {
    PayloadNamesFacts();
    forall j | 0 <= j < |NestedNames|
      ensures Get(AfterScalars(dump, dn).0, NestedNames[j]) == Get(dump, NestedNames[j])
    {
      assert NestedNames[j] in NestedNames;
    }
  }

  /** The nested loop run on what the scalar loop left assigns the carried
      objects of the dump. */
  lemma NestedLoopCarries(dump: Dict<Json>, dn: Json)
    requires Unique(dump) && HasKey(dump, "PrimaryEmailAddr")
    ensures var (data, payload) := AfterScalars(dump, dn);
            var r := MoveNestedAsWritten(NestedNames, data, payload, None);
            r.Ok? && forall i :: 0 <= i < |NestedNames| ==> Get(r.value.1, NestedNames[i]) == Carried(NestedNames, dump, None, i)
  {
    PayloadNamesFacts();
    var (data, payload) := AfterScalars(dump, dn);
    NestedHeads();
    AfterScalarsKeepsNested(dump, dn);
    MoveNestedCarries(NestedNames, data, payload, None);
    forall i | 0 <= i < |NestedNames|
      ensures Carried(NestedNames, data, None, i) == Carried(NestedNames, dump, None, i)
    {
      CarriedSameKeys(NestedNames, data, dump, i);
    }
  }

  /** Every one of the eight nested names is sent, each with the object of
      the nearest present nested name at or before it: an absent phone, web
      address or postal address receives the e-mail object, or the object of
      a later present one. */
  lemma ToPayloadCarriesNested(dump: Dict<Json>)
    requires IsDump(dump) && HasKey(dump, "PrimaryEmailAddr")
    ensures ToPayload(dump).Ok?
    ensures forall i :: 0 <= i < |NestedNames| ==>
              NearestPresent(NestedNames, dump, i).Some?
              && Get(ToPayload(dump).value, NestedNames[i]) == Carried(NestedNames, dump, None, i)
  {
    var dn := Get(dump, "DisplayName").value;
    var (data, payload) := AfterScalars(dump, dn);
    NestedLoopCarries(dump, dn);
    var (rest, p) := MoveNestedAsWritten(NestedNames, data, payload, None).value;
    LeftoverEmpty(dump, rest);
    assert ToPayload(dump) == Ok(p);
    assert NestedNames[0] == "PrimaryEmailAddr";
    forall i | 0 <= i < |NestedNames| ensures NearestPresent(NestedNames, dump, i).Some? {
      NearestFromStart(NestedNames, dump, i);
    }
  }

  /** A name present at position 0 is always the nearest one at worst. */
  lemma NearestFromStart(names: seq<string>, data: Dict<Json>, i: nat)
    requires i < |names| && HasKey(data, names[0])
    ensures NearestPresent(names, data, i).Some?
  {
  }

  /** The search back from `i` only depends on which names are present. */
  lemma {:induction false} NearestSameKeys(names: seq<string>, d: Dict<Json>, e: Dict<Json>, i: nat)
    requires i < |names|
    requires forall j :: 0 <= j < |names| ==> (HasKey(d, names[j]) <==> HasKey(e, names[j]))
    ensures NearestPresent(names, d, i) == NearestPresent(names, e, i)
  {
    if !HasKey(d, names[i]) && i > 0 {
      NearestSameKeys(names, d, e, i - 1);
    }
  }

  /** The carried objects only depend on which names are present and their
      values. */
  lemma CarriedSameKeys(names: seq<string>, d: Dict<Json>, e: Dict<Json>, i: nat)
    requires i < |names|
    requires forall j :: 0 <= j < |names| ==> Get(d, names[j]) == Get(e, names[j])
    ensures Carried(names, d, None, i) == Carried(names, e, None, i)
  {
    assert forall j :: 0 <= j < |names| ==> (HasKey(d, names[j]) <==> HasKey(e, names[j]));
    NearestSameKeys(names, d, e, i);
  }

  /** A customer with an e-mail address and no phone is sent with the
      e-mail object as its phone; the corrected builder sends no phone. */
  lemma PhoneReceivesEmail(dump: Dict<Json>)
    requires IsDump(dump) && HasKey(dump, "PrimaryEmailAddr") && !HasKey(dump, "PrimaryPhone")
    ensures ToPayload(dump).Ok? && ToPayloadFixed(dump).Ok?
    ensures Get(ToPayload(dump).value, "PrimaryPhone") == Get(dump, "PrimaryEmailAddr")
    ensures Get(ToPayloadFixed(dump).value, "PrimaryPhone") == None
  {
    ToPayloadCarriesNested(dump);
    ToPayloadFixedIsDump(dump);
    NestedHeads();
    assert NearestPresent(NestedNames, dump, 1) == Some(0);
  }

  /** The smallest such record: a display name and an e-mail address. */
  lemma PhoneReceivesEmailExample(name: Json, email: Json, dump: Dict<Json>)
    requires dump == [("DisplayName", name), ("PrimaryEmailAddr", email)]
    ensures ToPayload(dump).Ok?
    ensures Get(ToPayload(dump).value, "PrimaryPhone") == Some(email)
  {
    assert Keys(dump) == ["DisplayName", "PrimaryEmailAddr"];
    assert Unique(dump);
    assert forall k :: HasKey(dump, k) ==> k in CanonicalNames;
    assert Get(dump, "PrimaryEmailAddr") == Some(email) by {
      assert Find(Keys(dump), "PrimaryEmailAddr") == 1;
    }
    PhoneReceivesEmail(dump);
  }
}

=== FILE: dict.dfy ===
/** Python's `dict`: a mapping that remembers insertion order. Modelled as a
    sequence of key/value pairs with string keys (every dictionary the
    pipeline builds is keyed by strings); `Unique` is the invariant every dictionary
    built by the pipeline keeps. Assignment to an existing key keeps its
    position, assignment to a new key appends, `pop` removes the entry. */
module Dict {
  import opened Wrappers

  type Dict<V> = seq<(string, V)>

  function Keys<V>(d: Dict<V>): (ks: seq<string>)
    ensures |ks| == |d|
    ensures forall i :: 0 <= i < |d| ==> ks[i] == d[i].0
  {
    seq(|d|, i requires 0 <= i < |d| => d[i].0)
  }

  predicate HasKey<V>(d: Dict<V>, k: string) {
    k in Keys(d)
  }

  /** No key occurs twice. */
  predicate Unique<V>(d: Dict<V>) {
    forall i, j :: 0 <= i < j < |d| ==> d[i].0 != d[j].0
  }

  /** Position of the first occurrence of `k`, or `|ks|` when there is none. */
  function Find(ks: seq<string>, k: string): (i: nat)
    ensures i <= |ks|
    ensures i < |ks| ==> ks[i] == k
    ensures forall j :: 0 <= j < i ==> ks[j] != k
  {
    if |ks| == 0 then 0 else if ks[0] == k then 0 else 1 + Find(ks[1..], k)
  }

  /** `d.get(k)`: the value of the first entry with key `k`. */
  function Get<V>(d: Dict<V>, k: string): (r: Option<V>)
    ensures r.None? <==> !HasKey(d, k)
    ensures r.Some? ==> exists i :: 0 <= i < |d| && d[i] == (k, r.value)
  {
    var i := Find(Keys(d), k);
    if i < |d| then Some(d[i].1) else None
  }

  /** Looking a key up in a dictionary extended at the end finds the old
      entry when there is one. */
  lemma GetAppend<V>(d: Dict<V>, k: string, v: V, k': string)
    ensures Get(d + [(k, v)], k') == if HasKey(d, k') then Get(d, k') else if k' == k then Some(v) else None
  {
    var r := d + [(k, v)];
    assert Keys(r) == Keys(d) + [k];
    var i := Find(Keys(d), k');
    var i' := Find(Keys(r), k');
    if i < |d| {
      assert Keys(r)[i] == k';
    } else if k' == k {
      assert Keys(r)[|d|] == k';
    }
  }

  /** In a dictionary without repeated keys every entry is found by its key. */
  lemma GetAt<V>(d: Dict<V>, i: nat)
    requires Unique(d) && i < |d|
    ensures Get(d, d[i].0) == Some(d[i].1)
  {
    var j := Find(Keys(d), d[i].0);
    assert Keys(d)[i] == d[i].0;
  }

  /** A dictionary with one entry. */
  lemma GetSingle<V>(k: string, v: V)
    ensures forall k' :: Get([(k, v)], k') == if k' == k then Some(v) else None
  {
    assert Keys([(k, v)]) == [k];
  }

  /** `d[k] = v`. */
  function Put<V>(d: Dict<V>, k: string, v: V): (r: Dict<V>)
    ensures forall k' {:trigger Get(r, k')} :: Get(r, k') == if k' == k then Some(v) else Get(d, k')
    ensures Keys(r) == if HasKey(d, k) then Keys(d) else Keys(d) + [k]
    ensures Unique(d) ==> Unique(r)
  {
    var i := Find(Keys(d), k);
    if i < |d| then
      var r := d[i := (k, v)];
      assert Keys(r) == Keys(d);
      r
    else
      var r := d + [(k, v)];
      assert Keys(r) == Keys(d) + [k];
      assert forall k' :: Get(r, k') == if k' == k then Some(v) else Get(d, k') by {
        forall k' ensures Get(r, k') == if k' == k then Some(v) else Get(d, k') {
          GetAppend(d, k, v, k');
        }
      }
      r
  }

  /** Looking a key up in a dictionary extended at the front. */
  lemma GetPrepend<V>(k: string, v: V, d: Dict<V>, k': string)
    ensures Get([(k, v)] + d, k') == if k' == k then Some(v) else Get(d, k')
  {
    var r := [(k, v)] + d;
    assert Keys(r)[0] == k;
    if k' != k {
      assert Keys(r)[1..] == Keys(d);
      assert Find(Keys(r), k') == 1 + Find(Keys(d), k');
    }
  }

  /** A dictionary without duplicate keys is its first entry in front of
      the rest, which lacks that key. */
  lemma GetFirst<V>(d: Dict<V>)
    requires Unique(d) && |d| > 0
    ensures Unique(d[1..]) && !HasKey(d[1..], d[0].0)
    ensures forall k :: Get(d, k) == if k == d[0].0 then Some(d[0].1) else Get(d[1..], k)
  {
    assert d == [d[0]] + d[1..];
    forall k ensures Get(d, k) == if k == d[0].0 then Some(d[0].1) else Get(d[1..], k) {
      GetPrepend(d[0].0, d[0].1, d[1..], k);
    }
  }

  /** A key not in `d` put in front of it keeps the keys unique. */
  lemma UniquePrepend<V>(k: string, v: V, d: Dict<V>)
    requires Unique(d) && !HasKey(d, k)
    ensures Unique([(k, v)] + d)
  {
    var r := [(k, v)] + d;
    forall i, j | 0 <= i < j < |r| ensures r[i].0 != r[j].0 {
      if i == 0 { assert Keys(d)[j - 1] == r[j].0; }
    }
  }

  /** A dictionary with an optional entry for `k` in front of `d`. */
  function Cons<V>(k: string, v: Option<V>, d: Dict<V>): (r: Dict<V>)
    ensures forall k' {:trigger Get(r, k')} :: Get(r, k') == if k' == k && v.Some? then v else Get(d, k')
    ensures forall k' {:trigger HasKey(r, k')} :: HasKey(r, k') <==> (k' == k && v.Some?) || HasKey(d, k')
    ensures Unique(d) && !HasKey(d, k) ==> Unique(r)
    ensures v.Some? ==> |r| > 0 && r[0] == (k, v.value)
  {
    if v.None? then d
    else
      var r := [(k, v.value)] + d;
      assert forall k' :: Get(r, k') == (if k' == k then v else Get(d, k')) && (HasKey(r, k') <==> k' == k || HasKey(d, k')) by {
        forall k' ensures Get(r, k') == (if k' == k then v else Get(d, k')) && (HasKey(r, k') <==> k' == k || HasKey(d, k')) {
          GetPrepend(k, v.value, d, k');
        }
      }
      assert Unique(d) && !HasKey(d, k) ==> Unique(r) by {
        if Unique(d) && !HasKey(d, k) {
          UniquePrepend(k, v.value, d);
        }
      }
      r
  }

  /** Looking a key up after the entry at position `i` of a dictionary
      without repeated keys is dropped. */
  lemma GetDropped<V>(d: Dict<V>, i: nat, k': string)
    requires i < |d| && Unique(d)
    ensures Get(d[..i] + d[i + 1..], k') == if k' == d[i].0 then None else Get(d, k')
  {
    var r := d[..i] + d[i + 1..];
    assert forall j :: 0 <= j < |r| ==> r[j] == if j < i then d[j] else d[j + 1];
    var j := Find(Keys(r), k');
    var j' := Find(Keys(d), k');
    if j < |r| {
      var dj := if j < i then j else j + 1;
      assert Keys(d)[dj] == k';
    } else {
      assert forall m :: 0 <= m < |d| && m != i ==> Keys(d)[m] == Keys(r)[if m < i then m else m - 1];
    }
  }

  /** `d.pop(k)` for a key that may be absent (nothing changes then). */
  function Remove<V>(d: Dict<V>, k: string): (r: Dict<V>)
    ensures forall k' {:trigger Get(r, k')} :: Unique(d) ==> Get(r, k') == if k' == k then None else Get(d, k')
    ensures Unique(d) ==> Unique(r)
    ensures |r| == if HasKey(d, k) then |d| - 1 else |d|
    ensures forall k' {:trigger HasKey(r, k')} :: HasKey(r, k') ==> HasKey(d, k')
  {
    var i := Find(Keys(d), k);
    if i < |d| then
      var r := d[..i] + d[i + 1..];
      assert forall j :: 0 <= j < |r| ==> r[j] == if j < i then d[j] else d[j + 1];
      assert forall k' :: HasKey(r, k') ==> HasKey(d, k') by {
        forall k' | HasKey(r, k') ensures HasKey(d, k') {
          var j :| 0 <= j < |r| && Keys(r)[j] == k';
          assert Keys(d)[if j < i then j else j + 1] == k';
        }
      }
      assert forall k' :: Unique(d) ==> Get(r, k') == if k' == k then None else Get(d, k') by {
        forall k' | Unique(d) ensures Get(r, k') == if k' == k then None else Get(d, k') {
          GetDropped(d, i, k');
        }
      }
      r
    else
      d
  }
}

=== FILE: imports.dfy ===
/** The two import endpoints: uploading a CSV creates a job that holds the
    file's text, and starting the job stores the column mapping and queues
    the worker. Reading the CSV is not modelled: `headers` is the header
    line the CSV reader found (`None` for an empty file) and `records` are
    the data rows keyed by header. The database assigns the new job's id,
    which is therefore a parameter. */
module Imports {
  import opened Wrappers
  import opened Dict
  import opened Json
  import opened Store

  /** At most this many data rows are sent back and kept as a preview. */
  const PreviewLimit: nat := 50

  const NoHeaders := HttpError(400, "CSV has no headers or is empty")
  const NotFound := HttpError(404, "Job not found or access denied")
  const AlreadyStarted := HttpError(400, "Job already processing or completed")
  const NoDisplayName := HttpError(400, "DisplayName is required \U{2014} please map a column to it")

  /** What the upload endpoint answers besides creating the job. */
  datatype UploadReply = UploadReply(jobId: int, headers: seq<string>, rowCount: int, preview: seq<Dict<string>>)

  /** The worker call queued by the start endpoint. */
  datatype Task = Task(jobId: int, csvContent: Json, objectType: string)

  /** A started job as saved, and the queued worker call. The call is
      missing when the saved job has no `csv_content`: the lookup then
      raises after the job was already saved as queued. */
  datatype Started = Started(job: Job, task: Option<Task>)

  function TextOrNull(s: Option<string>): Json {
    match s
    case Some(t) => JStr(t)
    case None => JNull
  }

  function StringsJson(xs: seq<string>): (j: Json)
    ensures j.JArr? && |j.items| == |xs|
    ensures forall i :: 0 <= i < |xs| ==> j.items[i] == JStr(xs[i])
  {
    JArr(seq(|xs|, i requires 0 <= i < |xs| => JStr(xs[i])))
  }

  function RecordsJson(rs: seq<Dict<string>>): (j: Json)
    ensures j.JArr? && |j.items| == |rs|
    ensures forall i :: 0 <= i < |rs| ==> j.items[i] == MappingJson(rs[i])
  {
    JArr(seq(|rs|, i requires 0 <= i < |rs| => MappingJson(rs[i])))
  }

  function Min(a: nat, b: nat): nat {
    if a <= b then a else b
  }

  /** The keys the upload stores, in order. */
  const UploadKeys := ["filename", "headers", "row_count", "csv_content", "preview_rows"]

  /** The metadata of a fresh job. */
  function UploadMeta(filename: Option<string>, headers: seq<string>, rowCount: int, text: string, preview: seq<Dict<string>>): (m: Dict<Json>)
    ensures Unique(m) && Keys(m) == UploadKeys
    ensures Get(m, "filename") == Some(TextOrNull(filename))
    ensures Get(m, "headers") == Some(StringsJson(headers))
    ensures Get(m, "row_count") == Some(JInt(rowCount))
    ensures Get(m, "csv_content") == Some(JStr(text))
    ensures Get(m, "preview_rows") == Some(RecordsJson(preview))
  {
    var m := [("filename", TextOrNull(filename)), ("headers", StringsJson(headers)), ("row_count", JInt(rowCount)),
              ("csv_content", JStr(text)), ("preview_rows", RecordsJson(preview))];
    assert Keys(m) == UploadKeys;
    GetAt(m, 0);
    GetAt(m, 1);
    GetAt(m, 2);
    GetAt(m, 3);
    GetAt(m, 4);
    m
  }

  /** `upload_csv_for_mapping`: refuse a file without a header line;
      otherwise create an uploaded job whose row count includes the header
      line and whose preview is the first fifty data rows. */
  function Upload(user: int, objectType: string, filename: Option<string>, text: string,
                  headers: Option<seq<string>>, records: seq<Dict<string>>, newId: int): (r: Result<(Job, UploadReply), HttpError>)
    ensures r.Err? <==> headers.None? || headers.value == []
    ensures r.Err? ==> r.error == NoHeaders
    ensures r.Ok? ==>
              var (job, reply) := r.value;
              && job.id == newId && job.owner == user && job.objectType == objectType
              && job.status == Uploaded && job.rows == []
              && Keys(job.meta) == UploadKeys
              && Get(job.meta, "row_count") == Some(JInt(|records| + 1))
              && Get(job.meta, "csv_content") == Some(JStr(text))
              && Get(job.meta, "filename") == Some(TextOrNull(filename))
              && Get(job.meta, "headers") == Some(StringsJson(headers.value))
              && Get(job.meta, "preview_rows") == Some(RecordsJson(reply.preview))
              && reply == UploadReply(newId, headers.value, |records| + 1, reply.preview)
    ensures r.Ok? ==>
              var preview := r.value.1.preview;
              && |preview| == Min(|records|, PreviewLimit)
              && forall i :: 0 <= i < |preview| ==> preview[i] == records[i]
  {
    if headers.None? || headers.value == [] then Err(NoHeaders)
    else
      var rowCount := |records| + 1;
      var preview := records[..Min(|records|, PreviewLimit)];
      var job := Job(newId, user, objectType, Uploaded, UploadMeta(filename, headers.value, rowCount, text, preview), []);
      Ok((job, UploadReply(newId, headers.value, rowCount, preview)))
  }

  /** Some column is mapped to the customer's display name. */
  predicate MapsDisplayName(mapping: Dict<string>) {
    exists i :: 0 <= i < |mapping| && mapping[i].1 == "DisplayName"
  }

  /** The job as the start request saves it: the mapping stored, status
      queued. */
  function Queue(job: Job, mapping: Dict<string>): (saved: Job)
    ensures saved == job.(status := Queued, meta := saved.meta)
    ensures Get(saved.meta, "mapping") == Some(MappingJson(mapping))
    ensures forall k :: k != "mapping" ==> Get(saved.meta, k) == Get(job.meta, k)
    ensures Unique(job.meta) ==> Unique(saved.meta)
  {
    job.(meta := Put(job.meta, "mapping", MappingJson(mapping)), status := Queued)
  }

  /** `start_import_with_mapping`: refuse, in this order, a job the user
      does not own, a job already past the upload, and a mapping without
      a display name; otherwise store the mapping, mark the job queued and
      queue the worker on the stored text. */
  function Start(jobs: seq<Job>, id: int, user: int, objectType: string, mapping: Dict<string>): (r: Result<Started, HttpError>)
    ensures FindJob(jobs, id, user).None? ==> r == Err(NotFound)
    ensures FindJob(jobs, id, user).Some? && FindJob(jobs, id, user).value.status != Uploaded ==> r == Err(AlreadyStarted)
    ensures FindJob(jobs, id, user).Some? && FindJob(jobs, id, user).value.status == Uploaded && !MapsDisplayName(mapping) ==>
              r == Err(NoDisplayName)
    ensures r.Ok? <==> FindJob(jobs, id, user).Some? && FindJob(jobs, id, user).value.status == Uploaded && MapsDisplayName(mapping)
    ensures r.Ok? ==> r.value.job == Queue(FindJob(jobs, id, user).value, mapping)
    ensures r.Ok? ==>
              var job := FindJob(jobs, id, user).value;
              r.value.task == if HasKey(job.meta, "csv_content") then Some(Task(id, Get(job.meta, "csv_content").value, objectType)) else None
  {
    var found := FindJob(jobs, id, user);
    if found.None? then Err(NotFound)
    else if found.value.status != Uploaded then Err(AlreadyStarted)
    else if !MapsDisplayName(mapping) then Err(NoDisplayName)
    else
      var job := found.value;
      var saved := Queue(job, mapping);
      var content := Get(saved.meta, "csv_content");
      Ok(Started(saved, if content.Some? then Some(Task(saved.id, content.value, objectType)) else None))
  }

  /** A job can be started once only: starting it again is refused. */
  lemma StartOnce(jobs: seq<Job>, id: int, user: int, objectType: string, mapping: Dict<string>, again: Dict<string>)
    requires Start(jobs, id, user, objectType, mapping).Ok?
    ensures Start([Start(jobs, id, user, objectType, mapping).value.job], id, user, objectType, again) == Err(AlreadyStarted)
  {
    var saved := Start(jobs, id, user, objectType, mapping).value.job;
    assert FindJob([saved], id, user) == Some(saved);
  }

  /** A job still in its uploaded state starts, for its owner, with any
      mapping that names a display name column. */
  lemma StartUploaded(job: Job, user: int, objectType: string, mapping: Dict<string>)
    requires job.owner == user && job.status == Uploaded && MapsDisplayName(mapping)
    ensures Start([job], job.id, user, objectType, mapping).Ok?
    ensures Start([job], job.id, user, objectType, mapping).value.job == Queue(job, mapping)
  {
    assert FindJob([job], job.id, user) == Some(job);
  }

  /** A freshly uploaded job starts with any mapping that names a display
      name column, and the worker is queued on the uploaded text. */
  lemma UploadThenStart(user: int, objectType: string, filename: Option<string>, text: string,
                        headers: Option<seq<string>>, records: seq<Dict<string>>, newId: int, mapping: Dict<string>)
    requires Upload(user, objectType, filename, text, headers, records, newId).Ok?
    requires MapsDisplayName(mapping)
    ensures var job := Upload(user, objectType, filename, text, headers, records, newId).value.0;
            var r := Start([job], newId, user, objectType, mapping);
            r.Ok? && r.value.task == Some(Task(newId, JStr(text), objectType))
  {
    var job := Upload(user, objectType, filename, text, headers, records, newId).value.0;
    assert FindJob([job], newId, user) == Some(job);
    assert HasKey(job.meta, "csv_content") by {
      assert Keys(job.meta)[3] == "csv_content";
    }
  }
}

=== FILE: json.dfy ===
/** JSON documents as the pipeline holds them in Python: `None`, booleans,
    integers, strings, lists and insertion-ordered dicts. Used for the job's
    metadata bag, the payload sent to QuickBooks and the parsed responses. */
module Json {
  import opened Text
  import opened Dict

  datatype Json =
    | JNull
    | JBool(b: bool)
    | JInt(i: int)
    | JStr(s: string)
    | JArr(items: seq<Json>)
    | JObj(fields: Dict<Json>)

  /** Python's truth value `bool(v)`: false exactly for None, False, 0 and
      the empty string, list and dict. */
  predicate Truthy(v: Json)
    ensures !Truthy(v) <==> v in {JNull, JBool(false), JInt(0), JStr(""), JArr([]), JObj([])}
  {
    match v
    case JNull => false
    case JBool(b) => b
    case JInt(i) => i != 0
    case JStr(s) => s != ""
    case JArr(items) => items != []
    case JObj(fields) => fields != []
  }

  /** Python's `type(v).__name__`, as quoted in attribute errors. */
  function TypeName(v: Json): string {
    match v
    case JNull => "NoneType"
    case JBool(_) => "bool"
    case JInt(_) => "int"
    case JStr(_) => "str"
    case JArr(_) => "list"
    case JObj(_) => "dict"
  }

  /** The text of `AttributeError` raised by calling `.get` on a non-dict. */
  function NoGetMessage(v: Json): string {
    "'" + TypeName(v) + "' object has no attribute 'get'"
  }

  function Join(parts: seq<string>, sep: string): string {
    if |parts| == 0 then ""
    else if |parts| == 1 then parts[0]
    else parts[0] + sep + Join(parts[1..], sep)
  }

  /** `str` of `None`, a boolean or an integer, which is also its `repr`. */
  function ScalarStr(v: Json): string {
    match v
    case JNull => "None"
    case JBool(b) => if b then "True" else "False"
    case JInt(i) => IntToString(i)
    case JStr(s) => s
    case _ => ""
  }

  /** Python's `repr(v)`: strings in single quotes, containers with their
      elements' reprs. Escaping inside string literals is not reproduced. */
  function Repr(v: Json): string {
    match v
    case JStr(s) => "'" + s + "'"
    case JArr(items) =>
      "[" + Join(seq(|items|, i requires 0 <= i < |items| => Repr(items[i])), ", ") + "]"
    case JObj(fields) =>
      "{" + Join(seq(|fields|, i requires 0 <= i < |fields| =>
                       assert fields[i].1 < fields[i];
                       "'" + fields[i].0 + "': " + Repr(fields[i].1)), ", ") + "}"
    case _ => ScalarStr(v)
  }

  /** Python's `str(v)` (and so the text an f-string interpolates). */
  function PyStr(v: Json): string {
    if v.JArr? || v.JObj? then Repr(v) else ScalarStr(v)
  }
}

=== FILE: jsonb.dfy ===
/** What a PostgreSQL `jsonb` column gives back for a stored object. Such a
    column keeps each key once and orders the keys shorter first, by the
    length of their UTF-8 encoding, and keys of one length by their bytes
    (PostgreSQL's `lengthCompareJsonbString`). The job's `meta`, a row's
    `raw_data` and a template's `mapping` are such columns, so a dictionary
    read back from them iterates in this order, not in the order it was
    written. */
module Jsonb {
  import opened Wrappers
  import opened Dict

  /** Bytes of a character in UTF-8. */
  function Utf8Width(c: char): (n: nat)
    ensures 1 <= n <= 4
  {
    if c as int < 0x80 then 1
    else if c as int < 0x800 then 2
    else if c as int < 0x10000 then 3
    else 4
  }

  /** Length of a string's UTF-8 encoding. */
  function ByteLength(s: string): (n: nat)
    ensures |s| <= n <= 4 * |s|
  {
    if |s| == 0 then 0 else Utf8Width(s[0]) + ByteLength(s[1..])
  }

  /** Lexicographic order of code points. UTF-8 keeps this order, so it is
      also the order of the encodings' bytes. */
  predicate CodeLess(a: string, b: string) {
    if |a| == 0 then |b| > 0
    else if |b| == 0 then false
    else a[0] < b[0] || (a[0] == b[0] && CodeLess(a[1..], b[1..]))
  }

  /** `jsonb`'s key order. */
  predicate KeyLess(a: string, b: string) {
    || ByteLength(a) < ByteLength(b)
    || (ByteLength(a) == ByteLength(b) && CodeLess(a, b))
  }

  lemma {:induction false} CodeLessIrreflexive(a: string)
    ensures !CodeLess(a, a)
  {
    if |a| > 0 {
      CodeLessIrreflexive(a[1..]);
    }
  }

  lemma {:induction false} CodeLessTransitive(a: string, b: string, c: string)
    requires CodeLess(a, b) && CodeLess(b, c)
    ensures CodeLess(a, c)
  {
    if |a| > 0 && a[0] == b[0] && b[0] == c[0] {
      CodeLessTransitive(a[1..], b[1..], c[1..]);
    }
  }

  lemma {:induction false} CodeLessTotal(a: string, b: string)
    requires a != b
    ensures CodeLess(a, b) || CodeLess(b, a)
  {
    if |a| > 0 && |b| > 0 && a[0] == b[0] {
      assert a == [a[0]] + a[1..] && b == [b[0]] + b[1..];
      CodeLessTotal(a[1..], b[1..]);
    }
  }

  /** `KeyLess` is a strict total order on keys. */
  lemma KeyLessOrder()
    ensures forall a :: !KeyLess(a, a)
    ensures forall a, b, c :: KeyLess(a, b) && KeyLess(b, c) ==> KeyLess(a, c)
    ensures forall a, b :: a != b ==> KeyLess(a, b) || KeyLess(b, a)
  {
    forall a ensures !KeyLess(a, a) {
      CodeLessIrreflexive(a);
    }
    forall a, b, c | KeyLess(a, b) && KeyLess(b, c) ensures KeyLess(a, c) {
      KeyLessTransitive(a, b, c);
    }
    forall a, b | a != b ensures KeyLess(a, b) || KeyLess(b, a) {
      CodeLessTotal(a, b);
    }
  }

  lemma KeyLessTransitive(a: string, b: string, c: string)
    requires KeyLess(a, b) && KeyLess(b, c)
    ensures KeyLess(a, c)
  {
    if ByteLength(a) == ByteLength(b) == ByteLength(c) {
      CodeLessTransitive(a, b, c);
    }
  }

  lemma KeyLessAsymmetric(a: string, b: string)
    requires KeyLess(a, b)
    ensures !KeyLess(b, a)
  {
    if KeyLess(b, a) {
      KeyLessTransitive(a, b, a);
      CodeLessIrreflexive(a);
    }
  }

  /** Keys strictly increasing in `jsonb`'s order. */
  predicate Ordered<V>(d: Dict<V>) {
    forall i, j :: 0 <= i < j < |d| ==> KeyLess(d[i].0, d[j].0)
  }

  /** Put an entry into an ordered dictionary at its place, replacing the
      entry with the same key. */
  function Insert<V>(e: (string, V), d: Dict<V>): (r: Dict<V>)
    ensures |r| <= |d| + 1
  {
    if |d| == 0 then [e]
    else if e.0 == d[0].0 then [e] + d[1..]
    else if KeyLess(e.0, d[0].0) then [e] + d
    else [d[0]] + Insert(e, d[1..])
  }

  /** The dictionary as a `jsonb` column gives it back: ordered, and of a key
      given twice (which a Python dictionary never holds) the entry a lookup
      finds. */
  function Reorder<V>(d: Dict<V>): (r: Dict<V>)
    ensures |r| <= |d|
  {
    if |d| == 0 then [] else Insert(d[0], Reorder(d[1..]))
  }

  /** An ordered dictionary has no key twice. */
  lemma OrderedUnique<V>(d: Dict<V>)
    requires Ordered(d)
    ensures Unique(d)
  {
    forall i, j | 0 <= i < j < |d| ensures d[i].0 != d[j].0 {
      CodeLessIrreflexive(d[i].0);
    }
  }

  /** Every entry after the first of an ordered dictionary has a greater
      key. */
  lemma OrderedHead<V>(d: Dict<V>)
    requires Ordered(d) && |d| > 0
    ensures Ordered(d[1..])
    ensures forall x :: x in d[1..] ==> KeyLess(d[0].0, x.0)
    ensures forall x :: x in d <==> x == d[0] || x in d[1..]
  {
    forall x | x in d[1..] ensures KeyLess(d[0].0, x.0) {
      var j :| 0 <= j < |d[1..]| && d[1..][j] == x;
      assert d[j + 1] == x;
    }
    assert d == [d[0]] + d[1..];
  }

  /** Inserting keeps the order, and the entries are the new one and the old
      ones under other keys. */
  lemma {:induction false} InsertOrdered<V>(e: (string, V), d: Dict<V>)
    requires Ordered(d)
    ensures Ordered(Insert(e, d))
    ensures forall x :: x in Insert(e, d) <==> x == e || (x in d && x.0 != e.0)
  {
    if |d| == 0 {
    } else if e.0 == d[0].0 {
      InsertReplaces(e, d);
    } else if KeyLess(e.0, d[0].0) {
      InsertFront(e, d);
    } else {
      OrderedHead(d);
      CodeLessTotal(e.0, d[0].0);
      InsertOrdered(e, d[1..]);
      InsertBehind(e, d, Insert(e, d[1..]));
    }
  }

  /** An entry whose key is the first key replaces the first entry. */
  lemma InsertReplaces<V>(e: (string, V), d: Dict<V>)
    requires Ordered(d) && |d| > 0 && e.0 == d[0].0
    ensures Ordered(Insert(e, d))
    ensures forall x :: x in Insert(e, d) <==> x == e || (x in d && x.0 != e.0)
  {
    OrderedHead(d);
    forall x | x in d[1..] ensures x.0 != e.0 {
      CodeLessIrreflexive(x.0);
    }
    var r := Insert(e, d);
    assert r == [e] + d[1..];
    forall i, j | 0 <= i < j < |r| ensures KeyLess(r[i].0, r[j].0) {
      assert r[j] == d[j];
      if i > 0 {
        assert r[i] == d[i];
      }
    }
  }

  /** An entry whose key comes before the first key goes in front. */
  lemma InsertFront<V>(e: (string, V), d: Dict<V>)
    requires Ordered(d) && |d| > 0 && e.0 != d[0].0 && KeyLess(e.0, d[0].0)
    ensures Ordered(Insert(e, d))
    ensures forall x :: x in Insert(e, d) <==> x == e || (x in d && x.0 != e.0)
  {
    OrderedHead(d);
    forall x | x in d ensures KeyLess(e.0, x.0) && x.0 != e.0 {
      if x != d[0] {
        KeyLessTransitive(e.0, d[0].0, x.0);
      }
      CodeLessIrreflexive(x.0);
    }
    var r := Insert(e, d);
    assert r == [e] + d;
    forall i, j | 0 <= i < j < |r| ensures KeyLess(r[i].0, r[j].0) {
      assert r[j] == d[j - 1];
      assert d[j - 1] in d;
      if i > 0 {
        assert r[i] == d[i - 1];
      }
    }
  }

  /** An entry whose key comes after the first key goes behind it; `rest`
      is the insertion into the remaining entries. */
  lemma InsertBehind<V>(e: (string, V), d: Dict<V>, rest: Dict<V>)
    requires Ordered(d) && |d| > 0 && KeyLess(d[0].0, e.0)
    requires rest == Insert(e, d[1..]) && Ordered(rest)
    requires forall x :: x in rest <==> x == e || (x in d[1..] && x.0 != e.0)
    ensures Ordered(Insert(e, d))
    ensures forall x :: x in Insert(e, d) <==> x == e || (x in d && x.0 != e.0)
  {
    OrderedHead(d);
    CodeLessIrreflexive(d[0].0);
    KeyLessAsymmetric(d[0].0, e.0);
    assert Insert(e, d) == [d[0]] + rest;
    forall x | x in rest ensures KeyLess(d[0].0, x.0) {
      if x != e {
        assert x in d[1..];
      }
    }
    HeadBelow(d[0], rest);
  }

  /** An entry below every entry of an ordered dictionary can go in front. */
  lemma HeadBelow<V>(h: (string, V), d: Dict<V>)
    requires Ordered(d)
    requires forall x :: x in d ==> KeyLess(h.0, x.0)
    ensures Ordered([h] + d)
  {
    var r := [h] + d;
    forall i, j | 0 <= i < j < |r| ensures KeyLess(r[i].0, r[j].0) {
      assert r[j] == d[j - 1];
      if i == 0 {
        assert d[j - 1] in d;
      } else {
        assert r[i] == d[i - 1];
      }
    }
  }

  /** The reordered dictionary is ordered, and its entries are those a
      lookup finds in the original. */
  lemma {:induction false} ReorderEntries<V>(d: Dict<V>)
    ensures Ordered(Reorder(d))
    ensures forall x :: x in Reorder(d) <==> Get(d, x.0) == Some(x.1)
  {
    if |d| > 0 {
      ReorderEntries(d[1..]);
      InsertOrdered(d[0], Reorder(d[1..]));
      forall x ensures x in Reorder(d) <==> Get(d, x.0) == Some(x.1) {
        GetPrepend(d[0].0, d[0].1, d[1..], x.0);
        assert d == [d[0]] + d[1..];
      }
    } else {
      forall x ensures x !in Reorder(d) && Get(d, x.0).None? { }
    }
  }

  /** Lookups are unchanged. */
  lemma ReorderGet<V>(d: Dict<V>)
    ensures forall k :: Get(Reorder(d), k) == Get(d, k)
  {
    ReorderEntries(d);
    var r := Reorder(d);
    OrderedUnique(r);
    forall k ensures Get(r, k) == Get(d, k) {
      if Get(r, k).Some? {
        var i :| 0 <= i < |r| && r[i] == (k, Get(r, k).value);
        assert r[i] in r;
      }
    }
  }

  /** Of a dictionary without repeated keys, exactly its entries are kept. */
  lemma ReorderSameEntries<V>(d: Dict<V>)
    requires Unique(d)
    ensures Ordered(Reorder(d)) && Unique(Reorder(d))
    ensures forall x :: x in Reorder(d) <==> x in d
  {
    ReorderEntries(d);
    OrderedUnique(Reorder(d));
    forall x ensures x in Reorder(d) <==> x in d {
      if x in d {
        var i :| 0 <= i < |d| && d[i] == x;
        GetAt(d, i);
      }
    }
  }

  /** Two ordered dictionaries with the same entries are the same, so the
      order alone fixes where each entry goes. */
  lemma {:induction false} OrderedDetermined<V>(d: Dict<V>, e: Dict<V>)
    requires Ordered(d) && Ordered(e)
    requires forall x :: x in d <==> x in e
    ensures d == e
  {
    if |d| > 0 {
      assert d[0] in d && d[0] in e;
    }
    if |e| > 0 {
      assert e[0] in e && e[0] in d;
    }
    if |d| > 0 && |e| > 0 {
      OrderedHead(d);
      OrderedHead(e);
      if d[0] != e[0] {
        assert KeyLess(e[0].0, d[0].0) && KeyLess(d[0].0, e[0].0);
        KeyLessTransitive(d[0].0, e[0].0, d[0].0);
        CodeLessIrreflexive(d[0].0);
        assert false;
      }
      forall x ensures x in d[1..] <==> x in e[1..] {
        if x in d[1..] || x in e[1..] {
          CodeLessIrreflexive(x.0);
        }
      }
      OrderedDetermined(d[1..], e[1..]);
      assert d == [d[0]] + d[1..] && e == [e[0]] + e[1..];
    }
  }

  /** Exactly the ordered arrangement of its entries: for a dictionary
      without repeated keys, a dictionary is its reordering if and only if it
      is ordered and holds the same entries. */
  lemma ReorderCharacterised<V>(d: Dict<V>, r: Dict<V>)
    requires Unique(d)
    ensures r == Reorder(d) <==> Ordered(r) && forall x :: x in r <==> x in d
  {
    ReorderSameEntries(d);
    if Ordered(r) && forall x :: x in r <==> x in d {
      OrderedDetermined(r, Reorder(d));
    }
  }

  /** Two entries come back shorter key first: the one written second moves
      in front when its key comes first. */
  lemma ReorderTwo<V>(a: (string, V), b: (string, V))
    requires KeyLess(b.0, a.0)
    ensures Reorder([a, b]) == [b, a]
  {
    KeyLessAsymmetric(b.0, a.0);
    CodeLessIrreflexive(a.0);
    assert [a, b][1..] == [b];
    assert [b][1..] == [];
    assert Reorder([b]) == Insert(b, []) == [b];
    assert Insert(a, [b]) == [b] + Insert(a, []);
  }

  /** A single entry comes back as it is. */
  lemma ReorderOne<V>(e: (string, V))
    ensures Reorder([e]) == [e]
  {
    assert [e][1..] == [];
  }
}

=== FILE: lifecycle.dfy ===
/** A job's life across the endpoints and the worker: uploaded, started with
    a mapping, run, and then listed and reported. The worker reads the rows
    back from the text the upload stored; reading the same text gives the
    same rows, so the upload's `records` are the worker's `records`. */
module Lifecycle {
  import opened Wrappers
  import opened Dict
  import opened Json
  import opened Store
  import opened Imports
  import opened Worker
  import opened Reporting
  import opened Normalize
  import opened Jsonb

  /** The job an upload created. */
  function Uploaded(user: int, objectType: string, filename: Option<string>, text: string,
                    headers: Option<seq<string>>, records: seq<Dict<string>>, newId: int): Job
    requires Upload(user, objectType, filename, text, headers, records, newId).Ok?
  {
    Upload(user, objectType, filename, text, headers, records, newId).value.0
  }

  /** A non-empty mapping stored in `meta` is the one the worker uses,
      whatever template the job names, in `jsonb`'s key order. */
  lemma StoredMappingUsed(meta: Dict<Json>, mapping: Dict<string>, template: Option<Template>)
    requires Get(meta, "mapping") == Some(MappingJson(mapping)) && |mapping| > 0
    ensures MappingFor(meta, template) == Reorder(mapping)
  {
    MappingRoundTrip(mapping);
  }

  /** The upload counts the header line in `row_count`; parsing the same
      text in the worker, once the job is started, overwrites it with the
      number of data rows. */
  lemma RowCountRecounted(user: int, objectType: string, filename: Option<string>, text: string,
                          headers: Option<seq<string>>, records: seq<Dict<string>>, newId: int, mapping: Dict<string>)
    requires Upload(user, objectType, filename, text, headers, records, newId).Ok?
    ensures var job := Uploaded(user, objectType, filename, text, headers, records, newId);
            && Get(job.meta, "row_count") == Some(JInt(|records| + 1))
            && Get(Parse(Queue(job, mapping), records).meta, "row_count") == Some(JInt(|records|))
  {
  }

  /** The worker uses the mapping of the start request: it is never empty
      (it maps a display name), so no template replaces it. It comes back
      from the `jsonb` column with the same lookups, keys in that column's
      order: the columns are visited shortest name first, whatever order the
      request gave them in. */
  lemma StartedMappingUsed(user: int, objectType: string, filename: Option<string>, text: string,
                           headers: Option<seq<string>>, records: seq<Dict<string>>, newId: int,
                           mapping: Dict<string>, template: Option<Template>)
    requires Upload(user, objectType, filename, text, headers, records, newId).Ok?
    requires MapsDisplayName(mapping)
    ensures var job := Uploaded(user, objectType, filename, text, headers, records, newId);
            && Start([job], newId, user, objectType, mapping).Ok?
            && MappingFor(Parse(Start([job], newId, user, objectType, mapping).value.job, records).meta, template) == Reorder(mapping)
            && forall k :: Get(MappingFor(Parse(Start([job], newId, user, objectType, mapping).value.job, records).meta, template), k) == Get(mapping, k)
  {
    var job := Uploaded(user, objectType, filename, text, headers, records, newId);
    StartUploaded(job, user, objectType, mapping);
    var parsed := Parse(Queue(job, mapping), records);
    assert Get(parsed.meta, "mapping") == Some(MappingJson(mapping));
    StoredMappingUsed(parsed.meta, mapping, template);
    ReorderGet(mapping);
  }

  /** Two columns sent to one path in the start request: the worker visits
      the column with the shorter name first, so the longer name's cell is
      the one that lands last, whichever order the request gave. */
  lemma StartedMappingOrder(user: int, objectType: string, filename: Option<string>, text: string,
                            headers: Option<seq<string>>, records: seq<Dict<string>>, newId: int,
                            long: string, short: string, template: Option<Template>)
    requires Upload(user, objectType, filename, text, headers, records, newId).Ok?
    requires KeyLess(short, long)
    ensures var job := Uploaded(user, objectType, filename, text, headers, records, newId);
            var mapping := [(long, "DisplayName"), (short, "DisplayName")];
            && Start([job], newId, user, objectType, mapping).Ok?
            && MappingFor(Parse(Start([job], newId, user, objectType, mapping).value.job, records).meta, template)
               == [(short, "DisplayName"), (long, "DisplayName")]
  {
    var mapping := [(long, "DisplayName"), (short, "DisplayName")];
    assert MapsDisplayName(mapping) by {
      assert mapping[0].1 == "DisplayName";
    }
    StartedMappingUsed(user, objectType, filename, text, headers, records, newId, mapping, template);
    ReorderTwo((long, "DisplayName"), (short, "DisplayName"));
  }

  /** As written, the listing looks the file name up under a key no step
      ever writes, so an uploaded job is listed as "unknown.csv" before and
      after it is started, and while the worker parses it, whatever the
      file was called. */
  lemma UploadedFilenameLost(user: int, objectType: string, filename: Option<string>, text: string,
                             headers: Option<seq<string>>, records: seq<Dict<string>>, newId: int, mapping: Dict<string>)
    requires Upload(user, objectType, filename, text, headers, records, newId).Ok?
    ensures var job := Uploaded(user, objectType, filename, text, headers, records, newId);
            && Get(job.meta, UploadedKey) == Some(TextOrNull(filename))
            && SummaryOf(job, ListedKey).filename == JStr(UnknownFile)
            && SummaryOf(Queue(job, mapping), ListedKey).filename == JStr(UnknownFile)
            && SummaryOf(Parse(Queue(job, mapping), records), ListedKey).filename == JStr(UnknownFile)
  {
    var job := Uploaded(user, objectType, filename, text, headers, records, newId);
    ListedKeyNotUploaded(job.meta);
    var queued := Queue(job, mapping);
    assert Get(queued.meta, ListedKey).None?;
    assert Get(Parse(queued, records).meta, ListedKey).None?;
  }

  /** The upload writes no entry under the key the listing reads. */
  lemma ListedKeyNotUploaded(meta: Dict<Json>)
    requires Keys(meta) == UploadKeys
    ensures Get(meta, ListedKey).None?
  {
    assert ListedKey !in UploadKeys;
  }

  /** Looked up under the key the upload writes, the listing shows the
      uploaded file's name (null when the upload had none) at every one of
      those steps. */
  lemma UploadedFilenameShown(user: int, objectType: string, filename: Option<string>, text: string,
                              headers: Option<seq<string>>, records: seq<Dict<string>>, newId: int, mapping: Dict<string>)
    requires Upload(user, objectType, filename, text, headers, records, newId).Ok?
    ensures var job := Uploaded(user, objectType, filename, text, headers, records, newId);
            && SummaryOf(job, UploadedKey).filename == TextOrNull(filename)
            && SummaryOf(Queue(job, mapping), UploadedKey).filename == TextOrNull(filename)
            && SummaryOf(Parse(Queue(job, mapping), records), UploadedKey).filename == TextOrNull(filename)
  {
  }

  /** After a run that reached its final phase no row is pending or merely
      valid: every row is counted as created or failed. */
  lemma FinishedProgress(job: Job, records: seq<Dict<string>>, template: Option<Template>,
                         check: (Dict<string>, JobRow) -> Result<JobRow, Abort>,
                         answer: (int, Option<Dict<Json>>) -> Response)
    requires forall m, row :: check(m, row).Ok? ==> Checked(row, check(m, row).value)
    requires RunWith(job, records, SupportedType, template, check, None, answer).Finished?
    ensures var j := RunWith(job, records, SupportedType, template, check, None, answer).job;
            var p := ProgressOf(j.rows);
            && p.valid == 0
            && p.error + p.success == p.total
            && p.total == |job.rows| + |records|
  {
    var j := RunWith(job, records, SupportedType, template, check, None, answer).job;
    RunFinished(job, records, template, check, answer);
    SettledProgress(j.rows);
  }

  /** Rows that are all created or failed count as neither pending nor
      valid. */
  lemma SettledProgress(rows: seq<JobRow>)
    requires forall i :: 0 <= i < |rows| ==> rows[i].status == Success || rows[i].status == Error
    ensures ProgressOf(rows).valid == 0
    ensures ProgressOf(rows).error + ProgressOf(rows).success == |rows|
  {
    CountPositive(rows, Pending);
  }
}

=== FILE: normalize.dfy ===
/** `normalize_to_canonical`: one raw CSV row and the column-to-field-path
    mapping become the keyword arguments of `CustomerCanonical`. */
module Normalize {
  import opened Wrappers
  import opened Text
  import opened Dict
  import opened Json
  import opened Customer

  /** Paths stored as plain text under their own name. */
  const TextPaths: seq<string> := [
    "DisplayName", "CompanyName", "Title", "GivenName", "MiddleName", "FamilyName", "Suffix", "Notes"
  ]

  /** Paths parsed as flags. */
  const FlagPaths: seq<string> := ["Taxable", "Active", "Job", "BillWithParent"]

  /** The cell values (lower-cased) that mean true. */
  const TrueWords: seq<string> := ["true", "1", "yes", "y", "on"]

  const EmailPath := "PrimaryEmailAddr.Address"
  const WebPath := "WebAddr.URI"

  /** The four phone paths and the group name before their dot. */
  const PhonePaths: seq<(string, string)> := [
    ("PrimaryPhone.FreeFormNumber", "PrimaryPhone"), ("Mobile.FreeFormNumber", "Mobile"),
    ("Fax.FreeFormNumber", "Fax"), ("AlternatePhone.FreeFormNumber", "AlternatePhone")
  ]

  /** Why normalising a row raised: a sub-model constructor refused the
      value, or an address sub-field was assigned into a value that is not a
      dict (Python's "'str' object does not support item assignment"). */
  datatype Abort =
    | SubModelError(issue: Issue)
    | NotADict(key: string)

  /** A flag cell is true exactly when, lower-cased, it is one of the five
      words. */
  function ParseFlag(raw: string): (b: bool)
    ensures b <==> exists i :: 0 <= i < |TrueWords| && Lower(raw) == TrueWords[i]
  {
    Lower(raw) in TrueWords
  }

  /** Upper-case and mixed-case spellings count; abbreviations other than
      "y" do not. */
  lemma ParseFlagExamples(yes: string, t: string)
    requires yes == "YeS" && t == "t"
    ensures ParseFlag(yes) && !ParseFlag(t)
  {
    assert Lower(yes) == "yes";
    assert Lower(t) == "t";
  }

  /** The group name of a phone path. */
  function PhoneGroup(path: string): (g: Option<string>)
    ensures g.Some? <==> exists i :: 0 <= i < |PhonePaths| && PhonePaths[i].0 == path
  {
    if path == PhonePaths[0].0 then Some(PhonePaths[0].1)
    else if path == PhonePaths[1].0 then Some(PhonePaths[1].1)
    else if path == PhonePaths[2].0 then Some(PhonePaths[2].1)
    else if path == PhonePaths[3].0 then Some(PhonePaths[3].1)
    else None
  }

  predicate IsAddressPath(path: string) {
    StartsWith(path, "BillAddr.") || StartsWith(path, "ShipAddr.")
  }

  /** An address path starts with 'B' or 'S' and has its dot at position 8. */
  lemma AddressPathShape(p: string)
    ensures IsAddressPath(p) ==> |p| > 8 && p[8] == '.' && (p[0] == 'B' || p[0] == 'S')
  {
    if StartsWith(p, "BillAddr.") {
      assert p[8] == p[..9][8];
    } else if StartsWith(p, "ShipAddr.") {
      assert p[8] == p[..9][8];
    }
  }

  /** Text and flag paths pass none of the later tests of the loop. */
  lemma ScalarRouteFacts()
    ensures forall p :: p in TextPaths ==> p !in FlagPaths
    ensures forall p :: p in TextPaths || p in FlagPaths ==>
              p != EmailPath && p != WebPath && PhoneGroup(p).None? && !IsAddressPath(p)
  {
    forall p | p in TextPaths || p in FlagPaths
      ensures !IsAddressPath(p)
    {
      assert '.' !in p;
      AddressPathShape(p);
    }
  }

  /** The e-mail, web and phone paths are not address paths, and neither
      e-mail nor web path is a phone path. */
  lemma NestedRouteFacts()
    ensures PhoneGroup(EmailPath).None? && PhoneGroup(WebPath).None?
    ensures !IsAddressPath(EmailPath) && !IsAddressPath(WebPath)
    ensures forall p :: PhoneGroup(p).Some? ==> !IsAddressPath(p)
  {
    forall p | PhoneGroup(p).Some?
      ensures !IsAddressPath(p)
    {
      AddressPathShape(p);
    }
    AddressPathShape(EmailPath);
    AddressPathShape(WebPath);
  }

  /** Where the loop sends a path, by the first test in the loop it passes. */
  datatype Route =
    | TextRoute
    | FlagRoute
    | EmailRoute
    | WebRoute
    | PhoneRoute(group: string)
    | AddressRoute(group: string, field: string)
    | Fallback

  function RouteOf(path: string): (r: Route)
    ensures path in TextPaths <==> r == TextRoute
    ensures path in FlagPaths <==> r == FlagRoute
    ensures path == EmailPath <==> r == EmailRoute
    ensures path == WebPath <==> r == WebRoute
    ensures PhoneGroup(path).Some? <==> r.PhoneRoute?
    ensures r.PhoneRoute? ==> r.group == PhoneGroup(path).value
    ensures IsAddressPath(path) <==> r.AddressRoute?
    ensures r.AddressRoute? ==> r.group == path[..8] && r.field == path[9..]
  {
    ScalarRouteFacts();
    NestedRouteFacts();
    if path in TextPaths then TextRoute
    else if path in FlagPaths then FlagRoute
    else if path == EmailPath then EmailRoute
    else if path == WebPath then WebRoute
    else if PhoneGroup(path).Some? then PhoneRoute(PhoneGroup(path).value)
    else if IsAddressPath(path) then AddressRoute(path[..8], path[9..])
    else Fallback
  }

  /** The key of `data` a (non-blank) cell mapped to `path` is stored under. */
  function Target(path: string): string {
    match RouteOf(path)
    case EmailRoute => "PrimaryEmailAddr"
    case WebRoute => "WebAddr"
    case PhoneRoute(g) => g
    case AddressRoute(g, _) => g
    case _ => path
  }

  /** The step of the loop for one mapping entry whose trimmed cell `raw`
      is not blank: text and unknown paths store the value under the path
      itself, flag paths store the parsed flag, the e-mail, web and phone
      paths store the sub-model built from the value under the group name (or
      raise), and address paths add the sub-field to the group's dict (or
      raise when the group holds something else). */
  function Step(data: Dict<Value>, path: string, raw: string, syntax: EmailSyntax): (r: Result<Dict<Value>, Abort>)
    ensures r.Ok? ==> forall k :: k != Target(path) ==> Get(r.value, k) == Get(data, k)
    ensures Unique(data) && r.Ok? ==> Unique(r.value)
    ensures RouteOf(path) == TextRoute || RouteOf(path) == Fallback ==> r.Ok? && Get(r.value, path) == Some(Text(raw))
    ensures RouteOf(path) == FlagRoute ==> r.Ok? && Get(r.value, path) == Some(Flag(ParseFlag(raw)))
    ensures IsSubModelPath(path) ==> (r.Ok? <==> SubModel(path, raw, syntax).Ok?)
    ensures IsSubModelPath(path) && r.Ok? ==> Get(r.value, Target(path)) == Some(SubModel(path, raw, syntax).value)
    ensures IsSubModelPath(path) && r.Err? ==> r.error == SubModelError(SubModel(path, raw, syntax).error)
    ensures RouteOf(path).AddressRoute? ==>
              var g := RouteOf(path).group;
              (r.Err? <==> Get(data, g).Some? && !Get(data, g).value.PartsVal?)
              && (r.Ok? ==> Get(r.value, g) == Some(PartsVal(Put(PartsOf(Get(data, g)), RouteOf(path).field, raw))))
  {
    match RouteOf(path)
    case TextRoute => Ok(Put(data, path, Text(raw)))
    case FlagRoute => Ok(Put(data, path, Flag(ParseFlag(raw))))
    case EmailRoute =>
      (match NewEmail(raw, syntax)
       case Ok(e) => Ok(Put(data, "PrimaryEmailAddr", EmailVal(e)))
       case Err(i) => Err(SubModelError(i)))
    case WebRoute =>
      (match NewWebAddr(JStr(raw))
       case Ok(w) => Ok(Put(data, "WebAddr", WebVal(w)))
       case Err(i) => Err(SubModelError(i)))
    case PhoneRoute(group) =>
      (match NewPhone(JStr(raw))
       case Ok(p) => Ok(Put(data, group, PhoneVal(p)))
       case Err(i) => Err(SubModelError(i)))
    case AddressRoute(group, field) =>
      var prior := Get(data, group);
      if prior.None? || prior.value.PartsVal? then Ok(Put(data, group, PartsVal(Put(PartsOf(prior), field, raw))))
      else Err(NotADict(group))
    case Fallback => Ok(Put(data, path, Text(raw)))
  }

  /** The parts already gathered for an address group (`{}` when none). */
  function PartsOf(v: Option<Value>): Dict<string> {
    if v.Some? && v.value.PartsVal? then v.value.parts else []
  }

  /** The trimmed cell of `header`; a missing column reads as "". */
  function Cell(row: Dict<string>, header: string): string {
    Strip(Get(row, header).GetOr(""))
  }

  /** The mapping loop over entries in order, skipping blank cells. */
  function Collect(mapping: Dict<string>, row: Dict<string>, syntax: EmailSyntax, data: Dict<Value>): (r: Result<Dict<Value>, Abort>)
    ensures Unique(data) && r.Ok? ==> Unique(r.value)
    decreases |mapping|
  {
    if |mapping| == 0 then Ok(data)
    else
      var raw := Cell(row, mapping[0].0);
      if raw == "" then Collect(mapping[1..], row, syntax, data)
      else
        match Step(data, mapping[0].1, raw, syntax)
        case Err(e) => Err(e)
        case Ok(d) => Collect(mapping[1..], row, syntax, d)
  }

  /** The final loop body for one address key: a dict of parts becomes an
      `Address` when it validates and is left as it is otherwise. */
  function ConvertAddress(data: Dict<Value>, key: string): (r: Dict<Value>)
    ensures forall k :: k != key ==> Get(r, k) == Get(data, k)
    ensures Unique(data) ==> Unique(r)
    ensures Get(data, key).Some? && Get(data, key).value.PartsVal? && NewAddress(Get(data, key).value.parts).Ok? ==>
              Get(r, key) == Some(AddrVal(NewAddress(Get(data, key).value.parts).value))
    ensures !(Get(data, key).Some? && Get(data, key).value.PartsVal? && NewAddress(Get(data, key).value.parts).Ok?) ==>
              r == data
  {
    var v := Get(data, key);
    if v.Some? && v.value.PartsVal? && NewAddress(v.value.parts).Ok? then
      Put(data, key, AddrVal(NewAddress(v.value.parts).value))
    else data
  }

  /** `normalize_to_canonical(mapping, row)`. */
  function Normalize(mapping: Dict<string>, row: Dict<string>, syntax: EmailSyntax): (r: Result<Dict<Value>, Abort>)
    ensures r.Ok? ==> Unique(r.value)
  {
    match Collect(mapping, row, syntax, [])
    case Err(e) => Err(e)
    case Ok(data) => Ok(ConvertAddress(ConvertAddress(data, "BillAddr"), "ShipAddr"))
  }

  // ------------------------------------------------------------ properties

  /** Running the loop over two parts of a mapping is running it over the
      first and then, from where it stopped, over the second. */
  lemma {:induction false} CollectAppend(a: Dict<string>, b: Dict<string>, row: Dict<string>, syntax: EmailSyntax, data: Dict<Value>)
    ensures Collect(a + b, row, syntax, data) ==
              match Collect(a, row, syntax, data)
              case Err(e) => Err(e)
              case Ok(d) => Collect(b, row, syntax, d)
    decreases |a|
  {
    if |a| > 0 {
      assert (a + b)[0] == a[0];
      assert (a + b)[1..] == a[1..] + b;
      var raw := Cell(row, a[0].0);
      if raw == "" {
        CollectAppend(a[1..], b, row, syntax, data);
      } else {
        match Step(data, a[0].1, raw, syntax)
        case Err(e) =>
        case Ok(d) => CollectAppend(a[1..], b, row, syntax, d);
      }
    } else {
      assert a + b == b;
    }
  }

  /** A mapping entry whose column is missing or blank in the row
      contributes nothing: removing it changes neither the result nor the
      failure. */
  lemma NormalizeSkipsBlank(mapping: Dict<string>, row: Dict<string>, syntax: EmailSyntax, i: nat)
    requires i < |mapping| && IsBlank(Get(row, mapping[i].0).GetOr(""))
    ensures Normalize(mapping, row, syntax) == Normalize(mapping[..i] + mapping[i + 1..], row, syntax)
  {
    assert mapping == mapping[..i] + ([mapping[i]] + mapping[i + 1..]);
    CollectAppend(mapping[..i], [mapping[i]] + mapping[i + 1..], row, syntax, []);
    CollectAppend(mapping[..i], mapping[i + 1..], row, syntax, []);
    match Collect(mapping[..i], row, syntax, [])
    case Err(e) =>
    case Ok(d) =>
      assert Cell(row, mapping[i].0) == "";
      assert ([mapping[i]] + mapping[i + 1..])[1..] == mapping[i + 1..];
  }

  /** The reference reading of a scalar path: the trimmed cell of the last
      entry mapped to it whose cell is not blank. */
  function LastCell(mapping: Dict<string>, row: Dict<string>, path: string): Option<string>
    decreases |mapping|
  {
    if |mapping| == 0 then None
    else
      var e := mapping[|mapping| - 1];
      if e.1 == path && Cell(row, e.0) != "" then Some(Cell(row, e.0))
      else LastCell(mapping[..|mapping| - 1], row, path)
  }

  /** A path the loop routes into a sub-model or an address is stored under
      the name of a nested field of the record; every other path under
      itself. */
  lemma TargetFacts(path: string)
    ensures RouteOf(path) in {TextRoute, FlagRoute, Fallback} ==> Target(path) == path
    ensures RouteOf(path) !in {TextRoute, FlagRoute, Fallback} ==> Target(path) in NestedNames
  {
    if RouteOf(path).AddressRoute? {
      assert path[8] == '.';
      if StartsWith(path, "BillAddr.") {
        assert path[..8] == "BillAddr.."[..8] == "BillAddr";
      } else {
        assert path[..8] == "ShipAddr.."[..8] == "ShipAddr";
      }
    }
  }

  /** No text or flag path is the name of a nested field. */
  lemma ScalarNotNested(f: string)
    requires f in TextPaths || f in FlagPaths
    ensures f !in NestedNames
  {
  }

  /** Only entries mapped to a text or flag path store anything under it. */
  lemma TargetOfScalar(path: string, f: string)
    requires f in TextPaths || f in FlagPaths
    ensures Target(path) == f <==> path == f
  {
    TargetFacts(path);
    ScalarNotNested(f);
    if path == f {
      assert RouteOf(path) in {TextRoute, FlagRoute};
    }
  }

  /** Running the loop over a mapping with one more entry at the end is one
      more step from where the shorter mapping stopped. */
  lemma CollectSnoc(init: Dict<string>, e: (string, string), row: Dict<string>, syntax: EmailSyntax, data: Dict<Value>)
    ensures Collect(init + [e], row, syntax, data) ==
              match Collect(init, row, syntax, data)
              case Err(x) => Err(x)
              case Ok(d) => if Cell(row, e.0) == "" then Ok(d) else Step(d, e.1, Cell(row, e.0), syntax)
  {
    CollectAppend(init, [e], row, syntax, data);
    match Collect(init, row, syntax, data)
    case Err(x) =>
    case Ok(d) =>
      var raw := Cell(row, e.0);
      if raw != "" {
        match Step(d, e.1, raw, syntax)
        case Err(x) =>
        case Ok(d') => assert Collect([e], row, syntax, d) == Collect([], row, syntax, d');
      }
  }

  /** One step of the loop, seen from a text or flag path `f`: only the
      path `f` itself stores there, its text or its parsed flag. */
  lemma StepScalar(d: Dict<Value>, path: string, raw: string, syntax: EmailSyntax, f: string)
    requires f in TextPaths || f in FlagPaths
    requires Step(d, path, raw, syntax).Ok?
    ensures Get(Step(d, path, raw, syntax).value, f) ==
            if path == f then Some(if f in FlagPaths then Flag(ParseFlag(raw)) else Text(raw)) else Get(d, f)
  {
    TargetOfScalar(path, f);
    if path == f {
      ScalarRouteFacts();
    }
  }

  /** What the loop stores under a text path is the last non-blank cell
      mapped to it, and under a flag path that cell's parsed flag. */
  lemma {:induction false} CollectScalar(mapping: Dict<string>, row: Dict<string>, syntax: EmailSyntax, f: string)
    requires f in TextPaths || f in FlagPaths
    requires Collect(mapping, row, syntax, []).Ok?
    ensures Get(Collect(mapping, row, syntax, []).value, f) ==
              match LastCell(mapping, row, f)
              case None => None
              case Some(v) => Some(if f in FlagPaths then Flag(ParseFlag(v)) else Text(v))
    decreases |mapping|
  {
    if |mapping| > 0 {
      var n := |mapping| - 1;
      var init := mapping[..n];
      var e := mapping[n];
      SplitLast(mapping);
      CollectSnoc(init, e, row, syntax, []);
      CollectScalar(init, row, syntax, f);
      var raw := Cell(row, e.0);
      assert LastCell(mapping, row, f) == if e.1 == f && raw != "" then Some(raw) else LastCell(init, row, f);
      if raw != "" {
        StepScalar(Collect(init, row, syntax, []).value, e.1, raw, syntax, f);
      }
    }
  }

  /** No text or flag path is the name of an address group. */
  lemma ScalarNotGroup(f: string)
    requires f in TextPaths || f in FlagPaths
    ensures f != "BillAddr" && f != "ShipAddr"
  {
  }

  /** The scalar fields of the normalised row: the last non-blank cell for
      each text path, its flag for each flag path, nothing when every cell
      mapped to the path is blank. */
  lemma NormalizeScalar(mapping: Dict<string>, row: Dict<string>, syntax: EmailSyntax, f: string)
    requires f in TextPaths || f in FlagPaths
    requires Normalize(mapping, row, syntax).Ok?
    ensures Get(Normalize(mapping, row, syntax).value, f) ==
              match LastCell(mapping, row, f)
              case None => None
              case Some(v) => Some(if f in FlagPaths then Flag(ParseFlag(v)) else Text(v))
  {
    CollectScalar(mapping, row, syntax, f);
    ScalarNotGroup(f);
    var data := Collect(mapping, row, syntax, []).value;
    var once := ConvertAddress(data, "BillAddr");
    assert Get(once, f) == Get(data, f);
    assert Get(ConvertAddress(once, "ShipAddr"), f) == Get(once, f);
  }

  /** An address path is its group name, a dot and the sub-field. */
  lemma AddressPathSplit(path: string)
    requires RouteOf(path).AddressRoute?
    ensures path == RouteOf(path).group + "." + RouteOf(path).field
    ensures |RouteOf(path).group| == 8
  {
    AddressPathShape(path);
    assert path == path[..8] + [path[8]] + path[9..];
  }

  /** No entry of the mapping sends its cell to the bare name `g`. */
  predicate NeverBare(mapping: Dict<string>, g: string) {
    forall i :: 0 <= i < |mapping| ==> mapping[i].1 != g
  }

  /** One step of the loop, seen from an address group `g`: only the path
      `g.field` changes the gathered sub-field `field`. */
  lemma StepAddressPart(d: Dict<Value>, path: string, raw: string, syntax: EmailSyntax, g: string, field: string)
    requires g == "BillAddr" || g == "ShipAddr"
    requires path != g && Step(d, path, raw, syntax).Ok?
    ensures Get(PartsOf(Get(Step(d, path, raw, syntax).value, g)), field) ==
            if path == g + "." + field then Some(raw) else Get(PartsOf(Get(d, g)), field)
  {
    if RouteOf(path).AddressRoute? && RouteOf(path).group == g {
      StepOwnGroup(d, path, raw, syntax, g, field);
    } else {
      StepOtherGroup(d, path, raw, syntax, g, field);
    }
  }

  /** `StepAddressPart` for a sub-field path of `g`. */
  lemma StepOwnGroup(d: Dict<Value>, path: string, raw: string, syntax: EmailSyntax, g: string, field: string)
    requires g == "BillAddr" || g == "ShipAddr"
    requires RouteOf(path).AddressRoute? && RouteOf(path).group == g
    requires Step(d, path, raw, syntax).Ok?
    ensures Get(PartsOf(Get(Step(d, path, raw, syntax).value, g)), field) ==
            if path == g + "." + field then Some(raw) else Get(PartsOf(Get(d, g)), field)
  {
    var r := Step(d, path, raw, syntax).value;
    var f := RouteOf(path).field;
    AddressPathSplit(path);
    assert path == g + "." + field <==> f == field by {
      if path == g + "." + field {
        assert field == path[9..];
      }
    }
    assert Get(r, g) == Some(PartsVal(Put(PartsOf(Get(d, g)), f, raw)));
  }

  /** `StepAddressPart` for any path that is not a sub-field path of `g`. */
  lemma StepOtherGroup(d: Dict<Value>, path: string, raw: string, syntax: EmailSyntax, g: string, field: string)
    requires g == "BillAddr" || g == "ShipAddr"
    requires !(RouteOf(path).AddressRoute? && RouteOf(path).group == g)
    requires path != g && Step(d, path, raw, syntax).Ok?
    ensures path != g + "." + field
    ensures Get(Step(d, path, raw, syntax).value, g) == Get(d, g)
  {
    var p := g + "." + field;
    assert StartsWith(p, g + ".") by {
      assert p[..9] == g + ".";
    }
    assert RouteOf(p).AddressRoute? && RouteOf(p).group == g by {
      assert p[..8] == g;
    }
    GroupTarget(path, g);
  }

  /** A path whose target is an address group `g` is the bare name `g` or a
      sub-field path of `g`. */
  lemma GroupTarget(path: string, g: string)
    requires g == "BillAddr" || g == "ShipAddr"
    requires path != g
    ensures Target(path) == g <==> RouteOf(path).AddressRoute? && RouteOf(path).group == g
    ensures RouteOf(path).AddressRoute? && RouteOf(path).group == g ==> StartsWith(path, g + ".")
  {
    match RouteOf(path)
    case AddressRoute(_, _) =>
      AddressPathSplit(path);
    case PhoneRoute(_) =>
    case _ =>
  }

  /** One step of the loop keeps a dict (or nothing) under an address group
      when the path is not the bare group name. */
  lemma StepKeepsParts(d: Dict<Value>, path: string, raw: string, syntax: EmailSyntax, g: string)
    requires g == "BillAddr" || g == "ShipAddr"
    requires path != g && Step(d, path, raw, syntax).Ok?
    requires Get(d, g).None? || Get(d, g).value.PartsVal?
    ensures Get(Step(d, path, raw, syntax).value, g).None? || Get(Step(d, path, raw, syntax).value, g).value.PartsVal?
  {
    var r := Step(d, path, raw, syntax).value;
    GroupTarget(path, g);
    if RouteOf(path).AddressRoute? && RouteOf(path).group == g {
      assert Get(r, g).value.PartsVal?;
    } else {
      assert Get(r, g) == Get(d, g);
    }
  }

  /** A non-empty sequence is its front followed by its last element. */
  lemma SplitLast<T>(s: seq<T>)
    requires |s| > 0
    ensures s == s[..|s| - 1] + [s[|s| - 1]]
  {
  }

  /** The address dict the loop gathers for a group holds, for every
      sub-field, the last non-blank cell mapped to that sub-field's path,
      as long as no entry maps to the bare group name. */
  lemma {:induction false} CollectAddressPart(mapping: Dict<string>, row: Dict<string>, syntax: EmailSyntax, g: string, field: string)
    requires g == "BillAddr" || g == "ShipAddr"
    requires NeverBare(mapping, g)
    requires Collect(mapping, row, syntax, []).Ok?
    ensures Get(PartsOf(Get(Collect(mapping, row, syntax, []).value, g)), field) ==
            LastCell(mapping, row, g + "." + field)
    decreases |mapping|
  {
    if |mapping| > 0 {
      var n := |mapping| - 1;
      var init := mapping[..n];
      var e := mapping[n];
      SplitLast(mapping);
      assert NeverBare(init, g) && e.1 != g;
      CollectSnoc(init, e, row, syntax, []);
      CollectAddressPart(init, row, syntax, g, field);
      var raw := Cell(row, e.0);
      var path := g + "." + field;
      assert LastCell(mapping, row, path) ==
             if e.1 == path && raw != "" then Some(raw) else LastCell(init, row, path);
      if raw != "" {
        StepAddressPart(Collect(init, row, syntax, []).value, e.1, raw, syntax, g, field);
      }
    }
  }

  /** Each address group holds a dict of parts or nothing. */
  predicate PartsOrAbsent(data: Dict<Value>) {
    && (Get(data, "BillAddr").None? || Get(data, "BillAddr").value.PartsVal?)
    && (Get(data, "ShipAddr").None? || Get(data, "ShipAddr").value.PartsVal?)
  }

  /** One step on a path that is not a bare group name, from data holding
      parts or nothing under the groups, fails only on a sub-model and
      keeps parts or nothing under the groups. */
  lemma StepAbort(data: Dict<Value>, path: string, raw: string, syntax: EmailSyntax)
    requires path != "BillAddr" && path != "ShipAddr"
    requires PartsOrAbsent(data)
    ensures Step(data, path, raw, syntax).Err? ==> Step(data, path, raw, syntax).error.SubModelError?
    ensures Step(data, path, raw, syntax).Ok? ==> PartsOrAbsent(Step(data, path, raw, syntax).value)
  {
    match Step(data, path, raw, syntax)
    case Err(e) =>
      if RouteOf(path).AddressRoute? {
        TargetFacts(path);
      }
    case Ok(d) =>
      StepKeepsParts(data, path, raw, syntax, "BillAddr");
      StepKeepsParts(data, path, raw, syntax, "ShipAddr");
  }

  /** The loop aborts only on a sub-model error unless some entry maps to
      the bare name of an address group: address sub-fields alone always
      find a dict (or nothing) under the group. */
  lemma {:induction false} CollectAbortsOnSubModel(mapping: Dict<string>, row: Dict<string>, syntax: EmailSyntax, data: Dict<Value>)
    requires NeverBare(mapping, "BillAddr") && NeverBare(mapping, "ShipAddr")
    requires PartsOrAbsent(data)
    ensures Collect(mapping, row, syntax, data).Err? ==> Collect(mapping, row, syntax, data).error.SubModelError?
    decreases |mapping|
  {
    if |mapping| > 0 {
      var raw := Cell(row, mapping[0].0);
      var rest := mapping[1..];
      assert NeverBare(rest, "BillAddr") && NeverBare(rest, "ShipAddr");
      if raw == "" {
        CollectAbortsOnSubModel(rest, row, syntax, data);
      } else {
        var path := mapping[0].1;
        assert path != "BillAddr" && path != "ShipAddr";
        StepAbort(data, path, raw, syntax);
        if Step(data, path, raw, syntax).Ok? {
          CollectAbortsOnSubModel(rest, row, syntax, Step(data, path, raw, syntax).value);
        }
      }
    }
  }

  // ------------------------------------------------ sub-model and fallback

  /** The e-mail, web and phone paths: their cell becomes a sub-model. */
  predicate IsSubModelPath(path: string) {
    RouteOf(path).EmailRoute? || RouteOf(path).WebRoute? || RouteOf(path).PhoneRoute?
  }

  /** The reference reading of a sub-model path: the sub-model its cell
      `raw` builds, or the constructor's refusal. */
  function SubModel(path: string, raw: string, syntax: EmailSyntax): Result<Value, Issue>
    requires IsSubModelPath(path)
  {
    if RouteOf(path).EmailRoute? then
      (match NewEmail(raw, syntax)
       case Ok(e) => Ok(EmailVal(e))
       case Err(i) => Err(i))
    else if RouteOf(path).WebRoute? then
      (match NewWebAddr(JStr(raw))
       case Ok(w) => Ok(WebVal(w))
       case Err(i) => Err(i))
    else
      (match NewPhone(JStr(raw))
       case Ok(ph) => Ok(PhoneVal(ph))
       case Err(i) => Err(i))
  }

  /** The e-mail path is a sub-model path stored under "PrimaryEmailAddr". */
  lemma EmailSubModel()
    ensures IsSubModelPath(EmailPath) && Target(EmailPath) == "PrimaryEmailAddr"
  {
    NestedRouteFacts();
  }

  /** The names the sub-model paths are stored under. */
  lemma SubModelTargets(p: string)
    requires IsSubModelPath(p)
    ensures Target(p) in NestedNames && Target(p) != "BillAddr" && Target(p) != "ShipAddr"
    ensures RouteOf(p).EmailRoute? ==> Target(p) == "PrimaryEmailAddr"
    ensures RouteOf(p).WebRoute? ==> Target(p) == "WebAddr"
  {
  }

  /** The only path other than the bare name itself that stores under a
      sub-model's name is that sub-model's own path. */
  lemma SubModelTarget(path: string, p: string)
    requires IsSubModelPath(p) && path != Target(p)
    ensures Target(path) == Target(p) <==> path == p
  {
    TargetFacts(path);
    SubModelTargets(p);
    if RouteOf(path).AddressRoute? {
      AddressTarget(path);
    }
  }

  /** An address path is stored under one of the two group names. */
  lemma AddressTarget(path: string)
    requires RouteOf(path).AddressRoute?
    ensures Target(path) == "BillAddr" || Target(path) == "ShipAddr"
  {
    AddressPathSplit(path);
    if StartsWith(path, "BillAddr.") {
      assert path[..8] == "BillAddr.."[..8];
    } else {
      assert path[..8] == "ShipAddr.."[..8];
    }
  }

  /** One step of the loop, seen from a sub-model path `p`: the step for
      `p` itself stores the sub-model it builds (the step raises when it is
      refused), every other path except the bare name leaves it alone. */
  lemma StepSubModel(d: Dict<Value>, path: string, raw: string, syntax: EmailSyntax, p: string)
    requires IsSubModelPath(p) && path != Target(p)
    requires Step(d, path, raw, syntax).Ok?
    ensures path == p ==> SubModel(p, raw, syntax).Ok? && Get(Step(d, path, raw, syntax).value, Target(p)) == Some(SubModel(p, raw, syntax).value)
    ensures path != p ==> Get(Step(d, path, raw, syntax).value, Target(p)) == Get(d, Target(p))
  {
    SubModelTarget(path, p);
  }

  /** What the loop stores under the name of a sub-model is the sub-model
      built from the last non-blank cell mapped to its path, as long as no
      entry maps to the bare name. */
  lemma {:induction false} CollectSubModel(mapping: Dict<string>, row: Dict<string>, syntax: EmailSyntax, p: string)
    requires IsSubModelPath(p) && NeverBare(mapping, Target(p))
    requires Collect(mapping, row, syntax, []).Ok?
    ensures match LastCell(mapping, row, p)
            case None => Get(Collect(mapping, row, syntax, []).value, Target(p)).None?
            case Some(v) => SubModel(p, v, syntax).Ok? && Get(Collect(mapping, row, syntax, []).value, Target(p)) == Some(SubModel(p, v, syntax).value)
    decreases |mapping|
  {
    if |mapping| > 0 {
      var n := |mapping| - 1;
      var init := mapping[..n];
      var e := mapping[n];
      SplitLast(mapping);
      assert NeverBare(init, Target(p)) && e.1 != Target(p);
      CollectSnoc(init, e, row, syntax, []);
      CollectSubModel(init, row, syntax, p);
      var raw := Cell(row, e.0);
      assert LastCell(mapping, row, p) == if e.1 == p && raw != "" then Some(raw) else LastCell(init, row, p);
      if raw != "" {
        StepSubModel(Collect(init, row, syntax, []).value, e.1, raw, syntax, p);
      }
    }
  }

  /** The e-mail, web and phone fields of the normalised row: under
      "PrimaryEmailAddr", "WebAddr" or the phone's group name, the sub-model
      built from the last non-blank cell mapped to the path, and nothing
      when every such cell is blank. */
  lemma NormalizeNested(mapping: Dict<string>, row: Dict<string>, syntax: EmailSyntax, p: string)
    requires IsSubModelPath(p) && NeverBare(mapping, Target(p))
    requires Normalize(mapping, row, syntax).Ok?
    ensures match LastCell(mapping, row, p)
            case None => Get(Normalize(mapping, row, syntax).value, Target(p)).None?
            case Some(v) => SubModel(p, v, syntax).Ok? && Get(Normalize(mapping, row, syntax).value, Target(p)) == Some(SubModel(p, v, syntax).value)
  {
    CollectSubModel(mapping, row, syntax, p);
    SubModelTargets(p);
    var data := Collect(mapping, row, syntax, []).value;
    var once := ConvertAddress(data, "BillAddr");
    assert Get(once, Target(p)) == Get(data, Target(p));
    assert Get(ConvertAddress(once, "ShipAddr"), Target(p)) == Get(once, Target(p));
  }

  /** A path the loop does not recognise and that is not a nested field's
      name is stored under itself by no entry but its own. */
  lemma TargetOfFallback(path: string, f: string)
    requires RouteOf(f) == Fallback && f !in NestedNames
    ensures Target(path) == f <==> path == f
  {
    TargetFacts(path);
  }

  /** One step of the loop, seen from such a path `f`: only the path `f`
      stores there, its text. */
  lemma StepFallback(d: Dict<Value>, path: string, raw: string, syntax: EmailSyntax, f: string)
    requires RouteOf(f) == Fallback && f !in NestedNames
    requires Step(d, path, raw, syntax).Ok?
    ensures Get(Step(d, path, raw, syntax).value, f) == if path == f then Some(Text(raw)) else Get(d, f)
  {
    TargetOfFallback(path, f);
  }

  /** What the loop stores under an unrecognised path is the last non-blank
      cell mapped to it, as text. */
  lemma {:induction false} CollectFallback(mapping: Dict<string>, row: Dict<string>, syntax: EmailSyntax, f: string)
    requires RouteOf(f) == Fallback && f !in NestedNames
    requires Collect(mapping, row, syntax, []).Ok?
    ensures Get(Collect(mapping, row, syntax, []).value, f) ==
              match LastCell(mapping, row, f)
              case None => None
              case Some(v) => Some(Text(v))
    decreases |mapping|
  {
    if |mapping| > 0 {
      var n := |mapping| - 1;
      var init := mapping[..n];
      var e := mapping[n];
      SplitLast(mapping);
      CollectSnoc(init, e, row, syntax, []);
      CollectFallback(init, row, syntax, f);
      var raw := Cell(row, e.0);
      assert LastCell(mapping, row, f) == if e.1 == f && raw != "" then Some(raw) else LastCell(init, row, f);
      if raw != "" {
        StepFallback(Collect(init, row, syntax, []).value, e.1, raw, syntax, f);
      }
    }
  }

  /** The fallback: a path the loop does not recognise (and that is not the
      bare name of a nested field) is stored under its full string, holding
      the last non-blank cell mapped to it. */
  lemma NormalizeFallback(mapping: Dict<string>, row: Dict<string>, syntax: EmailSyntax, f: string)
    requires RouteOf(f) == Fallback && f !in NestedNames
    requires Normalize(mapping, row, syntax).Ok?
    ensures Get(Normalize(mapping, row, syntax).value, f) ==
              match LastCell(mapping, row, f)
              case None => None
              case Some(v) => Some(Text(v))
  {
    CollectFallback(mapping, row, syntax, f);
    var data := Collect(mapping, row, syntax, []).value;
    var once := ConvertAddress(data, "BillAddr");
    assert Get(once, f) == Get(data, f);
    assert Get(ConvertAddress(once, "ShipAddr"), f) == Get(once, f);
  }

  /** A step on a sub-model path succeeds only when the constructor accepts
      the cell. */
  lemma StepPassed(d: Dict<Value>, path: string, raw: string, syntax: EmailSyntax)
    requires IsSubModelPath(path) && Step(d, path, raw, syntax).Ok?
    ensures SubModel(path, raw, syntax).Ok?
  {
  }

  /** A loop that finishes has passed every non-blank e-mail, web and phone
      cell through its constructor. */
  lemma {:induction false} CollectPassed(mapping: Dict<string>, row: Dict<string>, syntax: EmailSyntax, data: Dict<Value>)
    requires Collect(mapping, row, syntax, data).Ok?
    ensures forall i :: 0 <= i < |mapping| && Cell(row, mapping[i].0) != "" && IsSubModelPath(mapping[i].1) ==>
              SubModel(mapping[i].1, Cell(row, mapping[i].0), syntax).Ok?
    decreases |mapping|
  {
    if |mapping| > 0 {
      var raw := Cell(row, mapping[0].0);
      var rest := mapping[1..];
      var d := if raw == "" then data else Step(data, mapping[0].1, raw, syntax).value;
      assert Collect(rest, row, syntax, d).Ok?;
      CollectPassed(rest, row, syntax, d);
      forall i | 0 <= i < |mapping| && Cell(row, mapping[i].0) != "" && IsSubModelPath(mapping[i].1)
        ensures SubModel(mapping[i].1, Cell(row, mapping[i].0), syntax).Ok?
      {
        if i == 0 {
          StepPassed(data, mapping[0].1, raw, syntax);
        } else {
          assert mapping[i] == rest[i - 1];
        }
      }
    }
  }

  /** A row that normalises has every non-blank e-mail, web and phone cell
      accepted by its sub-model: any refusal raises out of the loop. */
  lemma NormalizeSubModelsPassed(mapping: Dict<string>, row: Dict<string>, syntax: EmailSyntax)
    requires Normalize(mapping, row, syntax).Ok?
    ensures forall i :: 0 <= i < |mapping| && Cell(row, mapping[i].0) != "" && IsSubModelPath(mapping[i].1) ==>
              SubModel(mapping[i].1, Cell(row, mapping[i].0), syntax).Ok?
  {
    CollectPassed(mapping, row, syntax, []);
  }

  /** The normalised row holds a flag (never text) under each flag field,
      and text (never a dict) under "ParentRef" and "CurrencyRef". */
  lemma NormalizeFlagAndRefShapes(mapping: Dict<string>, row: Dict<string>, syntax: EmailSyntax, f: string, ref: string)
    requires f in FlagPaths && (ref == "ParentRef" || ref == "CurrencyRef")
    requires Normalize(mapping, row, syntax).Ok?
    ensures Get(Normalize(mapping, row, syntax).value, f).None? || Get(Normalize(mapping, row, syntax).value, f).value.Flag?
    ensures Get(Normalize(mapping, row, syntax).value, ref).None? || Get(Normalize(mapping, row, syntax).value, ref).value.Text?
  {
    NormalizeScalar(mapping, row, syntax, f);
    RefIsFallback(ref);
    NormalizeFallback(mapping, row, syntax, ref);
  }

  /** The loop has no route for the two reference fields. */
  lemma RefIsFallback(ref: string)
    requires ref == "ParentRef" || ref == "CurrencyRef"
    ensures RouteOf(ref) == Fallback && ref !in NestedNames
  {
    AddressPathShape(ref);
    assert ref[8] != '.';
  }

  /** Converting a valid dict of address parts early changes nothing for the
      record: the field check gives the same dump for the parts and for the
      address built from them. */
  lemma AddressConversionTransparent(name: string, parts: Dict<string>)
    requires name != Required && NewAddress(parts).Ok?
    ensures ValidateField(name, AddressField, Some(PartsVal(parts))) ==
            ValidateField(name, AddressField, Some(AddrVal(NewAddress(parts).value)))
  {
  }
}

=== FILE: qbo.dfy ===
/** `get_qbo_client`: decide whether the stored QuickBooks access token must
    be refreshed, apply the token endpoint's grant, and build the client's
    headers and base URL. The clock and the token endpoint are parameters:
    `now` is the current time in whole seconds and `grant` is what the
    refresh request returned (an error when it raised). */
module Qbo {
  import opened Wrappers
  import opened Text
  import opened Dict

  const BaseUrl := "https://sandbox-quickbooks.api.intuit.com/v3/company"

  /** A token that expires within this many seconds is refreshed first. */
  const RefreshMargin: int := 300

  /** The user's QuickBooks columns. */
  datatype Connection = Connection(
    realm: Option<string>,
    access: Option<string>,
    refresh: Option<string>,
    expiresAt: Option<int>)

  /** The token endpoint's answer: `access_token`, `refresh_token`,
      `expires_in`. */
  datatype Grant = Grant(access: string, refresh: string, expiresIn: int)

  datatype Client = Client(headers: Dict<string>, baseUrl: string)

  /** The access token is missing or empty, or it expires (a missing expiry
      counting as 0) less than five minutes from now. */
  predicate NeedsRefresh(c: Connection, now: int)
    ensures c.access.None? || c.access == Some("") ==> NeedsRefresh(c, now)
    ensures c.expiresAt.None? && now > -RefreshMargin ==> NeedsRefresh(c, now)
    ensures c.access.Some? && c.access.value != "" && c.expiresAt.Some? && c.expiresAt.value - now >= RefreshMargin ==>
              !NeedsRefresh(c, now)
  {
    || c.access.None?
    || c.access.value == ""
    || c.expiresAt.GetOr(0) < now + RefreshMargin
  }

  /** Once a connection needs a refresh it keeps needing one as time
      passes, and every connection needs one from five minutes before its
      expiry on (a missing expiry counting as 0). */
  lemma NeedsRefreshLater(c: Connection, now: int, later: int)
    requires now <= later
    ensures NeedsRefresh(c, now) ==> NeedsRefresh(c, later)
    ensures later > c.expiresAt.GetOr(0) - RefreshMargin ==> NeedsRefresh(c, later)
  {
  }

  /** Python's f-string rendering of an optional text column. */
  function Shown(v: Option<string>): string {
    v.GetOr("None")
  }

  /** The default headers of every request. */
  function Headers(access: Option<string>): (h: Dict<string>)
    ensures Unique(h)
    ensures Get(h, "Authorization") == Some("Bearer " + Shown(access))
    ensures Get(h, "Accept") == Some("application/json")
    ensures |h| == 2
  {
    var h := [("Authorization", "Bearer " + Shown(access)), ("Accept", "application/json")];
    assert Keys(h) == ["Authorization", "Accept"];
    h
  }

  /** The company-scoped base URL: BASE_URL, a slash, the realm id, a slash. */
  function UrlFor(realm: Option<string>): (u: string)
    ensures StartsWith(u, BaseUrl + "/") && EndsWith(u, "/")
    ensures |u| == |BaseUrl| + |Shown(realm)| + 2
  {
    var u := BaseUrl + "/" + Shown(realm) + "/";
    assert u[..|BaseUrl + "/"|] == BaseUrl + "/";
    u
  }

  /** The realm id read back from a base URL built by `UrlFor`. */
  function RealmOf(u: string): Option<string> {
    if StartsWith(u, BaseUrl + "/") && EndsWith(u, "/") && |u| >= |BaseUrl| + 2 then
      Some(u[|BaseUrl| + 1..|u| - 1])
    else None
  }

  /** The realm id can be read back from the base URL. */
  lemma RealmRoundTrip(realm: string)
    ensures RealmOf(UrlFor(Some(realm))) == Some(realm)
  {
    var u := UrlFor(Some(realm));
    assert u == (BaseUrl + "/") + realm + "/";
    assert u[|BaseUrl| + 1..|u| - 1] == realm;
  }

  /** The user's columns after a grant at time `now`: both tokens replaced,
      the expiry `expires_in` seconds from now, the realm kept. */
  function Refreshed(c: Connection, g: Grant, now: int): (c': Connection)
    ensures c'.realm == c.realm
    ensures c'.access == Some(g.access) && c'.refresh == Some(g.refresh)
    ensures c'.expiresAt.Some? && c'.expiresAt.value - now == g.expiresIn
  {
    Connection(c.realm, Some(g.access), Some(g.refresh), Some(now + g.expiresIn))
  }

  /** `get_qbo_client(user)`: the user's columns after it and the client,
      or the error the refresh request raised. */
  function GetClient(c: Connection, now: int, grant: Result<Grant, string>): (r: Result<(Connection, Client), string>)
    ensures !NeedsRefresh(c, now) ==> r.Ok? && r.value.0 == c
    ensures NeedsRefresh(c, now) ==> (r.Ok? <==> grant.Ok?)
    ensures NeedsRefresh(c, now) && grant.Err? ==> r == Err(grant.error)
    ensures NeedsRefresh(c, now) && grant.Ok? ==>
              && r.value.0.access == Some(grant.value.access)
              && r.value.0.refresh == Some(grant.value.refresh)
              && r.value.0.expiresAt == Some(now + grant.value.expiresIn)
              && r.value.0.realm == c.realm
    ensures r.Ok? ==> r.value.0.access.Some?
    ensures r.Ok? ==> Get(r.value.1.headers, "Authorization") == Some("Bearer " + r.value.0.access.value)
    ensures r.Ok? ==> Get(r.value.1.headers, "Accept") == Some("application/json")
    ensures r.Ok? ==> RealmOf(r.value.1.baseUrl) == Some(Shown(c.realm))
  {
    var updated :- if NeedsRefresh(c, now) then
                     (match grant
                      case Ok(g) => Ok(Refreshed(c, g, now))
                      case Err(e) => Err(e))
                   else Ok(c);
    RealmRoundTrip(Shown(updated.realm));
    Ok((updated, Client(Headers(updated.access), UrlFor(updated.realm))))
  }

  /** Right after a refresh the token is due again exactly when the grant is
      empty or lasts less than the five-minute margin. */
  lemma RefreshedDue(c: Connection, g: Grant, now: int)
    ensures NeedsRefresh(Refreshed(c, g, now), now) <==> g.access == "" || g.expiresIn < RefreshMargin
  {
  }

  /** A token with more than five minutes left is used as it is, with no
      request to the token endpoint. */
  lemma FreshTokenKept(c: Connection, now: int, grant: Result<Grant, string>)
    requires c.access.Some? && c.access.value != "" && c.expiresAt.Some?
    requires c.expiresAt.value >= now + RefreshMargin
    ensures GetClient(c, now, grant) == Ok((c, Client(Headers(c.access), UrlFor(c.realm))))
  {
  }
}

=== FILE: registry.dfy ===
/** `ConnectionManager`: the WebSocket subscribers of each job, as a map from
    job id to a set of sockets. Accepting and sending are effects: a socket
    is an identity, and which sends succeed is a parameter. */
module Registry {

  type Socket = nat

  type Subscribers = map<int, set<Socket>>

  /** No job is listed with an empty set of sockets. */
  predicate Tidy(r: Subscribers) {
    forall j :: j in r ==> r[j] != {}
  }

  /** `connect`: add the socket to the job's set, creating the set first if
      the job has none. */
  function Connect(r: Subscribers, ws: Socket, job: int): (r': Subscribers)
    ensures job in r' && ws in r'[job]
    ensures forall c :: c in r'[job] <==> c == ws || (job in r && c in r[job])
    ensures forall j :: j != job ==> (j in r' <==> j in r)
    ensures forall j :: j != job && j in r ==> r'[j] == r[j]
  {
    var current := if job in r then r[job] else {};
    r[job := current + {ws}]
  }

  /** `disconnect`: drop the socket from the job's set and drop the job once
      its set is empty; a job without an entry is left alone. */
  function Disconnect(r: Subscribers, ws: Socket, job: int): (r': Subscribers)
    ensures job !in r ==> r' == r
    ensures job in r ==> (job in r' <==> exists c :: c in r[job] && c != ws)
    ensures job in r' ==> forall c :: c in r'[job] <==> c in r[job] && c != ws
    ensures forall j :: j != job ==> (j in r' <==> j in r)
    ensures forall j :: j != job && j in r ==> r'[j] == r[j]
  {
    if job !in r then r
    else
      var rest := r[job] - {ws};
      if rest == {} then
        assert forall c :: c in r[job] && c != ws ==> c in rest;
        r - {job}
      else
        assert exists c :: c in r[job] && c != ws by {
          var c :| c in rest;
        }
        r[job := rest]
  }

  /** The sockets of `job` whose send raised. */
  function Dead(r: Subscribers, job: int, delivered: Socket -> bool): set<Socket>
    requires job in r
  {
    set c | c in r[job] && !delivered(c)
  }

  /** `broadcast`: send to every socket of the job and then discard those
      whose send raised; the job keeps its entry even when no socket is
      left. A job without an entry is left alone. */
  function Broadcast(r: Subscribers, job: int, delivered: Socket -> bool): (r': Subscribers)
    ensures job !in r ==> r' == r
    ensures r'.Keys == r.Keys
    ensures job in r ==> forall c :: c in r'[job] <==> c in r[job] && delivered(c)
    ensures forall j :: j != job && j in r ==> r'[j] == r[j]
  {
    if job !in r then r
    else r[job := r[job] - Dead(r, job, delivered)]
  }

  /** `connect` and `disconnect` keep every listed job with at least one
      socket. */
  lemma TidyKept(r: Subscribers, ws: Socket, job: int)
    requires Tidy(r)
    ensures Tidy(Connect(r, ws, job))
    ensures Tidy(Disconnect(r, ws, job))
  {
  }

  /** `broadcast` does not: the last socket of a job failing leaves the job
      listed with an empty set. */
  lemma BroadcastLeavesEmpty(ws: Socket, job: int)
    ensures Tidy(map[job := {ws}])
    ensures !Tidy(Broadcast(map[job := {ws}], job, c => false))
  {
    var r := map[job := {ws}];
    var r' := Broadcast(r, job, c => false);
    assert job in r' && r'[job] == {} by {
      forall c ensures c !in r'[job] {
      }
    }
  }

  /** Connecting a new socket and disconnecting it again restores the
      registry. */
  lemma ConnectDisconnect(r: Subscribers, ws: Socket, job: int)
    requires Tidy(r)
    requires job in r ==> ws !in r[job]
    ensures Disconnect(Connect(r, ws, job), ws, job) == r
  {
    var r1 := Connect(r, ws, job);
    var r2 := Disconnect(r1, ws, job);
    if job in r {
      var c :| c in r[job];
      assert c in r1[job] && c != ws;
      assert r2[job] == r[job];
    } else {
      assert r1[job] == {ws};
    }
  }

  /** Broadcasting twice with the same outcome of the sends removes nothing
      more the second time. */
  lemma BroadcastIdempotent(r: Subscribers, job: int, delivered: Socket -> bool)
    ensures Broadcast(Broadcast(r, job, delivered), job, delivered) == Broadcast(r, job, delivered)
  {
    if job in r {
      var r1 := Broadcast(r, job, delivered);
      var r2 := Broadcast(r1, job, delivered);
      assert r2[job] == r1[job];
    }
  }
}

=== FILE: reporting.dfy ===
/** The read side of the jobs API: the list of a user's jobs with their row
    tallies, one job with its progress, and the export of its failed rows
    as a table. Creation times are not modelled; the store lists jobs in
    the order they were created. Writing the table as CSV text (quoting)
    is not modelled either: a table is its cells, each already converted
    to text the way the CSV writer converts it (a number by its decimal
    digits, a missing error as the empty text). */
module Reporting {
  import opened Wrappers
  import opened Text
  import opened Dict
  import opened Json
  import opened Store
  import opened Jsonb

  /** The metadata key the listing reads the file name from. */
  const ListedKey := "original_filename"

  /** The key the upload stores the file name under. */
  const UploadedKey := "filename"

  const UnknownFile := "unknown.csv"

  /** One entry of `list_jobs`. */
  datatype Summary = Summary(id: int, objectType: string, status: string, filename: Json, totalRows: nat, failedRows: nat)

  /** The `failed_rows` tally: the error rows, counted only when the job has
      rows at all. */
  function FailedRows(rows: seq<JobRow>): (n: nat)
    ensures n == CountStatus(rows, Error)
    ensures n <= |rows|
    ensures n > 0 <==> exists i :: 0 <= i < |rows| && rows[i].status == Error
  {
    CountPositive(rows, Error);
    if |rows| > 0 then CountStatus(rows, Error) else 0
  }

  /** The file name shown for a job: the metadata entry under `key`, or
      "unknown.csv" when there is none. The listing reads `ListedKey`. */
  function ListedFilename(meta: Dict<Json>, key: string): (f: Json)
    ensures HasKey(meta, key) ==> f == Get(meta, key).value
    ensures !HasKey(meta, key) ==> f == JStr(UnknownFile)
  {
    Get(meta, key).GetOr(JStr(UnknownFile))
  }

  /** One listed job, its file name read under `key`. */
  function SummaryOf(job: Job, key: string): (s: Summary)
    ensures s.id == job.id && s.objectType == job.objectType && s.status == JobStatusName(job.status)
    ensures s.totalRows == |job.rows| && s.failedRows <= s.totalRows
    ensures s.failedRows == CountStatus(job.rows, Error)
    ensures s.filename == ListedFilename(job.meta, key)
  {
    Summary(job.id, job.objectType, JobStatusName(job.status), ListedFilename(job.meta, key), |job.rows|, FailedRows(job.rows))
  }

  /** `list_jobs`: the user's jobs, newest first. The file name is read
      under `key`: `ListedKey` as the endpoint does. */
  function ListJobs(jobs: seq<Job>, user: int, key: string): (r: seq<Summary>)
    ensures |r| <= |jobs|
    ensures forall i :: 0 <= i < |r| ==> r[i].failedRows <= r[i].totalRows
  {
    if |jobs| == 0 then []
    else ListJobs(jobs[1..], user, key) + if jobs[0].owner == user then [SummaryOf(jobs[0], key)] else []
  }

  /** `s` describes one of the user's jobs. */
  predicate Listed(jobs: seq<Job>, user: int, key: string, s: Summary) {
    exists j :: 0 <= j < |jobs| && jobs[j].owner == user && s == SummaryOf(jobs[j], key)
  }

  /** Every entry of the listing describes one of the user's jobs. */
  lemma {:induction false} ListJobsSound(jobs: seq<Job>, user: int, key: string)
    ensures forall s :: s in ListJobs(jobs, user, key) ==> Listed(jobs, user, key, s)
  {
    if |jobs| > 0 {
      var rest := ListJobs(jobs[1..], user, key);
      ListJobsSound(jobs[1..], user, key);
      forall s | s in rest ensures Listed(jobs, user, key, s) {
        var j :| 0 <= j < |jobs[1..]| && jobs[1..][j].owner == user && s == SummaryOf(jobs[1..][j], key);
        assert jobs[j + 1] == jobs[1..][j];
      }
      if jobs[0].owner == user {
        assert Listed(jobs, user, key, SummaryOf(jobs[0], key));
      }
    }
  }

  /** Every job of the user is described in the listing. */
  lemma {:induction false} ListJobsComplete(jobs: seq<Job>, user: int, key: string)
    ensures forall j :: 0 <= j < |jobs| && jobs[j].owner == user ==> SummaryOf(jobs[j], key) in ListJobs(jobs, user, key)
  {
    if |jobs| > 0 {
      var rest := ListJobs(jobs[1..], user, key);
      ListJobsComplete(jobs[1..], user, key);
      forall j | 1 <= j < |jobs| && jobs[j].owner == user ensures SummaryOf(jobs[j], key) in rest {
        assert jobs[1..][j - 1] == jobs[j];
      }
    }
  }

  /** A job created after all the others is listed first, if it is the
      user's, and the older jobs follow in the same order as before. */
  lemma {:induction false} NewestListedFirst(jobs: seq<Job>, newest: Job, user: int, key: string)
    ensures ListJobs(jobs + [newest], user, key) ==
            (if newest.owner == user then [SummaryOf(newest, key)] else []) + ListJobs(jobs, user, key)
  {
    if |jobs| == 0 {
      assert jobs + [newest] == [newest];
      assert [newest][1..] == [];
    } else {
      assert (jobs + [newest])[1..] == jobs[1..] + [newest];
      NewestListedFirst(jobs[1..], newest, user, key);
    }
  }

  // ------------------------------------------------------------- get_job

  /** The `progress` part of `get_job`. */
  datatype Progress = Progress(total: nat, valid: nat, error: nat, success: nat)

  datatype JobView = JobView(id: int, status: string, objectType: string, meta: Dict<Json>, progress: Progress)

  const JobNotFound := HttpError(404, "Job not found")

  function ProgressOf(rows: seq<JobRow>): (p: Progress)
    ensures p.total == |rows|
    ensures p.valid + p.error + p.success <= p.total
    ensures p.valid + p.error + p.success == p.total <==> CountStatus(rows, Pending) == 0
    ensures p.error > 0 <==> exists i :: 0 <= i < |rows| && rows[i].status == Error
    ensures p.valid > 0 <==> exists i :: 0 <= i < |rows| && rows[i].status == Valid
  {
    CountsBounded(rows);
    CountPositive(rows, Error);
    CountPositive(rows, Valid);
    Progress(|rows|, CountStatus(rows, Valid), CountStatus(rows, Error), CountStatus(rows, Success))
  }

  /** `get_job`: the user's job with its metadata and progress, or 404. */
  function GetJob(jobs: seq<Job>, id: int, user: int): (r: Result<JobView, HttpError>)
    ensures r.Err? <==> FindJob(jobs, id, user).None?
    ensures r.Err? ==> r.error == JobNotFound
    ensures r.Ok? ==>
              var job := FindJob(jobs, id, user).value;
              && r.value.id == id && r.value.meta == job.meta && r.value.status == JobStatusName(job.status)
              && r.value.progress == ProgressOf(job.rows)
  {
    var found := FindJob(jobs, id, user);
    if found.None? then Err(JobNotFound)
    else
      var job := found.value;
      Ok(JobView(job.id, JobStatusName(job.status), job.objectType, job.meta, ProgressOf(job.rows)))
  }

  // ------------------------------------------------------ download_errors

  const NoErrorsMessage := "No errors \U{2013} all rows valid!"

  /** What the error download answers: a message when no row failed, or a
      table to be saved under `fileName`. */
  datatype ErrorExport =
    | NoErrors(message: string)
    | ErrorTable(fileName: string, header: seq<string>, rows: seq<seq<string>>)

  /** The rows with status error, in store order. */
  function ErrorRows(rows: seq<JobRow>): (e: seq<JobRow>)
    ensures |e| == CountStatus(rows, Error)
    ensures forall i :: 0 <= i < |e| ==> e[i].status == Error && e[i] in rows
    ensures forall i :: 0 <= i < |rows| && rows[i].status == Error ==> rows[i] in e
  {
    if |rows| == 0 then []
    else
      var rest := ErrorRows(rows[1..]);
      assert forall i :: 1 <= i < |rows| && rows[i].status == Error ==> rows[i] in rest by {
        forall i | 1 <= i < |rows| && rows[i].status == Error ensures rows[i] in rest {
          assert rows[1..][i - 1] == rows[i];
        }
      }
      (if rows[0].status == Error then [rows[0]] else []) + rest
  }

  /** One line of the table: the row number, the error, then the cells of
      the row under the given headers, empty where the row has none. */
  function ExportLine(e: JobRow, keys: seq<string>): (line: seq<string>)
    ensures |line| == 2 + |keys|
    ensures line[0] == IntToString(e.rowNumber) && line[1] == e.error.GetOr("")
    ensures forall j :: 0 <= j < |keys| ==> line[2 + j] == Get(e.rawData, keys[j]).GetOr("")
  {
    [IntToString(e.rowNumber), e.error.GetOr("")] + seq(|keys|, j requires 0 <= j < |keys| => Get(e.rawData, keys[j]).GetOr(""))
  }

  function ExportName(id: int): string {
    "job_" + IntToString(id) + "_errors.csv"
  }

  /** `download_errors`: 404 for a job the user does not own; otherwise the
      message when no row failed, or a table whose header is "Row #",
      "Error" and the first failed row's columns, with one line per failed
      row in store order. The row's cells are read back from a `jsonb`
      column, so its columns come in that column's key order. */
  function DownloadErrors(jobs: seq<Job>, id: int, user: int): (r: Result<ErrorExport, HttpError>)
    ensures r.Err? <==> FindJob(jobs, id, user).None?
    ensures r.Err? ==> r.error == JobNotFound
    ensures r.Ok? ==> (r.value.NoErrors? <==> CountStatus(FindJob(jobs, id, user).value.rows, Error) == 0)
    ensures r.Ok? && r.value.NoErrors? ==> r.value.message == NoErrorsMessage
    ensures r.Ok? && r.value.ErrorTable? ==>
              var errors := ErrorRows(FindJob(jobs, id, user).value.rows);
              var keys := Keys(Reorder(errors[0].rawData));
              && r.value.fileName == ExportName(id)
              && r.value.header == ["Row #", "Error"] + keys
              && |r.value.rows| == |errors|
              && forall i :: 0 <= i < |errors| ==> r.value.rows[i] == ExportLine(errors[i], keys)
  {
    var found := FindJob(jobs, id, user);
    if found.None? then Err(JobNotFound)
    else
      var errors := ErrorRows(found.value.rows);
      if |errors| == 0 then Ok(NoErrors(NoErrorsMessage))
      else
        var keys := Keys(Reorder(errors[0].rawData));
        Ok(ErrorTable(ExportName(id), ["Row #", "Error"] + keys,
                      seq(|errors|, i requires 0 <= i < |errors| => ExportLine(errors[i], keys))))
  }

  /** Every line of an exported table is as wide as its header. */
  lemma ExportRectangular(jobs: seq<Job>, id: int, user: int)
    requires DownloadErrors(jobs, id, user).Ok? && DownloadErrors(jobs, id, user).value.ErrorTable?
    ensures var t := DownloadErrors(jobs, id, user).value;
            forall i :: 0 <= i < |t.rows| ==> |t.rows[i]| == |t.header|
  {
  }

  /** Pairs of header and cell, from the third column on. */
  function Columns(header: seq<string>, line: seq<string>): (d: Dict<string>)
    requires |header| == |line| && |header| >= 2
    ensures |d| == |header| - 2
    ensures forall j :: 0 <= j < |d| ==> d[j] == (header[2 + j], line[2 + j])
  {
    seq(|header| - 2, j requires 0 <= j < |header| - 2 => (header[2 + j], line[2 + j]))
  }

  /** The first failed row reads back from the table: its columns, paired
      with the header, are its cells exactly, in `jsonb`'s key order. */
  lemma FirstLineRoundTrip(jobs: seq<Job>, id: int, user: int)
    requires DownloadErrors(jobs, id, user).Ok? && DownloadErrors(jobs, id, user).value.ErrorTable?
    ensures var t := DownloadErrors(jobs, id, user).value;
            Columns(t.header, t.rows[0]) == Reorder(ErrorRows(FindJob(jobs, id, user).value.rows)[0].rawData)
  {
    var t := DownloadErrors(jobs, id, user).value;
    var first := ErrorRows(FindJob(jobs, id, user).value.rows)[0];
    var cells := Reorder(first.rawData);
    ReorderEntries(first.rawData);
    ReorderGet(first.rawData);
    OrderedUnique(cells);
    var d := Columns(t.header, t.rows[0]);
    forall j | 0 <= j < |d| ensures d[j] == cells[j] {
      GetAt(cells, j);
    }
  }

  /** A first failed row read from a file with the columns `long` then
      `short` is exported with `short` first when its name is shorter. */
  lemma ExportHeaderOrder(jobs: seq<Job>, id: int, user: int, long: string, x: string, short: string, y: string)
    requires DownloadErrors(jobs, id, user).Ok? && DownloadErrors(jobs, id, user).value.ErrorTable?
    requires ErrorRows(FindJob(jobs, id, user).value.rows)[0].rawData == [(long, x), (short, y)]
    requires KeyLess(short, long)
    ensures DownloadErrors(jobs, id, user).value.header == ["Row #", "Error", short, long]
  {
    ReorderTwo((long, x), (short, y));
  }
}

=== FILE: rowschema.dfy ===
/** `CustomerRow`, the older flat validator: six optional fields whose blank
    strings become None before validation, a required `DisplayName` of 1 to
    500 characters taken as given, extra keys accepted and ignored, and a
    `model_dump` that emits only the non-empty parts in QuickBooks shape. */
module RowSchema {
  import opened Wrappers
  import opened Text
  import opened Dict
  import opened Json
  import opened Customer

  const DisplayNameMax: nat := 500

  /** The billing-address columns in declaration order, each with the
      address key `model_dump` writes it under. */
  const AddressColumns: seq<(string, string)> := [
    ("BillAddr_Line1", "Line1"), ("BillAddr_City", "City"),
    ("BillAddr_CountrySubDivisionCode", "CountrySubDivisionCode"), ("BillAddr_PostalCode", "PostalCode")
  ]

  /** Every declared field; any other key of the input is an extra. */
  const DeclaredFields: seq<string> := [
    "DisplayName", "PrimaryEmailAddr", "PrimaryPhone",
    "BillAddr_Line1", "BillAddr_City", "BillAddr_CountrySubDivisionCode", "BillAddr_PostalCode"
  ]

  /** The only keys `model_dump` writes. */
  const OutputKeys: seq<string> := ["DisplayName", "PrimaryEmailAddr", "PrimaryPhone", "BillAddr"]

  /** A validated row: the e-mail as the syntax check returned it, and the
      billing columns that were given (a Python None column is absent). */
  datatype CustomerRow = CustomerRow(
    displayName: string,
    email: Option<string>,
    phone: Option<string>,
    bill: Dict<string>)

  /** The reference reading of an optional column: a string that is not
      blank was given for it. */
  function Given(v: Option<Json>): Option<string> {
    if v.Some? && v.value.JStr? && !IsBlank(v.value.s) then Some(v.value.s) else None
  }

  /** `empty_str_to_none` followed by the `Optional[str]` type check: a
      string that strips to nothing and None both give None, another string
      is kept as it is, anything else is refused. */
  function OptionalText(name: string, v: Option<Json>): (r: Result<Option<string>, Issue>)
    ensures r.Ok? <==> v.None? || v.value.JNull? || v.value.JStr?
    ensures r.Ok? ==> r.value == Given(v)
    ensures r.Err? ==> r.error == Issue(name, WrongType)
  {
    match v
    case None => Ok(None)
    case Some(x) =>
      if x.JNull? then Ok(None)
      else if x.JStr? then (if Strip(x.s) == "" then Ok(None) else Ok(Some(x.s)))
      else Err(Issue(name, WrongType))
  }

  /** `DisplayName: str = Field(..., min_length=1, max_length=500)`: required,
      a string, not stripped and not coerced. */
  function CheckDisplayName(v: Option<Json>): (r: Result<string, Issue>)
    ensures r.Ok? <==> v.Some? && v.value.JStr? && 1 <= |v.value.s| <= DisplayNameMax
    ensures r.Ok? ==> r.value == v.value.s
    ensures r.Err? ==> r.error.loc == "DisplayName"
  {
    match v
    case None => Err(Issue("DisplayName", Missing))
    case Some(x) =>
      if !x.JStr? then Err(Issue("DisplayName", WrongType))
      else if |x.s| < 1 then Err(Issue("DisplayName", TooShort(1)))
      else if |x.s| > DisplayNameMax then Err(Issue("DisplayName", TooLong(DisplayNameMax)))
      else Ok(x.s)
  }

  /** `PrimaryEmailAddr: Optional[EmailStr]` after `empty_str_to_none`: a
      given address must pass the syntax check, and the checked form is kept. */
  function CheckEmail(v: Option<Json>, syntax: EmailSyntax): (r: Result<Option<string>, Issue>)
    ensures r.Ok? <==> OptionalText("PrimaryEmailAddr", v).Ok? && (Given(v).Some? ==> syntax(Given(v).value).Some?)
    ensures r.Ok? ==> r.value == if Given(v).Some? then syntax(Given(v).value) else None
    ensures r.Err? ==> r.error.loc == "PrimaryEmailAddr"
  {
    match OptionalText("PrimaryEmailAddr", v)
    case Err(i) => Err(i)
    case Ok(None) => Ok(None)
    case Ok(Some(s)) =>
      match syntax(s)
      case None => Err(Issue("PrimaryEmailAddr", InvalidEmailSyntax))
      case Some(n) => Ok(Some(n))
  }

  function QboKeys(table: seq<(string, string)>): (ns: seq<string>)
    ensures |ns| == |table| && forall i :: 0 <= i < |table| ==> ns[i] == table[i].1
  {
    seq(|table|, i requires 0 <= i < |table| => table[i].1)
  }

  /** The billing columns given in the input, keyed by column. */
  function BillGiven(table: seq<(string, string)>, data: Dict<Json>): (r: Dict<string>)
    requires Distinct(Names(table))
    ensures Unique(r)
    ensures forall k :: HasKey(r, k) ==> k in Names(table)
    ensures forall i :: 0 <= i < |table| ==> Get(r, table[i].0) == Given(Get(data, table[i].0))
  {
    if |table| == 0 then []
    else
      NamesTail(table);
      var rest := BillGiven(table[1..], data);
      assert forall i :: 0 < i < |table| ==> table[i] == table[1..][i - 1];
      Cons(table[0].0, Given(Get(data, table[0].0)), rest)
  }

  /** The issues of the refused billing columns, in table order. */
  function BillIssues(table: seq<(string, string)>, data: Dict<Json>): (r: seq<Issue>)
    ensures |r| == 0 <==> forall i :: 0 <= i < |table| ==> OptionalText(table[i].0, Get(data, table[i].0)).Ok?
    ensures LocsIn(r, Names(table))
  {
    if |table| == 0 then []
    else
      var v := OptionalText(table[0].0, Get(data, table[0].0));
      var rest := BillIssues(table[1..], data);
      assert forall i :: 0 < i < |table| ==> table[i] == table[1..][i - 1];
      var head := if v.Ok? then [] else [v.error];
      LocsInSuffix(rest, Names(table), 1);
      assert LocsIn(head, Names(table));
      LocsInAppend(head, rest, Names(table));
      head + rest
  }

  /** The address dict `model_dump` builds from a suffix of the table: for
      every column with a truthy value, the value stripped, when that leaves
      something. */
  function BillParts(table: seq<(string, string)>, bill: Dict<string>): (r: Dict<Json>)
    requires Distinct(QboKeys(table))
    ensures Unique(r)
    ensures forall k :: HasKey(r, k) ==> k in QboKeys(table)
    ensures forall i :: 0 <= i < |table| ==> Get(r, table[i].1) == Cleaned(Get(bill, table[i].0))
    ensures r == [] <==> forall i :: 0 <= i < |table| ==> Cleaned(Get(bill, table[i].0)).None?
  {
    if |table| == 0 then []
    else
      var key := table[0].1;
      assert QboKeys(table) == [key] + QboKeys(table[1..]);
      assert Distinct(QboKeys(table[1..])) by {
        forall i, j | 0 <= i < j < |table| - 1 ensures QboKeys(table[1..])[i] != QboKeys(table[1..])[j] {
          assert QboKeys(table)[i + 1] != QboKeys(table)[j + 1];
        }
      }
      assert key !in QboKeys(table[1..]) by {
        forall i | 0 <= i < |table| - 1 ensures QboKeys(table[1..])[i] != key {
          assert QboKeys(table)[0] != QboKeys(table)[i + 1];
        }
      }
      var rest := BillParts(table[1..], bill);
      assert forall i :: 0 < i < |table| ==> table[i] == table[1..][i - 1];
      Cons(key, Cleaned(Get(bill, table[0].0)), rest)
  }

  /** One address value as `model_dump` emits it: kept when truthy and not
      empty once stripped, and then stripped. */
  function Cleaned(v: Option<string>): Option<Json> {
    if v.Some? && v.value != "" && Strip(v.value) != "" then Some(JStr(Strip(v.value))) else None
  }

  lemma AddressColumnsDistinct()
    ensures Distinct(Names(AddressColumns)) && Distinct(QboKeys(AddressColumns))
    ensures Names(AddressColumns) == DeclaredFields[3..]
  {
    assert QboKeys(AddressColumns) == ["Line1", "City", "CountrySubDivisionCode", "PostalCode"];
  }

  /** Every issue is located at one of the names. */
  predicate LocsIn(issues: seq<Issue>, names: seq<string>) {
    forall j :: 0 <= j < |issues| ==> issues[j].loc in names
  }

  lemma LocsInSuffix(issues: seq<Issue>, names: seq<string>, n: nat)
    requires n <= |names| && LocsIn(issues, names[n..])
    ensures LocsIn(issues, names)
  {
    forall j | 0 <= j < |issues| ensures issues[j].loc in names {
      var m :| 0 <= m < |names| - n && names[n..][m] == issues[j].loc;
      assert names[m + n] == issues[j].loc;
    }
  }

  lemma LocsInAppend(a: seq<Issue>, b: seq<Issue>, names: seq<string>)
    requires LocsIn(a, names) && LocsIn(b, names)
    ensures LocsIn(a + b, names)
  {
    assert forall j :: 0 <= j < |a + b| ==> (a + b)[j] == if j < |a| then a[j] else b[j - |a|];
  }

  /** The first three declared fields: name, e-mail, phone. */
  lemma DeclaredHeads()
    ensures DeclaredFields[0] == "DisplayName" && DeclaredFields[1] == "PrimaryEmailAddr" && DeclaredFields[2] == "PrimaryPhone"
  {
  }

  /** The refusals of `CustomerRow(**data)`: every field is checked and all
      of them are reported, in declaration order. */
  function RowIssues(data: Dict<Json>, syntax: EmailSyntax): (r: seq<Issue>)
    ensures r == [] <==>
              && CheckDisplayName(Get(data, "DisplayName")).Ok?
              && CheckEmail(Get(data, "PrimaryEmailAddr"), syntax).Ok?
              && OptionalText("PrimaryPhone", Get(data, "PrimaryPhone")).Ok?
              && forall i :: 0 <= i < |AddressColumns| ==> OptionalText(AddressColumns[i].0, Get(data, AddressColumns[i].0)).Ok?
    ensures LocsIn(r, DeclaredFields)
  {
    var dn := CheckDisplayName(Get(data, "DisplayName"));
    var em := CheckEmail(Get(data, "PrimaryEmailAddr"), syntax);
    var ph := OptionalText("PrimaryPhone", Get(data, "PrimaryPhone"));
    var billIssues := BillIssues(AddressColumns, data);
    var a := if dn.Err? then [dn.error] else [];
    var b := if em.Err? then [em.error] else [];
    var c := if ph.Err? then [ph.error] else [];
    DeclaredHeads();
    assert LocsIn(a, DeclaredFields) && LocsIn(b, DeclaredFields) && LocsIn(c, DeclaredFields);
    LocsInAppend(a, b, DeclaredFields);
    LocsInAppend(a + b, c, DeclaredFields);
    var head := a + b + c;
    AddressColumnsDistinct();
    LocsInSuffix(billIssues, DeclaredFields, 3);
    LocsInAppend(head, billIssues, DeclaredFields);
    head + billIssues
  }

  /** `CustomerRow(**data)`: the record when no field is refused, every
      refusal otherwise; extra keys are ignored. */
  function NewRow(data: Dict<Json>, syntax: EmailSyntax): (r: Result<CustomerRow, seq<Issue>>)
    ensures r.Ok? <==>
              && CheckDisplayName(Get(data, "DisplayName")).Ok?
              && CheckEmail(Get(data, "PrimaryEmailAddr"), syntax).Ok?
              && OptionalText("PrimaryPhone", Get(data, "PrimaryPhone")).Ok?
              && forall i :: 0 <= i < |AddressColumns| ==> OptionalText(AddressColumns[i].0, Get(data, AddressColumns[i].0)).Ok?
    ensures r.Err? ==> |r.error| > 0 && LocsIn(r.error, DeclaredFields)
    ensures r.Ok? ==> r.value.displayName == Get(data, "DisplayName").value.s
    ensures r.Ok? ==> r.value.email == if Given(Get(data, "PrimaryEmailAddr")).Some? then syntax(Given(Get(data, "PrimaryEmailAddr")).value) else None
    ensures r.Ok? ==> r.value.phone == Given(Get(data, "PrimaryPhone"))
    ensures r.Ok? ==> Unique(r.value.bill) && forall i :: 0 <= i < |AddressColumns| ==> Get(r.value.bill, AddressColumns[i].0) == Given(Get(data, AddressColumns[i].0))
  {
    var issues := RowIssues(data, syntax);
    if issues == [] then
      AddressColumnsDistinct();
      Ok(CustomerRow(CheckDisplayName(Get(data, "DisplayName")).value,
                     CheckEmail(Get(data, "PrimaryEmailAddr"), syntax).value,
                     OptionalText("PrimaryPhone", Get(data, "PrimaryPhone")).value,
                     BillGiven(AddressColumns, data)))
    else
      Err(issues)
  }

  /** The e-mail object, written when the checked address is truthy. */
  function EmailPart(row: CustomerRow): Option<Json> {
    if row.email.Some? && row.email.value != "" then Some(JObj([("Address", JStr(row.email.value))])) else None
  }

  /** The phone object, written when the phone is truthy and not empty once
      stripped; it holds the stripped phone. */
  function PhonePart(row: CustomerRow): Option<Json> {
    if row.phone.Some? && row.phone.value != "" && Strip(row.phone.value) != ""
    then Some(JObj([("FreeFormNumber", JStr(Strip(row.phone.value)))])) else None
  }

  /** The billing address object, written when at least one part survives. */
  function BillPart(row: CustomerRow): (r: Option<Json>)
    ensures r.Some? <==> exists i :: 0 <= i < |AddressColumns| && Cleaned(Get(row.bill, AddressColumns[i].0)).Some?
    ensures r.Some? ==> r.value.JObj? && Unique(r.value.fields)
    ensures r.Some? ==> forall i :: 0 <= i < |AddressColumns| ==> Get(r.value.fields, AddressColumns[i].1) == Cleaned(Get(row.bill, AddressColumns[i].0))
  {
    AddressColumnsDistinct();
    var bill := BillParts(AddressColumns, row.bill);
    if bill != [] then Some(JObj(bill)) else None
  }

  /** The output keys differ pairwise (they have different lengths). */
  lemma OutputKeysDistinct()
    ensures Distinct(OutputKeys)
  {
    assert |OutputKeys[0]| == 11 && |OutputKeys[1]| == 16 && |OutputKeys[2]| == 12 && |OutputKeys[3]| == 8;
  }

  /** A dict written key by key, in table order, skipping the keys without
      a value. */
  function Build(entries: seq<(string, Option<Json>)>): (r: Dict<Json>)
    requires Distinct(Names(entries))
    ensures Unique(r)
    ensures forall k :: HasKey(r, k) ==> k in Names(entries)
    ensures forall i :: 0 <= i < |entries| ==> Get(r, entries[i].0) == entries[i].1
    ensures |entries| > 0 && entries[0].1.Some? ==> |r| > 0 && r[0] == (entries[0].0, entries[0].1.value)
  {
    if |entries| == 0 then []
    else
      NamesTail(entries);
      var rest := Build(entries[1..]);
      assert forall i :: 0 < i < |entries| ==> entries[i] == entries[1..][i - 1];
      Cons(entries[0].0, entries[0].1, rest)
  }

  /** What `model_dump` writes, in order: DisplayName always, then the
      e-mail, phone and billing-address objects each when there is one. */
  function DumpEntries(row: CustomerRow): (es: seq<(string, Option<Json>)>)
    ensures Names(es) == OutputKeys
  {
    var es := [(OutputKeys[0], Some(JStr(row.displayName))), (OutputKeys[1], EmailPart(row)),
               (OutputKeys[2], PhonePart(row)), (OutputKeys[3], BillPart(row))];
    NamesOfFour(OutputKeys, Some(JStr(row.displayName)), EmailPart(row), PhonePart(row), BillPart(row));
    es
  }

  lemma NamesOfFour<T>(ks: seq<string>, a: T, b: T, c: T, d: T)
    requires |ks| == 4
    ensures Names([(ks[0], a), (ks[1], b), (ks[2], c), (ks[3], d)]) == ks
  {
    var es := [(ks[0], a), (ks[1], b), (ks[2], c), (ks[3], d)];
    assert forall i :: 0 <= i < 4 ==> Names(es)[i] == ks[i];
  }

  /** The custom `model_dump`: DisplayName always and first, then the
      e-mail, phone and billing-address objects each when there is one. */
  function ModelDump(row: CustomerRow): (r: Dict<Json>)
    ensures Unique(r)
    ensures |r| > 0 && r[0] == ("DisplayName", JStr(row.displayName))
    ensures forall i :: 0 <= i < 4 ==> Get(r, OutputKeys[i]) == DumpEntries(row)[i].1
  {
    OutputKeysDistinct();
    Build(DumpEntries(row))
  }

  /** `model_dump` writes no key besides the four output keys, so extra
      input fields never reach it. */
  lemma ModelDumpKeys(row: CustomerRow)
    ensures forall k :: HasKey(ModelDump(row), k) ==> k in OutputKeys
  {
    OutputKeysDistinct();
  }

  /** The e-mail and phone objects of the dump. */
  lemma ModelDumpContact(row: CustomerRow)
    ensures Get(ModelDump(row), "PrimaryEmailAddr") ==
              if row.email.Some? && row.email.value != "" then Some(JObj([("Address", JStr(row.email.value))])) else None
    ensures Get(ModelDump(row), "PrimaryPhone") ==
              if row.phone.Some? && Strip(row.phone.value) != "" then Some(JObj([("FreeFormNumber", JStr(Strip(row.phone.value)))])) else None
  {
    assert OutputKeys[1] == "PrimaryEmailAddr" && OutputKeys[2] == "PrimaryPhone";
  }

  /** The billing-address object of the dump: present exactly when one of
      the four columns survives the strip, and then holding every
      surviving column, stripped, under its address key. */
  lemma ModelDumpAddress(row: CustomerRow)
    ensures Get(ModelDump(row), "BillAddr").Some? <==>
              exists i :: 0 <= i < |AddressColumns| && Cleaned(Get(row.bill, AddressColumns[i].0)).Some?
    ensures Get(ModelDump(row), "BillAddr").Some? ==>
              var b := Get(ModelDump(row), "BillAddr").value;
              b.JObj? && Unique(b.fields)
              && forall i :: 0 <= i < |AddressColumns| ==> Get(b.fields, AddressColumns[i].1) == Cleaned(Get(row.bill, AddressColumns[i].0))
  {
    assert OutputKeys[3] == "BillAddr";
  }

  // ------------------------------------------------------------ properties

  /** From the input to the dump: DisplayName first and exactly as given;
      the e-mail object exactly when a non-blank address was given and its
      checked form is not empty; the phone object exactly when a non-blank
      phone was given, holding it stripped. */
  lemma DumpContactFromInput(data: Dict<Json>, syntax: EmailSyntax)
    requires NewRow(data, syntax).Ok?
    ensures var d := ModelDump(NewRow(data, syntax).value);
            && d[0] == ("DisplayName", Get(data, "DisplayName").value)
            && (Get(d, "PrimaryEmailAddr").Some? <==>
                Given(Get(data, "PrimaryEmailAddr")).Some? && syntax(Given(Get(data, "PrimaryEmailAddr")).value) != Some(""))
            && Get(d, "PrimaryPhone") ==
               (match Given(Get(data, "PrimaryPhone"))
                case None => None
                case Some(p) => Some(JObj([("FreeFormNumber", JStr(Strip(p)))])))
  {
    var row := NewRow(data, syntax).value;
    ModelDumpContact(row);
    var g := Given(Get(data, "PrimaryPhone"));
    if g.Some? { assert g.value != ""; }
  }

  /** From the input to the dump: each billing part exactly when a
      non-blank value was given for its column, stripped, and no billing
      address at all when none was. */
  lemma DumpAddressFromInput(data: Dict<Json>, syntax: EmailSyntax)
    requires NewRow(data, syntax).Ok?
    ensures Get(ModelDump(NewRow(data, syntax).value), "BillAddr").None? <==>
              forall i :: 0 <= i < |AddressColumns| ==> Given(Get(data, AddressColumns[i].0)).None?
    ensures var b := Get(ModelDump(NewRow(data, syntax).value), "BillAddr");
            b.Some? ==> b.value.JObj? && forall i :: 0 <= i < |AddressColumns| ==>
                  Get(b.value.fields, AddressColumns[i].1) ==
                  (match Given(Get(data, AddressColumns[i].0))
                   case None => None
                   case Some(s) => Some(JStr(Strip(s))))
  {
    var row := NewRow(data, syntax).value;
    ModelDumpAddress(row);
    forall i | 0 <= i < |AddressColumns|
      ensures Cleaned(Get(row.bill, AddressColumns[i].0)) == Cleaned(Given(Get(data, AddressColumns[i].0)))
    {
    }
    forall i | 0 <= i < |AddressColumns|
      ensures Cleaned(Given(Get(data, AddressColumns[i].0))).None? <==> Given(Get(data, AddressColumns[i].0)).None?
    {
      CleanedOfGiven(Get(data, AddressColumns[i].0));
    }
    forall i | 0 <= i < |AddressColumns|
      ensures Cleaned(Given(Get(data, AddressColumns[i].0))) ==
              match Given(Get(data, AddressColumns[i].0))
              case None => None
              case Some(s) => Some(JStr(Strip(s)))
    {
      CleanedOfGiven(Get(data, AddressColumns[i].0));
    }
  }

  /** A given (non-blank) value survives `model_dump`'s strip. */
  lemma CleanedOfGiven(v: Option<Json>)
    ensures Cleaned(Given(v)) == match Given(v)
                                 case None => None
                                 case Some(s) => Some(JStr(Strip(s)))
  {
    if Given(v).Some? { assert Given(v).value != ""; }
  }

  /** `CustomerRow` reads only the declared fields. */
  lemma NewRowFrame(a: Dict<Json>, b: Dict<Json>, syntax: EmailSyntax)
    requires forall i :: 0 <= i < |DeclaredFields| ==> Get(a, DeclaredFields[i]) == Get(b, DeclaredFields[i])
    ensures NewRow(a, syntax) == NewRow(b, syntax)
  {
    AddressColumnsDistinct();
    DeclaredHeads();
    assert Get(a, DeclaredFields[0]) == Get(b, DeclaredFields[0]);
    assert Get(a, DeclaredFields[1]) == Get(b, DeclaredFields[1]);
    assert Get(a, DeclaredFields[2]) == Get(b, DeclaredFields[2]);
    forall i | 0 <= i < |AddressColumns| ensures Get(a, AddressColumns[i].0) == Get(b, AddressColumns[i].0) {
      assert AddressColumns[i].0 == DeclaredFields[i + 3];
    }
    BillColumnsFrame(AddressColumns, a, b);
  }

  /** A key that is not a declared field changes nothing: the row is
      accepted or refused, and read, exactly as without it. */
  lemma ExtraKeysIgnored(data: Dict<Json>, syntax: EmailSyntax, k: string, v: Json)
    requires k !in DeclaredFields
    ensures NewRow(Put(data, k, v), syntax) == NewRow(data, syntax)
  {
    NewRowFrame(Put(data, k, v), data, syntax);
  }

  /** The billing columns read only the columns of the table. */
  lemma {:induction false} BillColumnsFrame(table: seq<(string, string)>, a: Dict<Json>, b: Dict<Json>)
    requires Distinct(Names(table))
    requires forall i :: 0 <= i < |table| ==> Get(a, table[i].0) == Get(b, table[i].0)
    ensures BillGiven(table, a) == BillGiven(table, b)
    ensures BillIssues(table, a) == BillIssues(table, b)
  {
    if |table| > 0 {
      NamesTail(table);
      assert forall i :: 0 < i < |table| ==> table[i] == table[1..][i - 1];
      BillColumnsFrame(table[1..], a, b);
    }
  }

  /** DisplayName is not coerced: a whitespace-only name of allowed length
      is accepted and emitted first as it is, unlike in the canonical
      record. */
  lemma BlankDisplayNameKept(data: Dict<Json>, syntax: EmailSyntax, name: string)
    requires name != "" && |name| <= DisplayNameMax && IsBlank(name)
    requires Keys(data) == ["DisplayName"] && Get(data, "DisplayName") == Some(JStr(name))
    ensures NewRow(data, syntax).Ok?
    ensures ModelDump(NewRow(data, syntax).value)[0] == ("DisplayName", JStr(name))
  {
    AddressColumnsDistinct();
    forall k | k != "DisplayName" ensures Get(data, k) == None {
      assert !HasKey(data, k);
    }
  }
}

=== FILE: store.dfy ===
/** The two persistent records the pipeline works on, an import job and its
    rows, and the saved mapping templates. The database itself is not
    modelled: a job carries its rows as a sequence in store order. */
module Store {
  import opened Wrappers
  import opened Dict
  import opened Json
  import opened Jsonb

  /** The job's status column. `Failed` is stored as "error". */
  datatype JobStatus =
    | Uploaded
    | Queued
    | Parsing
    | Validating
    | Importing
    | Failed
    | Completed
    | PartialSuccess

  function JobStatusName(s: JobStatus): string {
    match s
    case Uploaded => "uploaded"
    case Queued => "queued"
    case Parsing => "parsing"
    case Validating => "validating"
    case Importing => "importing"
    case Failed => "error"
    case Completed => "completed"
    case PartialSuccess => "partial_success"
  }

  /** The row's status column. */
  datatype RowStatus = Pending | Valid | Error | Success

  function RowStatusName(s: RowStatus): string {
    match s
    case Pending => "pending"
    case Valid => "valid"
    case Error => "error"
    case Success => "success"
  }

  /** One CSV data row: its line number in the file, the cells keyed by
      header, and what validation and import made of it. */
  datatype JobRow = JobRow(
    rowNumber: int,
    rawData: Dict<string>,
    status: RowStatus,
    error: Option<string>,
    payload: Option<Dict<Json>>)

  datatype Job = Job(
    id: int,
    owner: int,
    objectType: string,
    status: JobStatus,
    meta: Dict<Json>,
    rows: seq<JobRow>)

  /** An `HTTPException`: status code and detail. */
  datatype HttpError = HttpError(status: int, detail: string)

  /** `Job.get_or_none(id=id, user=user)`: the job with that id, provided it
      belongs to the user. Ids are primary keys, so at most one job has a
      given id. */
  function FindJob(jobs: seq<Job>, id: int, user: int): (r: Option<Job>)
    ensures r.Some? ==> r.value in jobs && r.value.id == id && r.value.owner == user
    ensures r.None? ==> forall i :: 0 <= i < |jobs| ==> jobs[i].id != id || jobs[i].owner != user
  {
    if |jobs| == 0 then None
    else if jobs[0].id == id && jobs[0].owner == user then Some(jobs[0])
    else FindJob(jobs[1..], id, user)
  }

  /** A saved column mapping. */
  datatype Template = Template(objectType: string, mapping: Dict<string>)

  /** How many rows have status `s`. */
  function CountStatus(rows: seq<JobRow>, s: RowStatus): (n: nat)
    ensures n <= |rows|
  {
    if |rows| == 0 then 0
    else (if rows[0].status == s then 1 else 0) + CountStatus(rows[1..], s)
  }

  /** Counting over two runs of rows adds up. */
  lemma {:induction false} CountAppend(a: seq<JobRow>, b: seq<JobRow>, s: RowStatus)
    ensures CountStatus(a + b, s) == CountStatus(a, s) + CountStatus(b, s)
  {
    if |a| == 0 {
      assert a + b == b;
    } else {
      assert (a + b)[1..] == a[1..] + b;
      CountAppend(a[1..], b, s);
    }
  }

  /** No row is counted under two statuses, so the per-status counts never
      add up to more than the rows there are. */
  lemma {:induction false} CountsBounded(rows: seq<JobRow>)
    ensures CountStatus(rows, Valid) + CountStatus(rows, Error) + CountStatus(rows, Success) + CountStatus(rows, Pending) == |rows|
  {
    if |rows| > 0 {
      CountsBounded(rows[1..]);
    }
  }

  /** A row with status `s` exists exactly when the count is positive. */
  lemma {:induction false} CountPositive(rows: seq<JobRow>, s: RowStatus)
    ensures CountStatus(rows, s) > 0 <==> exists i :: 0 <= i < |rows| && rows[i].status == s
  {
    if |rows| > 0 {
      CountPositive(rows[1..], s);
      if CountStatus(rows[1..], s) > 0 {
        var i :| 0 <= i < |rows[1..]| && rows[1..][i].status == s;
        assert rows[i + 1].status == s;
      }
      if exists i :: 0 <= i < |rows| && rows[i].status == s {
        var i :| 0 <= i < |rows| && rows[i].status == s;
        if i > 0 {
          assert rows[1..][i - 1].status == s;
        }
      }
    }
  }

  // ------------------------------------------------ the mapping in `meta`

  /** The JSON object a `dict[str, str]` mapping is stored as. */
  function MappingJson(m: Dict<string>): (j: Json)
    ensures j.JObj? && |j.fields| == |m|
    ensures forall i :: 0 <= i < |m| ==> j.fields[i] == (m[i].0, JStr(m[i].1))
  {
    if |m| == 0 then JObj([])
    else JObj([(m[0].0, JStr(m[0].1))] + MappingJson(m[1..]).fields)
  }

  /** The string-valued entries of a stored object as the `jsonb` column
      gives them back, in its key order; any other stored value reads as an
      empty mapping. */
  function MappingOf(j: Json): (m: Dict<string>)
    ensures |m| <= (if j.JObj? then |j.fields| else 0)
    ensures Ordered(m)
    ensures j.JObj? && Unique(j.fields) ==>
              forall k, s :: (k, s) in m <==> Get(j.fields, k) == Some(JStr(s))
  {
    if !j.JObj? then []
    else
      ReadBack(j.fields);
      Reorder(StringEntries(j.fields))
  }

  /** What `MappingOf` promises about a stored object's fields. */
  lemma ReadBack(fields: Dict<Json>)
    ensures Ordered(Reorder(StringEntries(fields)))
    ensures Unique(fields) ==>
              forall k, s :: (k, s) in Reorder(StringEntries(fields)) <==> Get(fields, k) == Some(JStr(s))
  {
    ReorderEntries(StringEntries(fields));
    if Unique(fields) {
      StringEntriesGet(fields);
    }
  }

  /** The entries of `fields` whose value is a string, in order. */
  function StringEntries(fields: Dict<Json>): (m: Dict<string>)
    ensures |m| <= |fields|
    ensures forall i :: 0 <= i < |m| ==> (m[i].0, JStr(m[i].1)) in fields
    ensures (forall i :: 0 <= i < |fields| ==> fields[i].1.JStr?) ==>
              |m| == |fields| && forall i :: 0 <= i < |m| ==> m[i] == (fields[i].0, fields[i].1.s)
  {
    if |fields| == 0 then []
    else
      var rest := StringEntries(fields[1..]);
      if fields[0].1.JStr? then [(fields[0].0, fields[0].1.s)] + rest else rest
  }

  /** Of a dictionary without repeated keys, the string entries are the
      entries with a string value. */
  lemma {:induction false} StringEntriesGet(fields: Dict<Json>)
    requires Unique(fields)
    ensures forall k, s :: Get(StringEntries(fields), k) == Some(s) <==> Get(fields, k) == Some(JStr(s))
  {
    if |fields| > 0 {
      GetFirst(fields);
      StringEntriesGet(fields[1..]);
      var rest := StringEntries(fields[1..]);
      forall k, s ensures Get(StringEntries(fields), k) == Some(s) <==> Get(fields, k) == Some(JStr(s)) {
        if fields[0].1.JStr? {
          GetPrepend(fields[0].0, fields[0].1.s, rest, k);
        }
      }
    }
  }

  /** A mapping stored in `meta` reads back in `jsonb`'s key order, every
      key still giving its value. */
  lemma MappingRoundTrip(m: Dict<string>)
    ensures MappingOf(MappingJson(m)) == Reorder(m)
    ensures forall k :: Get(MappingOf(MappingJson(m)), k) == Get(m, k)
  {
    MappingReordered(m);
    ReorderGet(m);
  }

  /** A stored mapping reads back as its reordering. */
  lemma MappingReordered(m: Dict<string>)
    ensures MappingOf(MappingJson(m)) == Reorder(m)
  {
    MappingStrings(m);
  }

  /** Every stored value of a mapping is a string, so all entries are read. */
  lemma MappingStrings(m: Dict<string>)
    ensures StringEntries(MappingJson(m).fields) == m
  {
    var f := MappingJson(m).fields;
    assert forall i :: 0 <= i < |f| ==> f[i].1.JStr?;
  }
}

=== FILE: text.dfy ===
/** String helpers with Python's meaning: `str.strip`, `str.lower` on the
    characters the pipeline compares, `str.count`, `str.split(sep, 1)`,
    slicing and `str(int)`. Strings are sequences of Unicode scalar values,
    which is what Python's `len` and indexing count. */
module Text {
  import opened Wrappers

  /** Python's `str.isspace` for one character: the C0 separators and
      controls 0x09-0x0D and 0x1C-0x1F, the space, NEL, NBSP and the Unicode
      space separators. */
  predicate IsSpace(c: char) {
    var n := c as int;
    || (9 <= n <= 13)
    || (0x1C <= n <= 0x20)
    || n == 0x85 || n == 0xA0 || n == 0x1680
    || (0x2000 <= n <= 0x200A)
    || n == 0x2028 || n == 0x2029 || n == 0x202F || n == 0x205F || n == 0x3000
  }

  /** The string is empty or consists of whitespace only. */
  predicate IsBlank(s: string) {
    forall i :: 0 <= i < |s| ==> IsSpace(s[i])
  }

  /** Leading whitespace removed. */
  function TrimStart(s: string): (r: string)
    ensures |r| <= |s| && r == s[|s| - |r|..]
    ensures forall i :: 0 <= i < |s| - |r| ==> IsSpace(s[i])
    ensures |r| > 0 ==> !IsSpace(r[0])
    decreases |s|
  {
    if |s| > 0 && IsSpace(s[0]) then TrimStart(s[1..]) else s
  }

  /** Trailing whitespace removed. */
  function TrimEnd(s: string): (r: string)
    ensures |r| <= |s| && r == s[..|r|]
    ensures forall i :: |r| <= i < |s| ==> IsSpace(s[i])
    ensures |r| > 0 ==> !IsSpace(r[|r| - 1])
    decreases |s|
  {
    if |s| > 0 && IsSpace(s[|s| - 1]) then TrimEnd(s[..|s| - 1]) else s
  }

  /** Python's `s.strip()`. */
  function Strip(s: string): (r: string)
    ensures |r| <= |s|
    ensures r == "" <==> IsBlank(s)
    ensures |r| > 0 ==> !IsSpace(r[0]) && !IsSpace(r[|r| - 1])
  {
    var t := TrimStart(s);
    var r := TrimEnd(t);
    assert r == "" ==> IsBlank(s) by {
      if r == "" {
        assert t == "";
      }
    }
    r
  }

  /** A string without whitespace at either end is its own strip. */
  lemma StripUnchanged(s: string)
    requires |s| > 0 ==> !IsSpace(s[0]) && !IsSpace(s[|s| - 1])
    ensures Strip(s) == s
  {
  }

  /** Stripping twice is stripping once. */
  lemma StripIdempotent(s: string)
    ensures Strip(Strip(s)) == Strip(s)
  {
    StripUnchanged(Strip(s));
  }

  /** ASCII upper-case letters lowered; every other character unchanged. */
  function LowerChar(c: char): (r: char)
    ensures 'A' <= c <= 'Z' ==> r as int == c as int + 32
    ensures !('A' <= c <= 'Z') ==> r == c
  {
    if 'A' <= c <= 'Z' then (c as int + 32) as char else c
  }

  /** Python's `s.lower()` restricted to ASCII letters, which decides every
      comparison the pipeline makes (against "true", "yes", "customer", "http"...). */
  function Lower(s: string): (r: string)
    ensures |r| == |s|
    ensures forall i :: 0 <= i < |s| ==> r[i] == LowerChar(s[i])
  {
    seq(|s|, i requires 0 <= i < |s| => LowerChar(s[i]))
  }

  predicate StartsWith(s: string, prefix: string) {
    |prefix| <= |s| && s[..|prefix|] == prefix
  }

  predicate EndsWith(s: string, suffix: string) {
    |suffix| <= |s| && s[|s| - |suffix|..] == suffix
  }

  /** `re.search(r'\.\.', s)` finds a match. */
  predicate HasDoubleDot(s: string) {
    exists i :: 0 <= i < |s| - 1 && s[i] == '.' && s[i + 1] == '.'
  }

  /** Python's `s.count(c)` for a one-character needle. */
  function Count(s: string, c: char): (n: nat)
    ensures n == multiset(s)[c]
  {
    if |s| == 0 then 0
    else
      assert s == [s[0]] + s[1..];
      (if s[0] == c then 1 else 0) + Count(s[1..], c)
  }

  /** Position of the first occurrence of `c`, if any. */
  function IndexOf(s: string, c: char): (r: Option<nat>)
    ensures r.None? <==> c !in s
    ensures r.Some? ==> r.value < |s| && s[r.value] == c && c !in s[..r.value]
  {
    if |s| == 0 then None
    else if s[0] == c then Some(0)
    else
      match IndexOf(s[1..], c)
      case None => None
      case Some(i) =>
        assert s[..i + 1] == [s[0]] + s[1..][..i];
        Some(i + 1)
  }

  /** The first occurrence inside a prefix is the first occurrence overall. */
  lemma {:induction false} IndexOfAppend(p: string, q: string, c: char)
    requires c in p
    ensures IndexOf(p + q, c) == IndexOf(p, c)
  {
    if p[0] != c {
      assert (p + q)[1..] == p[1..] + q;
      IndexOfAppend(p[1..], q, c);
    }
  }

  /** Python's `s.split(sep, 1)` when `sep` occurs: the text before the first
      separator and the text after it. */
  function SplitFirst(s: string, sep: char): (r: (string, string))
    requires sep in s
    ensures s == r.0 + [sep] + r.1
    ensures sep !in r.0
  {
    var i := IndexOf(s, sep).value;
    assert s == s[..i] + [sep] + s[i + 1..];
    (s[..i], s[i + 1..])
  }

  /** Python's slice `s[:n]`. */
  function Take(s: string, n: nat): (r: string)
    ensures |r| <= n && StartsWith(s, r)
    ensures |s| <= n ==> r == s
    ensures |s| > n ==> |r| == n
  {
    if |s| <= n then s else s[..n]
  }

  function DigitChar(d: nat): (c: char)
    requires d < 10
    ensures '0' <= c <= '9' && c as int - '0' as int == d
  {
    ('0' as int + d) as char
  }

  /** The number a run of decimal digits denotes. */
  function DigitsValue(s: string): nat
    requires forall i :: 0 <= i < |s| ==> '0' <= s[i] <= '9'
  {
    if |s| == 0 then 0
    else 10 * DigitsValue(s[..|s| - 1]) + (s[|s| - 1] as int - '0' as int)
  }

  /** Python's `str(n)` for a natural number. */
  function NatToString(n: nat): (r: string)
    ensures |r| >= 1
    ensures forall i :: 0 <= i < |r| ==> '0' <= r[i] <= '9'
    ensures |r| > 1 ==> r[0] != '0'
  {
    if n < 10 then [DigitChar(n)] else NatToString(n / 10) + [DigitChar(n % 10)]
  }

  /** Reading back what `NatToString` wrote gives the number again. */
  lemma {:induction false} NatToStringRoundTrip(n: nat)
    ensures DigitsValue(NatToString(n)) == n
  {
    if n >= 10 {
      var r := NatToString(n);
      assert r[..|r| - 1] == NatToString(n / 10);
      NatToStringRoundTrip(n / 10);
    }
  }

  /** Python's `str(i)` for an integer. */
  function IntToString(i: int): string {
    if i >= 0 then NatToString(i) else "-" + NatToString(-i)
  }
}

=== FILE: url.dfy ===
/** The part of `urllib.parse.urlparse` the website check reads: the scheme
    (section 3.1 of RFC 3986) and the authority, which Python calls `netloc`
    (section 3.2 of RFC 3986). */
module Url {
  import opened Wrappers
  import opened Text

  datatype Parts = Parts(scheme: string, netloc: string)

  predicate IsAsciiLetter(c: char) {
    'a' <= c <= 'z' || 'A' <= c <= 'Z'
  }

  /** Characters allowed in a scheme: ALPHA / DIGIT / "+" / "-" / ".". */
  predicate IsSchemeChar(c: char) {
    IsAsciiLetter(c) || '0' <= c <= '9' || c == '+' || c == '-' || c == '.'
  }

  /** The text before the first ':' is a scheme: it is non-empty, starts with
      a letter and holds scheme characters only. */
  predicate HasScheme(url: string) {
    var i := IndexOf(url, ':');
    && i.Some? && i.value > 0
    && IsAsciiLetter(url[0])
    && forall j :: 0 <= j < i.value ==> IsSchemeChar(url[j])
  }

  /** Length of the authority at the start of `rest`: up to the first '/',
      '?' or '#', or to the end. */
  function AuthorityLength(rest: string): (n: nat)
    ensures n <= |rest|
    ensures forall j :: 0 <= j < n ==> rest[j] !in "/?#"
    ensures n < |rest| ==> rest[n] in "/?#"
  {
    if |rest| == 0 || rest[0] in "/?#" then 0 else 1 + AuthorityLength(rest[1..])
  }

  /** `urlsplit` first drops leading C0 control characters and spaces (code
      points up to U+0020). */
  function LStripControl(s: string): (r: string)
    ensures |r| <= |s| && r == s[|s| - |r|..]
    ensures r == [] || r[0] > ' '
    ensures forall i :: 0 <= i < |s| - |r| ==> s[i] <= ' '
  {
    if |s| == 0 || s[0] > ' ' then s else LStripControl(s[1..])
  }

  /** The characters `urlsplit` removes wherever they occur. */
  const Unsafe: string := "\t\r\n"

  /** `url` with every tab, carriage return and line feed removed. */
  function RemoveUnsafe(s: string): (r: string)
    ensures |r| <= |s|
    ensures forall i :: 0 <= i < |r| ==> r[i] !in Unsafe
  {
    if |s| == 0 then s
    else (if s[0] in Unsafe then [] else [s[0]]) + RemoveUnsafe(s[1..])
  }

  /** Every other character keeps its number of occurrences. */
  lemma {:induction false} RemoveUnsafeKeeps(s: string)
    ensures forall c :: c !in Unsafe ==> multiset(RemoveUnsafe(s))[c] == multiset(s)[c]
  {
    if |s| > 0 {
      RemoveUnsafeKeeps(s[1..]);
      assert s == [s[0]] + s[1..];
    }
  }

  /** Nothing is added: every character left was there before. */
  lemma {:induction false} RemoveUnsafeFrom(s: string)
    ensures forall c :: c in RemoveUnsafe(s) ==> c in s
  {
    if |s| > 0 {
      RemoveUnsafeFrom(s[1..]);
      assert s == [s[0]] + s[1..];
    }
  }

  /** A first character that stays keeps the text non-empty. */
  lemma RemoveUnsafeNonEmpty(s: string)
    requires |s| > 0 && s[0] !in Unsafe
    ensures RemoveUnsafe(s) != []
  {
  }

  /** Text without those characters is left as it is. */
  lemma {:induction false} RemoveUnsafeNone(s: string)
    requires forall i :: 0 <= i < |s| ==> s[i] !in Unsafe
    ensures RemoveUnsafe(s) == s
  {
    if |s| > 0 {
      RemoveUnsafeNone(s[1..]);
      assert s == [s[0]] + s[1..];
    }
  }

  /** Removing the unsafe characters works piece by piece. */
  lemma {:induction false} RemoveUnsafeAppend(p: string, q: string)
    ensures RemoveUnsafe(p + q) == RemoveUnsafe(p) + RemoveUnsafe(q)
  {
    if |p| > 0 {
      assert (p + q)[0] == p[0] && (p + q)[1..] == p[1..] + q;
      RemoveUnsafeAppend(p[1..], q);
    } else {
      assert p + q == q;
    }
  }

  /** The text `urlsplit` goes on to parse. */
  function Prepared(url: string): string {
    RemoveUnsafe(LStripControl(url))
  }

  /** Scheme (lower-cased, empty when there is none) and authority (empty
      unless the hierarchical part starts with "//") of already prepared
      text. */
  function Components(url: string): (p: Parts)
    ensures !HasScheme(url) ==> p.scheme == ""
    ensures HasScheme(url) ==> p.scheme != "" && p.scheme == Lower(url[..IndexOf(url, ':').value])
    ensures forall j :: 0 <= j < |p.netloc| ==> p.netloc[j] !in "/?#"
  {
    var scheme := if HasScheme(url) then Lower(url[..IndexOf(url, ':').value]) else "";
    var rest := if HasScheme(url) then url[IndexOf(url, ':').value + 1..] else url;
    var netloc := if StartsWith(rest, "//") then rest[2..2 + AuthorityLength(rest[2..])] else "";
    Parts(scheme, netloc)
  }

  /** An authority with an opening bracket and no closing one, or the other
      way round. */
  predicate UnbalancedBrackets(netloc: string) {
    ('[' in netloc) != (']' in netloc)
  }

  /** The `ValueError` text `urlsplit` raises for such an authority. */
  const InvalidIPv6: string := "Invalid IPv6 URL"

  /** `urlsplit`: the scheme and authority of the prepared text, or the
      error it raises when the authority's brackets do not pair up. */
  function Split(url: string): (r: Result<Parts, string>)
    ensures var t := Prepared(url);
            && (!HasScheme(t) && r.Ok? ==> r.value.scheme == "")
            && (HasScheme(t) && r.Ok? ==> r.value.scheme == Lower(t[..IndexOf(t, ':').value]))
    ensures r.Ok? ==> !UnbalancedBrackets(r.value.netloc)
    ensures r.Err? <==> UnbalancedBrackets(Components(Prepared(url)).netloc)
    ensures r.Err? ==> r.error == InvalidIPv6
  {
    var p := Components(Prepared(url));
    if UnbalancedBrackets(p.netloc) then Err(InvalidIPv6) else Ok(p)
  }

  /** A string that starts with "https:" has the scheme "https" ending at
      position 5. */
  lemma HttpsScheme(s: string)
    ensures IndexOf("https:" + s, ':') == Some(5)
    ensures HasScheme("https:" + s)
  {
    var u := "https:" + s;
    assert IndexOf("https:", ':') == Some(5);
    IndexOfAppend("https:", s, ':');
    assert forall j :: 0 <= j < 5 ==> u[j] == "https"[j];
  }

  /** After "https://" is put in front of a string, the scheme is "https"
      and the authority is the string's text, tabs and line breaks removed, up
      to its first '/', '?' or '#' — unless that authority's brackets do not
      pair up, which raises. */
  lemma SplitHttpsPrefixed(s: string)
    ensures var t := RemoveUnsafe(s);
            var a := t[..AuthorityLength(t)];
            Split("https://" + s) == if UnbalancedBrackets(a) then Err(InvalidIPv6) else Ok(Parts("https", a))
  {
    var t := RemoveUnsafe(s);
    PreparedHttps(s);
    ComponentsHttpsPrefixed(t);
  }

  /** Preparing "https://" + s only removes the unsafe characters of s. */
  lemma PreparedHttps(s: string)
    ensures Prepared("https://" + s) == "https://" + RemoveUnsafe(s)
  {
    var u := "https://" + s;
    assert u[0] == 'h';
    assert LStripControl(u) == u;
    RemoveUnsafeAppend("https://", s);
    RemoveUnsafeHttps();
  }

  /** The components of "https://" + t: the https scheme and t up to its
      first '/', '?' or '#'. */
  lemma ComponentsHttpsPrefixed(t: string)
    ensures Components("https://" + t) == Parts("https", t[..AuthorityLength(t)])
  {
    HttpsPrefixed(t);
    HttpsScheme("//" + t);
    LowerHttps();
  }

  /** "https://" holds nothing `urlsplit` removes. */
  lemma RemoveUnsafeHttps()
    ensures RemoveUnsafe("https://") == "https://"
  {
    RemoveUnsafeNone("https://");
  }

  /** How "https://" + s splits up as a sequence. */
  lemma HttpsPrefixed(s: string)
    ensures "https://" + s == "https:" + ("//" + s)
    ensures ("https://" + s)[..5] == "https"
    ensures ("https://" + s)[6..] == "//" + s
    ensures StartsWith("//" + s, "//") && ("//" + s)[2..] == s
  {
    assert ("//" + s)[..2] == "//";
  }

  /** "https" is already lower-case. */
  lemma LowerHttps()
    ensures Lower("https") == "https"
  {
    var h := "https";
    assert forall i :: 0 <= i < 5 ==> 'a' <= h[i] <= 'z';
  }

  /** A bracket without its partner in the authority makes `urlsplit`
      raise. */
  lemma SplitUnpairedBracket(s: string)
    requires s == "[foo"
    ensures Split("https://" + s) == Err(InvalidIPv6)
  {
    SplitHttpsPrefixed(s);
    UnpairedBracketAuthority(s);
    assert s[0] == '[';
  }

  /** "[foo" is its own authority. */
  lemma UnpairedBracketAuthority(s: string)
    requires s == "[foo"
    ensures RemoveUnsafe(s)[..AuthorityLength(RemoveUnsafe(s))] == s
  {
    RemoveUnsafeNone(s);
    assert AuthorityLength(s) == 4;
  }

  /** A tab, carriage return or line feed is dropped before anything is
      read, so "ht\ttps://x" splits like "https://x". */
  lemma SplitIgnoresUnsafe(p: string, c: char, q: string)
    requires p != [] && p[0] > ' ' && c in Unsafe
    ensures Split(p + [c] + q) == Split(p + q)
  {
    PreparedIgnoresUnsafe(p, c, q);
  }

  /** The prepared text is the same with or without such a character. */
  lemma PreparedIgnoresUnsafe(p: string, c: char, q: string)
    requires p != [] && p[0] > ' ' && c in Unsafe
    ensures Prepared(p + [c] + q) == Prepared(p + q)
  {
    assert (p + [c] + q)[0] == p[0] && (p + q)[0] == p[0];
    assert LStripControl(p + [c] + q) == p + [c] + q;
    assert LStripControl(p + q) == p + q;
    RemoveUnsafeAppend(p + [c], q);
    RemoveUnsafeAppend(p, [c]);
    RemoveUnsafeAppend(p, q);
    assert RemoveUnsafe([c]) == [] by {
      assert [c][1..] == [];
    }
  }

  /** Text with no ':' and no '/' has neither a scheme nor an authority. */
  lemma SplitBare(s: string)
    requires ':' !in s && '/' !in s
    ensures Split(s) == Ok(Parts("", ""))
  {
    var l := LStripControl(s);
    assert forall c :: c in l ==> c in s;
    RemoveUnsafeFrom(l);
    var t := Prepared(s);
    assert ':' !in t && '/' !in t;
    assert !HasScheme(t);
    assert !StartsWith(t, "//");
  }
}

=== FILE: worker.dfy ===
/** The import worker, `import_valid_rows_task`: parse the uploaded rows into
    numbered pending rows, validate each into a QuickBooks payload, post the
    valid ones and record the outcome. The database, the broadcasts and the
    HTTP client are effects: the parsed CSV records, the e-mail syntax
    check, the text of a validation error, whether a client could be built
    and the reply to each row's request are parameters. */
module Worker {
  import opened Wrappers
  import opened Text
  import opened Dict
  import opened Json
  import opened Customer
  import opened Normalize
  import opened Store
  import opened Jsonb

  /** The only object type the worker imports. */
  const SupportedType := "customer"

  /** CSV line of the first data row: line 1 holds the headers. */
  const FirstDataLine: int := 2

  /** How much of an unparsed error reply is kept. */
  const ReplyTextLimit: nat := 1000

  // ---------------------------------------------------------------- parse

  /** Pending rows for the records, numbered upwards from `first`. */
  function NumberRows(records: seq<Dict<string>>, first: int): (rows: seq<JobRow>)
    ensures |rows| == |records|
    ensures forall i :: 0 <= i < |rows| ==> rows[i] == JobRow(first + i, records[i], Pending, None, None)
  {
    if |records| == 0 then []
    else [JobRow(first, records[0], Pending, None, None)] + NumberRows(records[1..], first + 1)
  }

  /** The parsing phase: one pending row per record, numbered from line 2,
      after the rows the job already has; `row_count` becomes the number of
      records; the job moves on to validating. */
  function Parse(job: Job, records: seq<Dict<string>>): (j: Job)
    ensures |j.rows| == |job.rows| + |records| && j.rows[..|job.rows|] == job.rows
    ensures forall i :: 0 <= i < |records| ==>
              j.rows[|job.rows| + i] == JobRow(FirstDataLine + i, records[i], Pending, None, None)
    ensures Get(j.meta, "row_count") == Some(JInt(|records|))
    ensures forall k :: k != "row_count" ==> Get(j.meta, k) == Get(job.meta, k)
    ensures j.status == Validating && j.id == job.id && j.owner == job.owner && j.objectType == job.objectType
  {
    var rows := job.rows + NumberRows(records, FirstDataLine);
    assert rows[..|job.rows|] == job.rows;
    job.(status := Validating, rows := rows, meta := Put(job.meta, "row_count", JInt(|records|)))
  }

  /** The exit for an object type other than "customer". */
  function Unsupported(job: Job, objectType: string): (j: Job)
    ensures j.status == Failed && j.rows == job.rows
    ensures Get(j.meta, "error") == Some(JStr("Unsupported object_type: " + objectType))
    ensures forall k :: k != "error" ==> Get(j.meta, k) == Get(job.meta, k)
  {
    job.(status := Failed, meta := Put(job.meta, "error", JStr("Unsupported object_type: " + objectType)))
  }

  // -------------------------------------------------------------- mapping

  /** The mapping stored by the start request, `{}` when there is none. */
  function StoredMapping(meta: Dict<Json>): Json {
    Get(meta, "mapping").GetOr(JObj([]))
  }

  /** The mapping the worker uses: the stored one, unless it is empty while
      a template id is set and the template found for it (`template`) is a
      customer template, in which case the template's mapping. Both are read
      back from `jsonb` columns, so they come in that column's key order. */
  function MappingFor(meta: Dict<Json>, template: Option<Template>): (m: Dict<string>)
    ensures Ordered(m)
    ensures Truthy(StoredMapping(meta)) ==> m == MappingOf(StoredMapping(meta))
    ensures Get(meta, "mapping_id").None? || !Truthy(Get(meta, "mapping_id").value) ==>
              m == MappingOf(StoredMapping(meta))
    ensures template.None? ==> m == MappingOf(StoredMapping(meta))
    ensures m != MappingOf(StoredMapping(meta)) ==>
              template.Some? && m == Reorder(template.value.mapping) && Lower(template.value.objectType) == SupportedType
  {
    var stored := StoredMapping(meta);
    var id := Get(meta, "mapping_id");
    if id.Some? && Truthy(id.value) && !Truthy(stored)
       && template.Some? && Lower(template.value.objectType) == SupportedType
    then
      ReorderEntries(template.value.mapping);
      Reorder(template.value.mapping)
    else MappingOf(stored)
  }

  // ----------------------------------------------------------- validation

  /** What validation may do to a row: keep its number, cells and earlier
      payload or error except as follows, and leave it either valid with a
      payload or in error with a message. */
  predicate Checked(row: JobRow, r: JobRow) {
    && r.rowNumber == row.rowNumber && r.rawData == row.rawData
    && ((r.status == Valid && r.payload.Some? && r.error == row.error)
        || (r.status == Error && r.error.Some? && r.payload == row.payload))
  }

  /** One pass of the validation loop: normalise the row (which may raise
      out of the loop), then validate the record and build its payload;
      either failure marks the row in error with the exception's text. */
  function CheckRow(row: JobRow, mapping: Dict<string>, syntax: EmailSyntax, describe: seq<Issue> -> string): (r: Result<JobRow, Abort>)
    ensures r.Err? <==> Normalize.Normalize(mapping, row.rawData, syntax).Err?
    ensures r.Err? ==> r.error == Normalize.Normalize(mapping, row.rawData, syntax).error
    ensures r.Ok? ==> Checked(row, r.value)
    ensures r.Ok? ==>
              var data := Normalize.Normalize(mapping, row.rawData, syntax).value;
              (r.value.status == Valid <==> Validate(data).Ok? && ToPayload(Validate(data).value).Ok?)
              && (r.value.status == Valid ==> r.value.payload == Some(ToPayload(Validate(data).value).value))
              && (Validate(data).Err? ==> r.value.error == Some(describe(Validate(data).error)))
              && (Validate(data).Ok? && ToPayload(Validate(data).value).Err? ==>
                    r.value.error == Some(ToPayload(Validate(data).value).error))
  {
    match Normalize.Normalize(mapping, row.rawData, syntax)
    case Err(a) => Err(a)
    case Ok(data) =>
      match Validate(data)
      case Err(issues) => Ok(row.(status := Error, error := Some(describe(issues))))
      case Ok(dump) =>
        match ToPayload(dump)
        case Err(m) => Ok(row.(status := Error, error := Some(m)))
        case Ok(p) => Ok(row.(status := Valid, payload := Some(p)))
  }

  /** As written, a row that normalises and validates but whose e-mail
      cells are all blank (or that has no e-mail column) ends in error with
      Python's unbound-local message: the nested loop of the payload
      builder reads `obj` before anything was popped into it. */
  lemma CheckRowWithoutEmail(row: JobRow, mapping: Dict<string>, syntax: EmailSyntax, describe: seq<Issue> -> string)
    requires NeverBare(mapping, "PrimaryEmailAddr") && LastCell(mapping, row.rawData, EmailPath).None?
    requires Normalize.Normalize(mapping, row.rawData, syntax).Ok?
    requires Validate(Normalize.Normalize(mapping, row.rawData, syntax).value).Ok?
    ensures CheckRow(row, mapping, syntax, describe) == Ok(row.(status := Error, error := Some(UnboundObj)))
  {
    var data := Normalize.Normalize(mapping, row.rawData, syntax).value;
    EmailSubModel();
    NormalizeNested(mapping, row.rawData, syntax, EmailPath);
    ValidateWithoutEmail(data);
    ToPayloadFailsWithoutEmail(Validate(data).value);
  }

  /** Where the validation loop stopped: the rows as saved so far, the
      position of the row whose normalisation raised, and what it raised. */
  datatype Raise = Raise(rows: seq<JobRow>, at: nat, abort: Abort)

  /** The validation loop over the rows in order, with `check` as its body:
      the updated rows and the number found valid, or where it stopped. */
  function ValidateRows(rows: seq<JobRow>, mapping: Dict<string>, check: (Dict<string>, JobRow) -> Result<JobRow, Abort>): (r: Result<(seq<JobRow>, nat), Raise>)
    ensures r.Ok? <==> forall i :: 0 <= i < |rows| ==> check(mapping, rows[i]).Ok?
    ensures r.Ok? ==> |r.value.0| == |rows| && forall i :: 0 <= i < |rows| ==> r.value.0[i] == check(mapping, rows[i]).value
    ensures r.Ok? ==> r.value.1 == CountStatus(r.value.0, Valid)
    ensures r.Err? ==>
              && r.error.at < |rows| && |r.error.rows| == |rows|
              && check(mapping, rows[r.error.at]) == Err(r.error.abort)
              && (forall i :: 0 <= i < r.error.at ==> check(mapping, rows[i]).Ok? && r.error.rows[i] == check(mapping, rows[i]).value)
              && (forall i :: r.error.at <= i < |rows| ==> r.error.rows[i] == rows[i])
  {
    if |rows| == 0 then Ok(([], 0))
    else
      match check(mapping, rows[0])
      case Err(a) => Err(Raise(rows, 0, a))
      case Ok(row) =>
        var rest := ValidateRows(rows[1..], mapping, check);
        assert forall i :: 1 <= i < |rows| ==> rows[i] == rows[1..][i - 1];
        match rest
        case Ok((done, n)) =>
          var all := [row] + done;
          assert all[1..] == done;
          Ok((all, (if row.status == Valid then 1 else 0) + n))
        case Err(Raise(done, at, a)) =>
          var all := [row] + done;
          assert all[1..] == done;
          Err(Raise(all, at + 1, a))
  }

  /** The job after the validation phase: every row checked, `valid_count`
      recorded, status importing; or the job as saved when a row raised. */
  function Validation(job: Job, mapping: Dict<string>, check: (Dict<string>, JobRow) -> Result<JobRow, Abort>): (r: Result<Job, (Job, Raise)>)
    requires forall m, row :: check(m, row).Ok? ==> Checked(row, check(m, row).value)
    ensures r.Ok? ==> |r.value.rows| == |job.rows| && r.value.status == Importing
    ensures r.Ok? ==> forall i :: 0 <= i < |r.value.rows| ==>
              Checked(job.rows[i], r.value.rows[i]) && (r.value.rows[i].status == Valid || r.value.rows[i].status == Error)
    ensures r.Ok? ==> Get(r.value.meta, "valid_count") == Some(JInt(CountStatus(r.value.rows, Valid)))
    ensures r.Ok? ==> forall k :: k != "valid_count" ==> Get(r.value.meta, k) == Get(job.meta, k)
    ensures r.Err? ==> r.error.0 == job.(rows := r.error.1.rows) && r.error.1.at < |job.rows|
    ensures r.Err? ==> check(mapping, job.rows[r.error.1.at]) == Err(r.error.1.abort)
    ensures r.Err? ==> |r.error.0.rows| == |job.rows|
    ensures r.Err? ==> forall i :: r.error.1.at <= i < |job.rows| ==> r.error.0.rows[i] == job.rows[i]
  {
    match ValidateRows(job.rows, mapping, check)
    case Err(h) => Err((job.(rows := h.rows), h))
    case Ok((rows, n)) =>
      Ok(job.(rows := rows, status := Importing, meta := Put(job.meta, "valid_count", JInt(n))))
  }

  // --------------------------------------------------------------- replies

  /** What a request for a row came back with: the client raised (with the
      exception's text), or a reply with its status code, its body parsed
      as JSON (or the parser's error text) and its raw text. */
  datatype Response =
    | Raised(message: string)
    | Replied(status: int, body: Result<Json, string>, text: string)

  /** The row's fate: QuickBooks created the customer (its `Id` and
      `SyncToken`), or the row failed with a message. */
  datatype Reply = Created(id: Option<Json>, syncToken: Json) | Rejected(message: string)

  /** The first entry of `Fault.Error` in an error reply, when the body is a
      dict whose `Fault` is a dict whose `Error` is a non-empty list starting
      with a dict. Any other shape either skips to the raw text or raises in
      the lookup, which also falls back to the raw text. */
  function FirstFault(body: Result<Json, string>): (r: Option<Dict<Json>>)
    ensures r.Some? ==> body.Ok? && body.value.JObj?
  {
    if body.Err? || !body.value.JObj? then None
    else
      var fault := Get(body.value.fields, "Fault").GetOr(JObj([]));
      if !fault.JObj? then None
      else
        var errors := Get(fault.fields, "Error").GetOr(JArr([]));
        if errors.JArr? && |errors.items| > 0 && errors.items[0].JObj? then Some(errors.items[0].fields)
        else None
  }

  /** "<Message> (Code: <code>) — <Detail>". */
  function FaultLine(message: string, code: string, detail: string): string {
    message + " (Code: " + code + ") \U{2014} " + detail
  }

  /** The line for a fault entry, with the defaults "Unknown error",
      "Unknown" and "" for missing keys. */
  function FaultSummary(err: Dict<Json>): string {
    FaultLine(PyStr(Get(err, "Message").GetOr(JStr("Unknown error"))),
              PyStr(Get(err, "code").GetOr(JStr("Unknown"))),
              PyStr(Get(err, "Detail").GetOr(JStr(""))))
  }

  /** The prefix of every error recorded for an error reply. */
  function StatusPrefix(status: int): string {
    "QBO " + IntToString(status) + ": "
  }

  /** What one response means for its row. A 200 or 201 reply whose body
      is not JSON, or is not a dict, or whose `Customer` is not a dict,
      raises inside the request's `try` and so fails the row as a failed
      request. */
  function Interpret(resp: Response): (r: Reply)
    ensures resp.Raised? ==> r == Rejected("Request failed: " + resp.message)
    ensures r.Created? ==> resp.Replied? && (resp.status == 200 || resp.status == 201)
    ensures resp.Replied? && resp.status != 200 && resp.status != 201 ==>
              r.Rejected? && StartsWith(r.message, StatusPrefix(resp.status))
    ensures resp.Replied? && resp.status != 200 && resp.status != 201 && FirstFault(resp.body).None? ==>
              r == Rejected(StatusPrefix(resp.status) + Take(resp.text, ReplyTextLimit))
    ensures resp.Replied? && resp.status != 200 && resp.status != 201 && FirstFault(resp.body).Some? ==>
              r == Rejected(StatusPrefix(resp.status) + FaultSummary(FirstFault(resp.body).value))
  {
    match resp
    case Raised(m) => Rejected("Request failed: " + m)
    case Replied(status, body, text) =>
      if status == 200 || status == 201 then
        match body
        case Err(m) => Rejected("Request failed: " + m)
        case Ok(j) =>
          if !j.JObj? then Rejected("Request failed: " + NoGetMessage(j))
          else
            var customer := Get(j.fields, "Customer").GetOr(JObj([]));
            if !customer.JObj? then Rejected("Request failed: " + NoGetMessage(customer))
            else Created(Get(customer.fields, "Id"), Get(customer.fields, "SyncToken").GetOr(JInt(0)))
      else
        var detail := if FirstFault(body).Some? then FaultSummary(FirstFault(body).value) else Take(text, ReplyTextLimit);
        assert StartsWith(StatusPrefix(status) + detail, StatusPrefix(status)) by {
          assert (StatusPrefix(status) + detail)[..|StatusPrefix(status)|] == StatusPrefix(status);
        }
        Rejected(StatusPrefix(status) + detail)
  }

  /** An error document in the shape QuickBooks sends. */
  function FaultDocument(message: string, code: string, detail: string): Json {
    JObj([("Fault", JObj([("Error", JArr([JObj([("Message", JStr(message)), ("code", JStr(code)), ("Detail", JStr(detail))])]))]))])
  }

  /** An error reply carrying a QuickBooks fault is recorded with the fault's
      message, code and detail. */
  lemma FaultReplyMessage(status: int, message: string, code: string, detail: string, text: string)
    requires status != 200 && status != 201
    ensures Interpret(Replied(status, Ok(FaultDocument(message, code, detail)), text))
            == Rejected(StatusPrefix(status) + FaultLine(message, code, detail))
  {
    var err := [("Message", JStr(message)), ("code", JStr(code)), ("Detail", JStr(detail))];
    FaultDocumentFirst(message, code, detail);
    FaultEntries(message, code, detail);
  }

  /** The first fault entry of the document. */
  lemma FaultDocumentFirst(message: string, code: string, detail: string)
    ensures FirstFault(Ok(FaultDocument(message, code, detail)))
            == Some([("Message", JStr(message)), ("code", JStr(code)), ("Detail", JStr(detail))])
  {
    var err := [("Message", JStr(message)), ("code", JStr(code)), ("Detail", JStr(detail))];
    GetSingle("Fault", JObj([("Error", JArr([JObj(err)]))]));
    GetSingle("Error", JArr([JObj(err)]));
  }

  /** The three lookups in a fault entry. */
  lemma FaultEntries(message: string, code: string, detail: string)
    ensures var err := [("Message", JStr(message)), ("code", JStr(code)), ("Detail", JStr(detail))];
            && Get(err, "Message") == Some(JStr(message))
            && Get(err, "code") == Some(JStr(code))
            && Get(err, "Detail") == Some(JStr(detail))
  {
    var tail := [("code", JStr(code)), ("Detail", JStr(detail))];
    assert [("Message", JStr(message)), ("code", JStr(code)), ("Detail", JStr(detail))] == [("Message", JStr(message))] + tail;
    assert tail == [("code", JStr(code))] + [("Detail", JStr(detail))];
    GetSingle("Detail", JStr(detail));
    GetPrepend("code", JStr(code), [("Detail", JStr(detail))], "Detail");
    GetPrepend("Message", JStr(message), tail, "code");
    GetPrepend("Message", JStr(message), tail, "Detail");
    GetPrepend("Message", JStr(message), tail, "Message");
  }

  /** A created customer without a `SyncToken` records the token 0. */
  lemma CreatedDefaults(status: int, id: Json, text: string)
    requires status == 200 || status == 201
    ensures Interpret(Replied(status, Ok(JObj([("Customer", JObj([("Id", id)]))])), text)) == Created(Some(id), JInt(0))
  {
    GetSingle("Customer", JObj([("Id", id)]));
    GetSingle("Id", id);
  }

  /** An error reply's recorded message is never longer than its prefix and
      1000 characters when no fault entry can be read from it. */
  lemma UnreadableReplyBounded(status: int, body: Result<Json, string>, text: string)
    requires status != 200 && status != 201 && FirstFault(body).None?
    ensures |Interpret(Replied(status, body, text)).message| <= |StatusPrefix(status)| + ReplyTextLimit
  {
  }

  // --------------------------------------------------------------- import

  /** One pass of the import loop on a valid row, given the response to
      its request. */
  function Import(row: JobRow, resp: Response): (r: JobRow)
    ensures r.rowNumber == row.rowNumber && r.rawData == row.rawData && r.payload == row.payload
    ensures r.status == Success <==> Interpret(resp).Created?
    ensures r.status == Success ==> r.error == row.error
    ensures r.status != Success ==> r.status == Error && r.error == Some(Interpret(resp).message)
  {
    match Interpret(resp)
    case Created(_, _) => row.(status := Success)
    case Rejected(m) => row.(status := Error, error := Some(m))
  }

  /** The import loop over the valid rows, posting each row's payload;
      `answer(n, p)` is the response to the request made for row `n` with
      payload `p`. Gives the rows and the number of customers created. */
  function ImportRows(rows: seq<JobRow>, answer: (int, Option<Dict<Json>>) -> Response): (r: (seq<JobRow>, nat))
    ensures |r.0| == |rows|
    ensures forall i :: 0 <= i < |rows| && rows[i].status != Valid ==> r.0[i] == rows[i]
    ensures forall i :: 0 <= i < |rows| && rows[i].status == Valid ==>
              r.0[i] == Import(rows[i], answer(rows[i].rowNumber, rows[i].payload))
    ensures r.1 <= |rows|
  {
    if |rows| == 0 then ([], 0)
    else
      var (done, n) := ImportRows(rows[1..], answer);
      var row := rows[0];
      var row' := if row.status == Valid then Import(row, answer(row.rowNumber, row.payload)) else row;
      var all := [row'] + done;
      assert all[1..] == done;
      assert forall i :: 1 <= i < |rows| ==> rows[i] == rows[1..][i - 1] && all[i] == done[i - 1];
      (all, n + (if row'.status == Success && row.status == Valid then 1 else 0))
  }

  /** The tallies of the import loop: no row is left valid, the count it
      returns is the number of new successes, and every valid row that was
      not created became an error. */
  lemma {:induction false} ImportRowsCounts(rows: seq<JobRow>, answer: (int, Option<Dict<Json>>) -> Response)
    ensures var (done, n) := ImportRows(rows, answer);
            && CountStatus(done, Valid) == 0
            && CountStatus(done, Success) == CountStatus(rows, Success) + n
            && CountStatus(done, Error) + n == CountStatus(rows, Error) + CountStatus(rows, Valid)
  {
    if |rows| > 0 {
      ImportRowsCounts(rows[1..], answer);
      var (done, n) := ImportRows(rows, answer);
      assert done[1..] == ImportRows(rows[1..], answer).0;
    }
  }

  /** The import and final phases: post the valid rows, then "completed"
      when every valid row was created (so also when none was valid) and
      "partial_success" otherwise, recording `success_count`. */
  function ImportJob(job: Job, answer: (int, Option<Dict<Json>>) -> Response): (j: Job)
    ensures |j.rows| == |job.rows|
    ensures forall i :: 0 <= i < |job.rows| && job.rows[i].status != Valid ==> j.rows[i] == job.rows[i]
    ensures forall i :: 0 <= i < |job.rows| && job.rows[i].status == Valid ==>
              j.rows[i] == Import(job.rows[i], answer(job.rows[i].rowNumber, job.rows[i].payload))
    ensures j.status == Completed || j.status == PartialSuccess
    ensures forall k :: k != "success_count" ==> Get(j.meta, k) == Get(job.meta, k)
  {
    var (rows, success) := ImportRows(job.rows, answer);
    var status := if success == CountStatus(job.rows, Valid) then Completed else PartialSuccess;
    job.(rows := rows, status := status, meta := Put(job.meta, "success_count", JInt(success)))
  }

  /** The final status is "completed" exactly when no row failed during the
      import, and `success_count` is the number of rows the import turned
      into created customers. */
  lemma ImportJobStatus(job: Job, answer: (int, Option<Dict<Json>>) -> Response)
    ensures var j := ImportJob(job, answer);
            && (j.status == Completed <==> CountStatus(j.rows, Error) == CountStatus(job.rows, Error))
            && Get(j.meta, "success_count") == Some(JInt(CountStatus(j.rows, Success) - CountStatus(job.rows, Success)))
  {
    ImportRowsCounts(job.rows, answer);
    ImportJobParts(job, answer);
  }

  /** `ImportJob` keeps the imported rows, compares their count with the
      valid rows and records it. */
  lemma ImportJobParts(job: Job, answer: (int, Option<Dict<Json>>) -> Response)
    ensures var (rows, success) := ImportRows(job.rows, answer);
            var j := ImportJob(job, answer);
            && j.rows == rows
            && (j.status == Completed <==> success == CountStatus(job.rows, Valid))
            && Get(j.meta, "success_count") == Some(JInt(success))
  {
  }

  // ------------------------------------------------------------------ run

  /** Why a run ended before its final phase: normalising a row raised (the
      row's number and what it raised), or no QuickBooks client could be
      built. */
  datatype Stop = RowRaised(rowNumber: int, abort: Abort) | NoClient(message: string)

  /** A run either reaches its end (a final status or the unsupported-type
      exit) or stops with the job as last saved. */
  datatype Outcome = Finished(job: Job) | Stopped(job: Job, reason: Stop)

  /** The run with `check` as the body of the validation loop. `objectType`
      is the worker's argument (the start request's path), not the job's own
      column. */
  function RunWith(job: Job, records: seq<Dict<string>>, objectType: string, template: Option<Template>,
                   check: (Dict<string>, JobRow) -> Result<JobRow, Abort>,
                   clientError: Option<string>, answer: (int, Option<Dict<Json>>) -> Response): (o: Outcome)
    requires forall m, row :: check(m, row).Ok? ==> Checked(row, check(m, row).value)
    ensures objectType != SupportedType ==> o == Finished(Unsupported(Parse(job, records), objectType))
    ensures o.Stopped? && o.reason.RowRaised? ==> o.job.status == Validating
    ensures o.Stopped? && o.reason.RowRaised? ==>
              var parsed := Parse(job, records);
              exists i :: 0 <= i < |parsed.rows| && parsed.rows[i].rowNumber == o.reason.rowNumber
                          && check(MappingFor(parsed.meta, template), parsed.rows[i]) == Err(o.reason.abort)
    ensures o.Stopped? && o.reason.NoClient? ==> o.job.status == Importing
  {
    var parsed := Parse(job, records);
    if objectType != SupportedType then Finished(Unsupported(parsed, objectType))
    else
      var mapping := MappingFor(parsed.meta, template);
      match Validation(parsed, mapping, check)
      case Err((saved, h)) => Stopped(saved, RowRaised(parsed.rows[h.at].rowNumber, h.abort))
      case Ok(validated) =>
        if clientError.Some? then Stopped(validated, NoClient(clientError.value))
        else Finished(ImportJob(validated, answer))
  }

  /** The validation loop's body as written: it raises exactly when
      normalising does, and otherwise checks the row. */
  function AsWrittenCheck(syntax: EmailSyntax, describe: seq<Issue> -> string): (check: (Dict<string>, JobRow) -> Result<JobRow, Abort>)
    ensures forall m, row :: check(m, row) == CheckRow(row, m, syntax, describe)
    ensures forall m, row :: check(m, row).Err? <==> Normalize.Normalize(m, row.rawData, syntax).Err?
    ensures forall m, row :: check(m, row).Ok? ==> Checked(row, check(m, row).value)
  {
    (m, row) => CheckRow(row, m, syntax, describe)
  }

  /** `import_valid_rows_task` as written: normalising runs outside the
      per-row `try`, so a row it raises on stops the whole run. */
  function Run(job: Job, records: seq<Dict<string>>, objectType: string, template: Option<Template>,
               syntax: EmailSyntax, describe: seq<Issue> -> string,
               clientError: Option<string>, answer: (int, Option<Dict<Json>>) -> Response): (o: Outcome)
    ensures o.Stopped? && o.reason.RowRaised? ==>
              var parsed := Parse(job, records);
              exists i :: 0 <= i < |parsed.rows| && parsed.rows[i].rowNumber == o.reason.rowNumber
                          && Normalize.Normalize(MappingFor(parsed.meta, template), parsed.rows[i].rawData, syntax) == Err(o.reason.abort)
  {
    RunWith(job, records, objectType, template, AsWrittenCheck(syntax, describe), clientError, answer)
  }

  /** The text of what normalising raised: the sub-model's validation error,
      or the item assignment into a text value. */
  function AbortText(a: Abort, describe: seq<Issue> -> string): string {
    match a
    case SubModelError(i) => describe([i])
    case NotADict(_) => "'str' object does not support item assignment"
  }

  /** The loop body with normalising inside the `try`: what it raises marks
      the row in error like any other validation failure. */
  function CheckRowGuarded(row: JobRow, mapping: Dict<string>, syntax: EmailSyntax, describe: seq<Issue> -> string): (r: JobRow)
    ensures Checked(row, r)
    ensures Normalize.Normalize(mapping, row.rawData, syntax).Err? ==>
              r.status == Error && r.error == Some(AbortText(Normalize.Normalize(mapping, row.rawData, syntax).error, describe))
    ensures CheckRow(row, mapping, syntax, describe).Ok? ==> r == CheckRow(row, mapping, syntax, describe).value
  {
    match CheckRow(row, mapping, syntax, describe)
    case Ok(r) => r
    case Err(a) => row.(status := Error, error := Some(AbortText(a, describe)))
  }

  /** The validation loop's body with normalising inside the `try`. */
  function GuardedCheck(syntax: EmailSyntax, describe: seq<Issue> -> string): (check: (Dict<string>, JobRow) -> Result<JobRow, Abort>)
    ensures forall m, row :: check(m, row) == Ok(CheckRowGuarded(row, m, syntax, describe))
    ensures forall m, row :: check(m, row).Ok? && Checked(row, check(m, row).value)
  {
    (m, row) => Ok(CheckRowGuarded(row, m, syntax, describe))
  }

  /** The worker with normalising moved inside the per-row `try`. */
  function RunGuarded(job: Job, records: seq<Dict<string>>, objectType: string, template: Option<Template>,
                      syntax: EmailSyntax, describe: seq<Issue> -> string,
                      clientError: Option<string>, answer: (int, Option<Dict<Json>>) -> Response): (o: Outcome)
    ensures !(o.Stopped? && o.reason.RowRaised?)
    ensures objectType == SupportedType && clientError.None? ==> o.Finished?
  {
    RunWith(job, records, objectType, template, GuardedCheck(syntax, describe), clientError, answer)
  }

  // ----------------------------------------------------------- properties

  /** An unsupported object type ends the run right after parsing: status
      "error", the message in `meta`, and every parsed row still pending. */
  lemma RunUnsupported(job: Job, records: seq<Dict<string>>, objectType: string, template: Option<Template>,
                       syntax: EmailSyntax, describe: seq<Issue> -> string,
                       clientError: Option<string>, answer: (int, Option<Dict<Json>>) -> Response)
    requires objectType != SupportedType
    ensures var o := Run(job, records, objectType, template, syntax, describe, clientError, answer);
            && o.Finished? && o.job.status == Failed
            && Get(o.job.meta, "error") == Some(JStr("Unsupported object_type: " + objectType))
            && |o.job.rows| == |job.rows| + |records|
            && forall i :: |job.rows| <= i < |o.job.rows| ==> o.job.rows[i].status == Pending && o.job.rows[i].payload.None?
  {
  }

  /** A run that reaches its final phase leaves every row created (with its
      payload) or in error (with a message), and ends "completed" exactly
      when as many customers were created as rows were found valid. */
  lemma {:induction false} RunFinished(job: Job, records: seq<Dict<string>>, template: Option<Template>,
                                       check: (Dict<string>, JobRow) -> Result<JobRow, Abort>,
                                       answer: (int, Option<Dict<Json>>) -> Response)
    requires forall m, row :: check(m, row).Ok? ==> Checked(row, check(m, row).value)
    requires RunWith(job, records, SupportedType, template, check, None, answer).Finished?
    ensures var j := RunWith(job, records, SupportedType, template, check, None, answer).job;
            && |j.rows| == |job.rows| + |records|
            && (forall i :: 0 <= i < |j.rows| ==>
                  (j.rows[i].status == Success && j.rows[i].payload.Some?)
                  || (j.rows[i].status == Error && j.rows[i].error.Some?))
            && Get(j.meta, "success_count") == Some(JInt(CountStatus(j.rows, Success)))
            && (j.status == Completed <==> Get(j.meta, "success_count") == Get(j.meta, "valid_count"))
  {
    RunFinishedJob(job, records, template, check, answer);
    FinalPhase(Validation(Parse(job, records), MappingFor(Parse(job, records).meta, template), check).value, answer);
  }

  /** A run that reaches its final phase ends with the import of the rows
      as validated. */
  lemma RunFinishedJob(job: Job, records: seq<Dict<string>>, template: Option<Template>,
                       check: (Dict<string>, JobRow) -> Result<JobRow, Abort>,
                       answer: (int, Option<Dict<Json>>) -> Response)
    requires forall m, row :: check(m, row).Ok? ==> Checked(row, check(m, row).value)
    requires RunWith(job, records, SupportedType, template, check, None, answer).Finished?
    ensures var v := Validation(Parse(job, records), MappingFor(Parse(job, records).meta, template), check);
            && v.Ok?
            && RunWith(job, records, SupportedType, template, check, None, answer).job == ImportJob(v.value, answer)
  {
  }

  /** The final phase on rows that are all valid with a payload or in error
      with a message, `valid_count` counting the valid ones. */
  lemma FinalPhase(job: Job, answer: (int, Option<Dict<Json>>) -> Response)
    requires forall i :: 0 <= i < |job.rows| ==>
               (job.rows[i].status == Valid && job.rows[i].payload.Some?)
               || (job.rows[i].status == Error && job.rows[i].error.Some?)
    requires Get(job.meta, "valid_count") == Some(JInt(CountStatus(job.rows, Valid)))
    ensures var j := ImportJob(job, answer);
            && |j.rows| == |job.rows|
            && (forall i :: 0 <= i < |j.rows| ==>
                  (j.rows[i].status == Success && j.rows[i].payload.Some?)
                  || (j.rows[i].status == Error && j.rows[i].error.Some?))
            && Get(j.meta, "success_count") == Some(JInt(CountStatus(j.rows, Success)))
            && (j.status == Completed <==> Get(j.meta, "success_count") == Get(j.meta, "valid_count"))
  {
    FinalCounts(job, answer);
  }

  /** The counts part of `FinalPhase`. */
  lemma FinalCounts(job: Job, answer: (int, Option<Dict<Json>>) -> Response)
    requires forall i :: 0 <= i < |job.rows| ==> job.rows[i].status == Valid || job.rows[i].status == Error
    requires Get(job.meta, "valid_count") == Some(JInt(CountStatus(job.rows, Valid)))
    ensures var j := ImportJob(job, answer);
            && Get(j.meta, "success_count") == Some(JInt(CountStatus(j.rows, Success)))
            && (j.status == Completed <==> Get(j.meta, "success_count") == Get(j.meta, "valid_count"))
  {
    var j := ImportJob(job, answer);
    ImportJobStatus(job, answer);
    CountPositive(job.rows, Success);
    assert CountStatus(job.rows, Success) == 0;
    assert Get(j.meta, "valid_count") == Get(job.meta, "valid_count");
  }

  /** With normalising inside the `try`, a run on a supported type with a
      client always reaches its final phase. */
  lemma RunGuardedFinishes(job: Job, records: seq<Dict<string>>, template: Option<Template>,
                           syntax: EmailSyntax, describe: seq<Issue> -> string,
                           answer: (int, Option<Dict<Json>>) -> Response)
    ensures RunGuarded(job, records, SupportedType, template, syntax, describe, None, answer).Finished?
  {
  }

  /** As written, a single row whose e-mail the syntax check refuses stops
      the run in "validating" with the job as parsed, so that row stays
      pending. */
  lemma BadEmailStopsRun(job: Job, syntax: EmailSyntax, describe: seq<Issue> -> string,
                         answer: (int, Option<Dict<Json>>) -> Response)
    requires job.rows == [] && syntax("x").None?
    requires Get(job.meta, "mapping") == Some(MappingJson([("Email", EmailPath)]))
    ensures Run(job, [[("Email", "x")]], SupportedType, None, syntax, describe, None, answer)
            == Stopped(Parse(job, [[("Email", "x")]]), RowRaised(FirstDataLine, SubModelError(Issue("Address", InvalidEmailSyntax))))
  {
    var parsed := Parse(job, [[("Email", "x")]]);
    BadEmailSetup(job);
    BadEmailRaises(syntax);
    var h := ValidateRows(parsed.rows, [("Email", EmailPath)], AsWrittenCheck(syntax, describe)).error;
    assert h.rows == parsed.rows;
  }

  /** With normalising inside the `try`, the same row ends the run in error
      with the syntax check's refusal as its message. */
  lemma BadEmailGuarded(job: Job, syntax: EmailSyntax, describe: seq<Issue> -> string,
                        answer: (int, Option<Dict<Json>>) -> Response)
    requires job.rows == [] && syntax("x").None?
    requires Get(job.meta, "mapping") == Some(MappingJson([("Email", EmailPath)]))
    ensures var o := RunGuarded(job, [[("Email", "x")]], SupportedType, None, syntax, describe, None, answer);
            && o.Finished?
            && o.job.rows == [JobRow(FirstDataLine, [("Email", "x")], Error, Some(describe([Issue("Address", InvalidEmailSyntax)])), None)]
  {
    var parsed := Parse(job, [[("Email", "x")]]);
    BadEmailSetup(job);
    BadEmailGuardedRow(job, syntax, describe);
    var validated := Validation(parsed, [("Email", EmailPath)], GuardedCheck(syntax, describe)).value;
    assert ImportJob(validated, answer).rows == validated.rows;
  }

  /** The validation phase of that run marks the row in error. */
  lemma BadEmailGuardedRow(job: Job, syntax: EmailSyntax, describe: seq<Issue> -> string)
    requires job.rows == [] && syntax("x").None?
    ensures var v := Validation(Parse(job, [[("Email", "x")]]), [("Email", EmailPath)], GuardedCheck(syntax, describe));
            && v.Ok?
            && v.value.rows == [JobRow(FirstDataLine, [("Email", "x")], Error, Some(describe([Issue("Address", InvalidEmailSyntax)])), None)]
  {
    var mapping := [("Email", EmailPath)];
    var parsed := Parse(job, [[("Email", "x")]]);
    var row := JobRow(FirstDataLine, [("Email", "x")], Pending, None, None);
    assert parsed.rows == [row];
    BadEmailRaises(syntax);
    GuardedRaisedRow(row, mapping, syntax, describe);
    ValidationSingle(parsed, mapping, GuardedCheck(syntax, describe));
  }

  /** Validating a job with one row whose check does not raise gives that
      row as checked. */
  lemma ValidationSingle(job: Job, mapping: Dict<string>, check: (Dict<string>, JobRow) -> Result<JobRow, Abort>)
    requires forall m, row :: check(m, row).Ok? ==> Checked(row, check(m, row).value)
    requires |job.rows| == 1 && check(mapping, job.rows[0]).Ok?
    ensures Validation(job, mapping, check).Ok?
    ensures Validation(job, mapping, check).value.rows == [check(mapping, job.rows[0]).value]
  {
  }

  /** A row whose normalisation raises is marked in error with the text of
      what was raised, its payload untouched. */
  lemma GuardedRaisedRow(row: JobRow, mapping: Dict<string>, syntax: EmailSyntax, describe: seq<Issue> -> string)
    requires Normalize.Normalize(mapping, row.rawData, syntax).Err?
    ensures CheckRowGuarded(row, mapping, syntax, describe)
            == row.(status := Error, error := Some(AbortText(Normalize.Normalize(mapping, row.rawData, syntax).error, describe)))
  {
  }

  /** The job parsed from the single record, and the mapping it reads. */
  lemma BadEmailSetup(job: Job)
    requires job.rows == []
    requires Get(job.meta, "mapping") == Some(MappingJson([("Email", EmailPath)]))
    ensures Parse(job, [[("Email", "x")]]).rows == [JobRow(FirstDataLine, [("Email", "x")], Pending, None, None)]
    ensures MappingFor(Parse(job, [[("Email", "x")]]).meta, None) == [("Email", EmailPath)]
  {
    MappingRoundTrip([("Email", EmailPath)]);
    ReorderOne(("Email", EmailPath));
  }

  /** Normalising the cell "x" mapped to the e-mail path raises the syntax
      check's refusal. */
  lemma BadEmailRaises(syntax: EmailSyntax)
    requires syntax("x").None?
    ensures Normalize.Normalize([("Email", EmailPath)], [("Email", "x")], syntax)
            == Err(SubModelError(Issue("Address", InvalidEmailSyntax)))
  {
    CellX();
    EmailStepRaises(syntax);
    FirstStepRaises("Email", EmailPath, [("Email", "x")], syntax);
  }

  /** The e-mail step on the text "x" raises the syntax check's refusal. */
  lemma EmailStepRaises(syntax: EmailSyntax)
    requires syntax("x").None?
    ensures Step([], EmailPath, "x", syntax) == Err(SubModelError(Issue("Address", InvalidEmailSyntax)))
  {
    assert RouteOf(EmailPath) == EmailRoute;
  }

  /** A one-entry mapping whose step raises on a non-empty cell: the loop
      raises what the step raised. */
  lemma FirstStepRaises(header: string, path: string, row: Dict<string>, syntax: EmailSyntax)
    requires Cell(row, header) != "" && Step([], path, Cell(row, header), syntax).Err?
    ensures Collect([(header, path)], row, syntax, []) == Step([], path, Cell(row, header), syntax)
  {
  }

  /** The cell "x" under the header "Email". */
  lemma CellX()
    ensures Cell([("Email", "x")], "Email") == "x"
  {
    assert Get([("Email", "x")], "Email") == Some("x") by {
      GetSingle("Email", "x");
    }
    assert Strip("x") == "x" by {
      StripUnchanged("x");
    }
  }
}

=== FILE: wrappers.dfy ===
/** Option and Result, the failure-compatible wrappers used across the model
    for Python's `None` and for raised exceptions. */
module Wrappers {

  datatype Option<+T> = None | Some(value: T) {

    predicate IsFailure() {
      None?
    }

    function PropagateFailure<U>(): Option<U>
      requires None?
    {
      None
    }

    function Extract(): T
      requires Some?
    {
      value
    }

    /** Python's `x or default` / `d.get(k, default)` once the lookup is done. */
    function GetOr(default: T): T {
      match this
      case Some(v) => v
      case None => default
    }
  }

  datatype Result<+R, +E> = Ok(value: R) | Err(error: E) {

    predicate IsFailure() {
      Err?
    }

    function PropagateFailure<U>(): Result<U, E>
      requires Err?
    {
      Err(error)
    }

    function Extract(): R
      requires Ok?
    {
      value
    }
  }
}
